=== FILE: README.md ===
# ChatWork AI manager — a Dafny model of its core

The system watches a set of ChatWork rooms. It:

- polls each room for messages and keeps a per-room cache;
- keeps a log of messages that vanished or were tagged `[delete]`/`[deleted]`;
- runs a rule-based analyser over every new message: priority, mentions, questions, tasks, sentiment, and whether a reply is needed;
- schedules escalating reminder alerts for messages that need a reply;
- serves all of this through a small HTTP/WebSocket API;
- renders it in a browser dashboard that converts ChatWork markup to HTML and reconnects its push socket with a linear back-off.

This project restates that core as pure Dafny functions over immutable datatypes and proves what the code promises. The modules follow the program's files:

| module | models |
|---|---|
| `Base` | `Option`/`Result`, distinctness of sequences |
| `Text` | the Python and JavaScript string operations the core relies on (`strip`, `lower`, `split`, `[-k:]`, string ordering, `str(int)`) |
| `Markup` | `formatChatWorkMessage` of the dashboard, pass by pass |
| `Outgoing` | reply, reaction and quote bodies built by the ChatWork client |
| `PushChannel` | the dashboard's WebSocket reconnect logic and message dispatch |
| `Elapsed` | the two elapsed-time formatters (dashboard, in milliseconds, and alert system, in seconds) |
| `Rooms` | basic and detailed room categorisation (server) and the dashboard grouping |
| `MessageSync` | message fetch, the deletion log, new-message watermark |
| `Alerts` | pending alerts, thresholds, escalation, summary, clean-up |
| `Analyzer` | the rule-based message analyser |
| `Manager` | the monitoring loop, processed-message bookkeeping and status |
| `Api` | the JSON endpoints and the WebSocket ping handler |
| `Settings` | `.env` loading and configuration validation |

Clocks, network replies, the regular-expression engine's task patterns and dictionary iteration orders are not computed here. They are parameters:

- times are `int` seconds or milliseconds, or ISO strings;
- a fetched page is a `seq<Message>`;
- a failing analysis or ChatWork fetch is a `fails` flag, or a `None` outcome;
- the order in which a Python `dict` or `set` is walked is an explicit `order: seq<string>` that enumerates the keys.

Behaviours of the code kept as written:

- The high-urgency keyword `ASAP` is searched in the lowered text, so it never matches (`Analyzer.AsapNeverMatches`, `Analyzer.AsapIsDead`).
- The no-reply words are searched case-insensitively anywhere, so `ok` inside `book` suppresses a reply (`Analyzer.OkRulesOutReply`).
- A WebSocket `status_update` push has no handler: the dashboard calls a method it never defines (`PushChannel.Dispatch` yields `MissingStatusHandler`).
- Blank entries in `MONITORED_ROOMS` (`" , "`) survive validation as empty room ids (`Settings.BlankRoomsPassValidation`).
- The alert-time formatter is fed a negative duration when the clock steps back. Python's floor division then prints `23時間59分` for minus one minute (`Elapsed.AlertBeforeStart`).

## Model

| member | source | states |
|---|---|---|
| `Markup.Format` | static/js/dashboard.js:904-951 | An empty body renders as empty. A group-creation notice renders as the fixed "group chat created" frame around the escaped chat name, the name being taken after the deletion tags are replaced. Every other outcome contains no raw newline, because each one becomes `<br>`. |
| `Markup.CreatedShowsOnlyName` | static/js/dashboard.js:917-923 | Two group-creation messages with the same chat name render the same, whatever else they contain. |
| `Markup.FormatPlain` | static/js/dashboard.js:904-951 | A body with no markup and no URL is unchanged except that newlines become `<br>`. |
| `Markup.FormatDeletedOnly` | static/js/dashboard.js:912-914 | A body that is exactly `[delete]` or `[deleted]` renders as the deleted badge alone. |
| `Markup.DeletePassRemovesTags` | static/js/dashboard.js:912-914 | After the delete pass neither `[delete]` nor `[deleted]` occurs anywhere in the text. |
| `Markup.DeletePassPlain` | static/js/dashboard.js:912-914 | Text without `[` is left unchanged by the delete pass. |
| `Markup.ChatNameOf` | static/js/dashboard.js:919-923 | The captured room name is the text between the first chat-name marker and the nearest following set marker on the same line. |
| `Markup.ChatName` | static/js/dashboard.js:919-921 | A non-empty captured name implies both markers occur, and the name never spans a line terminator (`.` does not cross lines). |
| `Markup.FormatSystemNotice` | static/js/dashboard.js:926-928 | An `[info]…[/info]` body without the creation marker renders as the generic system-message frame, deletion tags inside it included. The deletion badge keeps both ends of the block and never forms the marker. |
| `Markup.MentionPassRemovesTags` | static/js/dashboard.js:932 | After the mention pass no `[To:digits]` tag remains at any position. |
| `Markup.MentionPassOfTag` | static/js/dashboard.js:932 | A leading `[To:n]` with at least one digit becomes the mention span, and the rest is processed alone. |
| `Markup.MentionPassPlain` | static/js/dashboard.js:932 | Text without `[` is left unchanged by the mention pass. |
| `Markup.PairPassFirstPair` | static/js/dashboard.js:935-941 | The first opening tag and the nearest closing tag after it are replaced by the HTML frame around the text between them (lazy `.*?` with the `s` flag). |
| `Markup.PairPassUnclosed` | static/js/dashboard.js:935-941 | When no opening tag is followed by its closing tag, the task, quote and code passes leave the text unchanged. |
| `Markup.LinkPassOfUrl` | static/js/dashboard.js:944 | `http://` or `https://` plus a run of non-space characters becomes one anchor, and scanning resumes at the first whitespace. |
| `Markup.LinkPassPlain` | static/js/dashboard.js:944 | Text with no URL scheme is left unchanged by the link pass. |
| `Markup.FormatMentionReply` | static/js/dashboard.js:932-947 | A reply body `[To:id] text` renders as the mention span, a space, and the text with `<br>` line breaks. |
| `Outgoing.ReplyBody` | src/chatwork_api.py:244-253 | A truthy sender gives a body starting with `[To:`. Otherwise the body starts with the `> 返信: ` prefix. Either way it ends with the reply text. |
| `Outgoing.ReplyRoundTrip` | src/chatwork_api.py:244-253 | Parsing a built reply gives back the addressee (or nothing) and the exact reply text, for senders without `]`. |
| `Outgoing.ReplyRendersMention` | src/chatwork_api.py:248-249 | A reply addressed to a numeric account id shows on the dashboard as a mention followed by the text. |
| `Outgoing.Reaction` | src/chatwork_api.py:259-272 | A known reaction name is replaced by its emoji (one or two code points). Any other name is sent unchanged. |
| `Outgoing.ReactionIdempotent` | src/chatwork_api.py:263-272 | Mapping a reaction twice is the same as mapping it once. |
| `Outgoing.ReactionInjective` | src/chatwork_api.py:263-270 | Different known reaction names give different emoji. |
| `Outgoing.StripMarkup` | src/chatwork_api.py:358 | After removing every `[…]` on one line, no complete bracket tag remains. |
| `Outgoing.StripMarkupIdempotent` | src/chatwork_api.py:358 | Stripping markup twice is the same as stripping it once. |
| `Outgoing.StripMarkupTag` | src/chatwork_api.py:358 | A leading one-line tag is dropped entirely. |
| `Outgoing.QuoteText` | src/chatwork_api.py:358-360 | The quoted text is the original with its markup tags removed and its surrounding whitespace stripped. It is kept whole up to 100 characters; a longer one is cut to its first 100 characters followed by `...`. It has no markup tag left. |
| `Outgoing.QuoteBody` | src/chatwork_api.py:354-365 | The quote starts with `[qt]`. It ends with a newline and the comment when a comment is given, and with `[/qt]` otherwise. |
| `Outgoing.QuoteRoundTrip` | src/chatwork_api.py:358-365 | Reading a quote back gives the quoted text between `[qt]` and the first `[/qt]`, and the comment after the newline exactly when a non-empty comment was given. |
| `Outgoing.QuotePlain` | src/chatwork_api.py:358-363 | A short plain text is quoted verbatim inside `[qt]…[/qt]`. |
| `Outgoing.QuoteTextOfReply` | src/chatwork_api.py:358-360 | Quoting a reply we sent recovers exactly the reply text: the `[To:…]` tag and the space after it are removed. |
| `Outgoing.QuoteOfReply` | src/chatwork_api.py:354-363 | The quote of a reply we sent frames exactly the reply text. |
| `PushChannel.OnEvent` | static/js/dashboard.js:344-387 | Opening resets the attempt counter. A close schedules a retry only while attempts < 5, after `1000 × attempt` ms, and increments the counter. Errors never retry. The counter stays within 0..5. |
| `PushChannel.RunValid` | static/js/dashboard.js:7-9 | Any event sequence keeps the attempt counter within the maximum of 5. |
| `PushChannel.ClosesBackOff` | static/js/dashboard.js:379-387 | Repeated closes produce delays 1000, 2000, … up to the fifth attempt and then stop. |
| `PushChannel.OpenRestoresBackOff` | static/js/dashboard.js:352-356 | After a successful open, six closes give the full back-off schedule again: 1000 to 5000 ms. |
| `PushChannel.Dispatch` | static/js/dashboard.js:389-403 | `new_message` is shown, `status_update` reaches the undefined handler, `pong` is a keep-alive, and anything else is logged. |
| `Elapsed.DashboardParts` | static/js/dashboard.js:1692-1706 | For at least a day: whole days and hours below 24 that bracket the duration. Between an hour and a day: hours and minutes. Below an hour: minutes. Each part is the floor of the duration. |
| `Elapsed.AlertParts` | src/alert_system.py:220-233 | For at least a day: days, hours and minutes that bracket the duration. Otherwise, for non-negative durations, hours and minutes or minutes alone, each the floor of the duration. |
| `Elapsed.SameTextBelowADay` | src/alert_system.py:220-233 | Below a day, the alert formatter and the dashboard formatter print the same text for the same duration. |
| `Elapsed.AlertAddsMinutes` | src/alert_system.py:226-227 | From a day on, the alert text is the dashboard text followed by the minutes. |
| `Rooms.DetailedCategory` | src/chatwork_api.py:484-525 | `direct` and `my` room types are decided by type alone; every other room is categorised by its name. |
| `Rooms.DetailedIsFirstHit` | src/chatwork_api.py:497-525 | A group room's detailed category is the first of client, project, team, meeting, development, announcement whose keyword its lowered name contains, or "others". |
| `Rooms.BasicIsFirstHit` | src/chatwork_api.py:449-482 | A group room's basic category is the first of client, project, team, development whose keyword its lowered name contains, or "others". |
| `Rooms.BasicVersusDetailed` | src/chatwork_api.py:449-525 | The basic categorisation never yields meetings or announcements. A room the detailed one puts in meetings falls to development or others, and announcements fall to others. |
| `Rooms.BucketKeyRoundTrip` | src/chatwork_api.py:533-545 | Every bucket's response key parses back to that bucket. |
| `Rooms.RoomCategories` | src/chatwork_api.py:527-567 | With room ids present, every bucket appears in the response and holds exactly the rooms categorised into it. A room without an id makes the whole call answer with an empty result. |
| `Rooms.BucketSizes` | src/chatwork_api.py:547-560 | The bucket sizes add up to the number of rooms, so with `Rooms.InBucketMembers` each room lands in exactly one bucket. |
| `Rooms.InBucketMembers` | src/chatwork_api.py:547-560 | A room is in a bucket iff it is one of the rooms and categorises into that bucket. |
| `Rooms.InGroupMembers` | static/js/dashboard.js:725-740 | A room is in a dashboard group iff it is one of the rooms and belongs to that group. |
| `Rooms.CategorizeRooms` | static/js/dashboard.js:715-745 | The monitored, test, direct and group lists are exactly the rooms of each group, in input order, and their sizes add up to the number of rooms. |
| `Rooms.GroupOf` | static/js/dashboard.js:725-740 | The monitored room id always wins. A test name comes next. A room is direct iff it is neither of those and is of type direct or has a personal name. It is a group chat iff none of these holds. |
| `MessageSync.PartitionExact` | src/chatwork_api.py:148-189 | A fetched page splits into kept messages and tagged ones: a message is kept iff it is not tagged, and nothing is lost. |
| `MessageSync.GetMessages` | src/chatwork_api.py:137-205 | When the request or the reading of its data raises, the answer is empty and the cache, the deletion logs and the watermarks are all unchanged. Otherwise it is `MessageSync.StoreFetched`. |
| `MessageSync.StoreFetched` | src/chatwork_api.py:143-200 | The result is the untagged messages. The room's cache becomes exactly those, and other rooms' logs and caches are untouched. The deletion log is the log after the tagged messages are added and then the vanished ones. When nothing vanished and the room's log stays within its cap, every tagged message's id is in the room's log. |
| `MessageSync.TaggedLogsHold` | src/chatwork_api.py:420-447 | After tagged messages are added, each of their ids is in the room's log, unless the log outgrew its cap. |
| `MessageSync.AppendNewHolds` | src/chatwork_api.py:441-443 | Every appended id is in the log after the de-duplicated append. |
| `MessageSync.AddTaggedToLog` | src/chatwork_api.py:420-447 | Tagged messages not already logged are appended in order, and the log is then capped at its last 100 entries. |
| `MessageSync.AppendNewDistinct` | src/chatwork_api.py:441-445 | Appending through the duplicate check keeps logged ids distinct, and every appended id ends up in the log. |
| `MessageSync.CapDistinct` | src/chatwork_api.py:447 | Capping a log with distinct ids keeps them distinct. |
| `MessageSync.CleanBodyRemovesTag` | src/chatwork_api.py:428 | A `[delete]` or `[deleted]` prefix is removed and the rest is stripped. |
| `MessageSync.CleanBodyKeeps` | src/chatwork_api.py:428 | A stripped body without tags is logged unchanged. |
| `MessageSync.DetectDeleted` | src/chatwork_api.py:372-403 | Without a previous cache, or with nothing vanished, the logs are unchanged. Other rooms' logs are never touched. |
| `MessageSync.DetectDeletedLogs` | src/chatwork_api.py:380-403 | The room's log gains one entry per vanished cached message, in the given order, capped at 100. |
| `MessageSync.RefetchIsQuiet` | src/chatwork_api.py:196-199 | Fetching the same page again logs no deletion. |
| `MessageSync.FirstFetchLogsNoVanished` | src/chatwork_api.py:372-376 | The first fetch of a room, with no cache yet, logs no deletion. |
| `MessageSync.NewMessages` | src/chatwork_api.py:207-228 | The result is `NewSince` of the page: exactly the messages whose id sorts after the watermark (all of them without one), in page order and with repeats kept (see the two lemmas below). The new watermark is the greatest id, and it is kept when the page is empty. |
| `MessageSync.NewSinceConcat` | src/chatwork_api.py:215-218 | Selecting from two pages laid end to end gives the two selections end to end, so the page's order and multiplicities are kept. |
| `MessageSync.NewSinceOne` | src/chatwork_api.py:215-218 | A single message is selected iff there is no watermark or its id sorts after it. |
| `MessageSync.NewMessagesSettle` | src/chatwork_api.py:207-228 | A second call over the same page returns nothing. |
| `MessageSync.DeletedLogs` | src/chatwork_api.py:405-410 | With a room, the answer is that room's log, or an empty one. Without a room, it is all logs. |
| `MessageSync.ClearLogs` | src/chatwork_api.py:412-418 | With a room, only that room's log is dropped. Without a room, every log is dropped. |
| `MessageSync.ClearThenRead` | src/chatwork_api.py:405-418 | After clearing a room its log reads empty, and other rooms read as before. |
| `Alerts.AlertIdInjective` | src/alert_system.py:57 | Alert ids `room_message` identify the pair when room ids have no `_`. |
| `Alerts.Schedule` | src/alert_system.py:54-70 | The id maps to a fresh alert; every other id is unchanged; distinct ids stay distinct. |
| `Alerts.PutGet` | src/alert_system.py:65 | Storing an alert under an id makes that id look up to it and leaves every other id as it was. |
| `Alerts.RemoveGet` | src/alert_system.py:76-77 | Deleting an id makes it absent and leaves every other id as it was. |
| `Alerts.MarkReplied` | src/alert_system.py:72-78 | The alert's id is gone and every other id is unchanged. |
| `Alerts.ThresholdSeconds` | src/alert_system.py:134-141 | High priority waits the high-minutes threshold, normal waits the normal-hours threshold, and anything else waits the low-hours threshold. |
| `Alerts.FirstAlert` | src/alert_system.py:114-121 | A never-alerted message is due exactly once its priority threshold has passed. |
| `Alerts.Escalation` | src/alert_system.py:123-132 | After the first alert the next is due after 180 minutes, and after the second after 360 minutes. After the third none is sent. |
| `Alerts.Send` | src/alert_system.py:153-156 | Sending bumps the sent count and escalation level by one, records the time, and changes nothing else. |
| `Alerts.HighPriorityLifecycle` | src/alert_system.py:101-156 | A high-priority alert fires at 30 minutes, again 3 hours after that, again 6 hours after that, and then never. |
| `Alerts.CheckPending` | src/alert_system.py:101-112 | Every pending alert is checked once and kept; the set of ids does not change. |
| `Alerts.CheckPendingConsistent` | src/alert_system.py:101-112 | Checking keeps every alert's counters consistent. The escalation level equals the sent count and is at most three. A last-alert time is present iff an alert was sent. |
| `Alerts.ForceCheck` | src/alert_system.py:278-285 | After the check, the answer is every pending id. |
| `Alerts.ClearOldSplits` | src/alert_system.py:287-300 | An alert stays iff it was added at or after the cutoff. Every older alert's id is reported, and only those. |
| `Alerts.ClearOldConcat` | src/alert_system.py:287-300 | Pruning two lists end to end gives the two reports and the two remainders end to end, so the kept alerts and the reported ids stay in input order. |
| `Alerts.ClearOldOne` | src/alert_system.py:287-300 | One alert is reported iff it was added before the cutoff, and otherwise kept unchanged. |
| `Alerts.PendingSummary` | src/alert_system.py:239-276 | The total, the priority counts and the room counts each add up to the number of pending alerts. |
| `Alerts.SummaryCounts` | src/alert_system.py:251-260 | Each priority and each room is counted exactly as often as it occurs among the pending alerts. |
| `Alerts.OldestIndex` | src/alert_system.py:262-265 | The oldest alert is the first one with the smallest added time; there is none iff nothing is pending. |
| `Alerts.SummaryAsWrittenFails` | src/alert_system.py:243-254 | The code as written fails iff some pending priority is not high, normal or low. Otherwise it agrees with the corrected summary. |
| `Alerts.MediumPriorityFails` | src/alert_system.py:243-254 | One pending alert with priority `medium` makes the summary as written fail. |
| `Analyzer.MentionOfTag` | src/task_analyzer.py:232-241 | A `[To:n]` tag anywhere in the text yields account id n. |
| `Analyzer.NoBracketNoMention` | src/task_analyzer.py:232-241 | A text without `[` mentions nobody. |
| `Analyzer.Priority` | src/task_analyzer.py:247-259 | The priority is one of high, medium, low or normal. |
| `Analyzer.FirstLevel` | src/task_analyzer.py:251-253 | A level is found iff some keyword list hits the lowered text. The level found is that of a list that hits while every list before it misses. |
| `Analyzer.PriorityPrecedence` | src/task_analyzer.py:247-259 | High keywords win over medium ones, and medium over low. Only a text with no keyword at all counts exclamation marks: two or more make it high, fewer make it normal. |
| `Analyzer.PriorityNormal` | src/task_analyzer.py:247-259 | A message is normal iff no urgency keyword occurs in its lowered text and it has fewer than two exclamation marks. Any high keyword makes it high. |
| `Analyzer.MediumPriority` | src/task_analyzer.py:63-67 | "できれば" without a high keyword gives medium priority. |
| `Analyzer.AsapNeverMatches` | src/task_analyzer.py:63-64 | The upper-case `ASAP` never occurs in lowered text. |
| `Analyzer.AsapIsDead` | src/task_analyzer.py:249-259 | Priority is the same with `ASAP` dropped from the high keywords. |
| `Analyzer.SentimentByPresence` | src/task_analyzer.py:322-334 | Sentiment compares the numbers of distinct positive and negative words present: more positive is positive, more negative is negative, and a tie is neutral. |
| `Analyzer.KeywordCountPresent` | src/task_analyzer.py:325-328 | The keyword count equals the number of distinct listed words present. |
| `Analyzer.OkRulesOutReply` | src/task_analyzer.py:70-74 | Any casing of `ok` anywhere in the text rules out a reply, whatever else the message holds. |
| `Analyzer.QuestionsAreSentences` | src/task_analyzer.py:213-226 | The questions are exactly the stripped, non-empty sentences (split at `。` and newline) that end with a question ending or contain a question word. |
| `Analyzer.KeepQuestionsConcat` | src/task_analyzer.py:218-226 | Filtering the sentences distributes over concatenation, so questions keep their order and their repetitions. |
| `Analyzer.QuestionsAcrossBreak` | src/task_analyzer.py:216-226 | The questions of two texts joined by a sentence break are those of the first followed by those of the second. |
| `Analyzer.QuestionsOfSentence` | src/task_analyzer.py:216-226 | A text without a sentence break yields its stripped self when that is a non-empty question, and nothing otherwise. |
| `Analyzer.EstimatedTimeFirstHit` | src/task_analyzer.py:389-403 | The estimate is the leftmost match of the earliest unit in the list that matches anywhere, whatever later units match. |
| `Analyzer.EstimatedTimeNoHit` | src/task_analyzer.py:389-403 | Without a match of any unit there is no estimate. |
| `Analyzer.HoursFirst` | src/task_analyzer.py:389-403 | When the first digits of the text are a number followed by `時間`, that is the estimate, because hours are tried before minutes, days and weeks. |
| `Analyzer.ParseTaskLine` | src/task_analyzer.py:167-195 | A task's description is exactly `Strip(line)`, so it has no surrounding whitespace and is empty iff the line is blank. Its priority is normal iff the line has no urgency keyword and fewer than two exclamation marks. A line without `[` has no assignees. An estimated time starts with a digit. |
| `Analyzer.SummaryText` | src/task_analyzer.py:350-364 | The summary is the plain "通常メッセージ" iff there are no tasks, no questions and the priority is not high. Otherwise it lists what was detected. |
| `Analyzer.SummaryListsInOrder` | src/task_analyzer.py:350-364 | A non-plain summary is `検出: ` followed by `タスクN件`, `質問M件` and `高優先度`, in that order, each only when it applies, separated by `, `. |
| `Analyzer.SummaryMarksHigh` | src/task_analyzer.py:359-360 | The summary ends with the high-priority marker iff the priority is high. |
| `Analyzer.Analyze` | src/task_analyzer.py:81-141 | A failing analysis gives the fixed error result. Otherwise the questions, sentiment, priority and mentions are those of the body. A no-reply phrase means no reply is needed; without one, a reply is needed iff there is a mention, a question, a task or high priority. The summary is plain iff there are no tasks, no questions and the priority is not high. |
| `Analyzer.ErrorIsDistinct` | src/task_analyzer.py:133-141 | The error result never asks for a reply, and its summary is one no real analysis produces. |
| `Manager.ProcessMessage` | src/main.py:104-157 | `None` stands for `process_message` raising before its bookkeeping, and it changes nothing. A failed analysis is not `None`: `analyze` catches its own error and returns the fallback result (src/task_analyzer.py:131-141, `Analyzer.Analyze` with `fails`), which is recorded like any other. Otherwise a detail is appended, the last 100 are kept, and an alert is scheduled iff a reply is required; other alerts are untouched. |
| `Manager.CheckRoom` | src/main.py:79-102 | The processed set grows by exactly the keys of the page, and each key is logged once, in order, only when new. |
| `Manager.CheckRoomBounded` | src/main.py:140-142 | The detail list never exceeds 100 entries. |
| `Manager.RecheckIsQuiet` | src/main.py:91-93 | A page whose messages are all processed changes nothing. |
| `Manager.CheckRoomTwice` | src/main.py:88-97 | Checking the same page twice is the same as checking it once. |
| `Manager.AlertsOnlyForReplies` | src/main.py:144-146 | An alert changes only for a message on the page whose analysis requires a reply. |
| `Manager.Round` | src/main.py:62-77 | One monitoring round over the rooms only adds processed keys and logs each newly added key once. |
| `Manager.Run` | src/main.py:62-77 | Any number of rounds keeps that property. |
| `Manager.ProcessedMessages` | src/main.py:222-225 | The answer is the last `limit` details, newest first. Zero gives all, and a negative limit drops that many from the oldest end. |
| `Manager.StatusCountsProcessed` | src/main.py:212-220 | The status processed count grows by the number of new message keys on a page. |
| `Api.GetMessages` | web/api_server.py:213-238 | Before start-up the answer is 503. `Err` is an exception inside the handler and becomes 500. A failed ChatWork fetch does not reach that branch, because the fetch answers an empty page (see `Api.FailedFetchAnswersEmpty`). Otherwise the answer is a suffix of the page of length `min(limit, n)`, or the whole page for limit 0. |
| `Api.FailedFetchAnswersEmpty` | src/chatwork_api.py:203-205 | After start-up, a failed ChatWork fetch, which hands back an empty page, is answered with an empty success and not with an error. |
| `Api.AlertsResponse` | web/api_server.py:240-270 | A failing summary becomes a server error. Otherwise the answer has the summary, one row per pending alert with the body cut to 200 characters, and the total number of logged deletions. |
| `Api.GetAlerts` | web/api_server.py:240-270 | With the corrected summary the endpoint always answers after start-up, and its totals match the pending list. |
| `Api.AlertsAsWrittenFails` | web/api_server.py:240-270 | With the summary as written, the endpoint fails iff some pending priority is unusual. |
| `Api.Flatten` | web/api_server.py:383-397 | Flattening holds one row per logged deletion. |
| `Api.FlattenMembers` | web/api_server.py:383-397 | A row is present iff its entry is in a room's log, named by the room list or the `Room <id>` fallback. |
| `Api.SortDesc` | web/api_server.py:400 | Sorting is a permutation, newest first by `deleted_at`. |
| `Api.SortDescStable` | web/api_server.py:400 | Rows with equal `deleted_at` keep their relative order, as Python's stable sort does. |
| `Api.GetAllDeleted` | web/api_server.py:379-405 | All deleted rows, newest first, are a permutation of the flattened logs. |
| `Api.AllDeletedMembers` | web/api_server.py:379-405 | A row is listed iff it comes from some room's log with that room's display name. |
| `Api.GetDeletedByRoom` | web/api_server.py:367-377 | The answer is that room's log, or empty. |
| `Api.EnvelopeAgreesWithDetail` | web/api_server.py:126-141 | The pushed body (cut at 100) and the stored detail body (cut at 200) agree with the message on their first 100 characters. Both equal the body when it has at most 100 characters. The pushed body is at most 103 characters long. |
| `Api.OnClientText` | web/api_server.py:485-500 | An object whose `type` is `"ping"` gets a pong. Another object is ignored. Text that is not JSON, or JSON that is not an object, ends the handler. |
| `Api.Session` | web/api_server.py:485-500 | Messages are answered in order until the first one that ends the connection, and nothing after it is read. |
| `Api.ObjectsAreAllRead` | web/api_server.py:493-497 | A stream of JSON objects is read to the end. |
| `Settings.ParseEnvLine` | src/config.py:10-13 | Blank and comment lines are skipped. A line without `=` fails with the unpacking error. Otherwise the stripped line is key, `=`, value, with no `=` in the key. |
| `Settings.EnvLineRoundTrip` | src/config.py:11-13 | A `key=value` line parses back to that key and value, for keys without `=` and without a leading `#` or blank. |
| `Settings.LoadEnv` | src/config.py:7-14 | Loading fails iff some line fails. Otherwise the environment is updated by every assignment. |
| `Settings.Apply` | src/config.py:14 | A variable is present iff it was present before or some line sets it. Untouched variables keep their values. |
| `Settings.LastAssignmentWins` | src/config.py:10-14 | A variable holds the value of its last assignment in the file. |
| `Settings.RoomsFromEnv` | src/config.py:45-50 | An empty list comes only from an empty string. Otherwise there is one room per comma-separated piece, and room `i` is piece `i` stripped, so it is comma-free. |
| `Settings.RoomsAcrossComma` | src/config.py:48 | Before the first comma stands the first room, the stripped text up to that comma. The rooms of the rest follow in order. |
| `Settings.RoomsOfOne` | src/config.py:48 | Text without a comma is a single room, itself stripped. |
| `Settings.RoomsRoundTrip` | src/config.py:48 | Joining the rooms with commas gives back the variable when its pieces had no surrounding blanks. |
| `Settings.BlankRoomsAreKept` | src/config.py:48 | A variable of only commas and blanks still yields a non-empty list of empty room ids. |
| `Settings.PostInit` | src/config.py:43-57 | Validation succeeds iff the token and the room list are non-empty. The token is checked first. |
| `Settings.FromEnvironment` | src/config.py:22-57 | Configuration from the environment succeeds iff both variables are set and non-empty. The errors come in the same order as in the code, and a success carries the token and the parsed rooms. |
| `Settings.BlankRoomsPassValidation` | src/config.py:43-57 | A rooms variable of commas and blanks passes validation with empty room ids. |

## Left out

- Network, timers, the DOM, Electron and logging are not modelled. HTTP status codes are `Response` constructors. Exceptions are `Err`, `None` or a `fails` flag.
- `MessageSync.GetMessages`: its `fails` covers the request and the reading of the reply, which come before every update. The log and cache updates after them only build lists and maps, so they are taken not to raise, and a partial update is not modelled.
- The task-line regular expressions and bullet-list extraction (`_extract_tasks`, `_extract_bullet_tasks`) are parameters: `isTask` and `items`. Only the per-line task fields are modelled.
- Deadline extraction, the confidence score and the alert message text are left out: they are free text or floating point.
- `Text.Lower` folds ASCII only. For the searches on `text.lower()` (priority, sentiment) this gives the same hits as Python's full Unicode lowering, because every keyword there is Japanese or upper-case ASCII.
- `Analyzer.NoReply`: the code matches the no-reply patterns with `re.IGNORECASE`, which also matches the Kelvin sign `K` (U+212A) to `k` and the Turkish `ı`/`İ` to `i`. So "oK" with a Kelvin sign, or "fyı", counts as no-reply in the code but not in the model.
- `Text.IsPyDigit` accepts ASCII and full-width digits only, not all of Unicode `\d`.
- HTML escaping of the created room name is a parameter `escape`.
- The ISO timestamps the code prints are opaque strings. Durations are given as integers.
- The processed detail does not store `sender_id` or tasks' deadlines. Nothing in the core reads them.
- The broadcast connection list, `manual_check_room`, task creation and the pass-through endpoints (reply, reaction, quote, mark-replied, force-check, clear) are left out: they only forward to operations modelled here.
- `Config.from_file` and the integer settings (intervals, thresholds) are left out. The thresholds are the fields of `Alerts.AlertConfig`.
- `Settings.LoadEnv` does not model the operating system rejecting an empty variable name.
- `Api.TotalDeleted`: order independence over the log map is not proved.
- `Analyzer.BulletTasks`: the case-sensitive no-reply search the code does on bullet items is kept separate (`NoReplyWordsAsWritten`). No property about it is stated beyond the length bound.

## Findings

| source | as written | input that shows it | evidently intended | confidence | as-written member | corrected member |
|---|---|---|---|---|---|---|
| src/alert_system.py:243-254 | the priority counter is seeded with high, normal and low only and indexed with `+= 1`, so any other key raises `KeyError` and `/api/alerts` answers 500 | a pending alert whose analysis priority is `medium` (any message containing "できれば" and no high keyword) | count every priority that occurs | not executed | `Alerts.PendingSummaryAsWritten` (`Alerts.MediumPriorityFails`, `Alerts.SummaryAsWrittenFails`, `Api.AlertsAsWrittenFails`) | `Alerts.PendingSummary` (`Alerts.SummaryCounts`, `Api.GetAlerts`) |

=== FILE: alerts.dfy ===
/** The alert system: pending alerts for messages that need a reply, keyed by room and message
    id in insertion order (a Python dictionary), the per-priority first-alert thresholds, the
    escalation rule, the summary the dashboard shows, and pruning. Time is whole seconds on a
    clock passed in by the caller. */
module Alerts {
  import opened Base
  import opened Text
  import Elapsed

  /** A `PendingAlert`: the message, the analysed priority and the counters. */
  datatype Alert = Alert(roomId: string, messageId: string, sender: string, body: string,
                         priority: string, addedAt: int, alertsSent: nat,
                         lastAlertAt: Option<int>, escalationLevel: nat)

  /** One dictionary entry. */
  datatype Pending = Pending(id: string, alert: Alert)

  /** The thresholds, which the configuration may override. */
  datatype AlertConfig = AlertConfig(highMinutes: int, normalHours: int, lowHours: int)

  const DefaultConfig: AlertConfig := AlertConfig(30, 2, 24)
  const EscalationMinutes: seq<nat> := [60, 180, 360]
  const MaxEscalationLevel: nat := 3

  /** `f"{room_id}_{message_id}"`. */
  function AlertId(roomId: string, messageId: string): string {
    roomId + "_" + messageId
  }

  /** Room ids are digits, so an alert id names one message. */
  lemma AlertIdInjective(r1: string, m1: string, r2: string, m2: string)
    requires '_' !in r1 && '_' !in r2 && AlertId(r1, m1) == AlertId(r2, m2)
    ensures r1 == r2 && m1 == m2
  {
    IndexOfChar(r1, '_', m1);
    IndexOfChar(r2, '_', m2);
    assert r1 == AlertId(r1, m1)[..|r1|] && m1 == AlertId(r1, m1)[|r1| + 1..];
    assert r2 == AlertId(r2, m2)[..|r2|] && m2 == AlertId(r2, m2)[|r2| + 1..];
  }

  // ---------------------------------------------------------------------------
  // The dictionary of pending alerts

  function Ids(s: seq<Pending>): (r: seq<string>)
    ensures |r| == |s| && forall i :: 0 <= i < |s| ==> r[i] == s[i].id
  {
    seq(|s|, i requires 0 <= i < |s| => s[i].id)
  }

  /** `pending_alerts.get(id)`. */
  function Get(s: seq<Pending>, id: string): Option<Alert>
    decreases |s|
  {
    if |s| == 0 then None
    else if s[0].id == id then Some(s[0].alert)
    else Get(s[1..], id)
  }

  lemma {:induction false} GetPresent(s: seq<Pending>, id: string)
    ensures Get(s, id).Some? <==> id in Ids(s)
    decreases |s|
  {
    if |s| > 0 {
      GetPresent(s[1..], id);
      assert Ids(s) == [s[0].id] + Ids(s[1..]);
    }
  }

  /** `pending_alerts[id] = a`: an existing key keeps its place, a new one goes last. */
  function Put(s: seq<Pending>, id: string, a: Alert): seq<Pending>
    decreases |s|
  {
    if |s| == 0 then [Pending(id, a)]
    else if s[0].id == id then [Pending(id, a)] + s[1..]
    else [s[0]] + Put(s[1..], id, a)
  }

  /** After storing, the key reads the new alert and every other key reads as before. */
  lemma {:induction false} PutGet(s: seq<Pending>, id: string, a: Alert, k: string)
    ensures Get(Put(s, id, a), k) == if k == id then Some(a) else Get(s, k)
    decreases |s|
  {
    if |s| > 0 && s[0].id != id {
      PutGet(s[1..], id, a, k);
    }
  }

  /** Storing keeps the order of the keys and adds a new key at the end. */
  lemma {:induction false} PutIds(s: seq<Pending>, id: string, a: Alert)
    ensures Ids(Put(s, id, a)) == if id in Ids(s) then Ids(s) else Ids(s) + [id]
    decreases |s|
  {
    if |s| > 0 {
      IdsCons(s);
      if s[0].id != id {
        PutIds(s[1..], id, a);
        IdsCons(Put(s, id, a));
      } else {
        IdsCons(Put(s, id, a));
      }
    }
  }

  lemma IdsCons(s: seq<Pending>)
    requires |s| > 0
    ensures Ids(s) == [s[0].id] + Ids(s[1..])
  {
  }

  /** `del pending_alerts[id]` when present, nothing otherwise. */
  function Remove(s: seq<Pending>, id: string): (r: seq<Pending>)
    ensures |r| <= |s|
    decreases |s|
  {
    if |s| == 0 then []
    else if s[0].id == id then Remove(s[1..], id)
    else [s[0]] + Remove(s[1..], id)
  }

  /** After removing, the key is gone and every other key reads as before. */
  lemma {:induction false} RemoveGet(s: seq<Pending>, id: string, k: string)
    ensures Get(Remove(s, id), k) == if k == id then None else Get(s, k)
    decreases |s|
  {
    if |s| > 0 {
      RemoveGet(s[1..], id, k);
    }
  }

  /** Removing keeps the other keys, in order. */
  lemma {:induction false} RemoveIds(s: seq<Pending>, id: string)
    ensures Ids(Remove(s, id)) == Without(Ids(s), id)
    decreases |s|
  {
    if |s| > 0 {
      RemoveIds(s[1..], id);
      assert Ids(s) == [s[0].id] + Ids(s[1..]);
      if s[0].id != id {
        assert Ids(Remove(s, id)) == [s[0].id] + Ids(Remove(s[1..], id));
      }
    }
  }

  /** The keys other than `id`, in order. */
  function Without(ids: seq<string>, id: string): (r: seq<string>)
    ensures forall k :: k in r <==> k in ids && k != id
    decreases |ids|
  {
    if |ids| == 0 then []
    else
      assert forall k :: k in ids <==> k == ids[0] || k in ids[1..];
      (if ids[0] == id then [] else [ids[0]]) + Without(ids[1..], id)
  }

  // ---------------------------------------------------------------------------
  // Scheduling and replies

  function Fresh(roomId: string, messageId: string, sender: string, body: string, priority: string,
                 now: int): Alert {
    Alert(roomId, messageId, sender, body, priority, now, 0, None, 0)
  }

  /** `schedule_alert`: a new alert for the message, replacing any earlier one with fresh
      counters. */
  function Schedule(s: seq<Pending>, roomId: string, messageId: string, sender: string, body: string,
                    priority: string, now: int): (r: seq<Pending>)
    ensures Get(r, AlertId(roomId, messageId)) == Some(Fresh(roomId, messageId, sender, body, priority, now))
    ensures forall k :: k != AlertId(roomId, messageId) ==> Get(r, k) == Get(s, k)
    ensures Distinct(Ids(s)) ==> Distinct(Ids(r))
  {
    var id := AlertId(roomId, messageId);
    var a := Fresh(roomId, messageId, sender, body, priority, now);
    forall k ensures Get(Put(s, id, a), k) == if k == id then Some(a) else Get(s, k) {
      PutGet(s, id, a, k);
    }
    PutIds(s, id, a);
    Put(s, id, a)
  }

  /** `mark_as_replied`: only that message's alert goes, and nothing happens without one. */
  function MarkReplied(s: seq<Pending>, roomId: string, messageId: string): (r: seq<Pending>)
    ensures Get(r, AlertId(roomId, messageId)).None?
    ensures forall k :: k != AlertId(roomId, messageId) ==> Get(r, k) == Get(s, k)
    ensures Ids(r) == Without(Ids(s), AlertId(roomId, messageId))
  {
    var id := AlertId(roomId, messageId);
    forall k ensures Get(Remove(s, id), k) == if k == id then None else Get(s, k) {
      RemoveGet(s, id, k);
    }
    RemoveIds(s, id);
    Remove(s, id)
  }

  // ---------------------------------------------------------------------------
  // When to alert

  /** `_get_threshold_for_priority` in seconds: anything but `high` and `normal` waits as long
      as `low`. */
  function ThresholdSeconds(cfg: AlertConfig, priority: string): (t: int)
    ensures priority == "high" ==> t == cfg.highMinutes * 60
    ensures priority == "normal" ==> t == cfg.normalHours * 3600
    ensures priority != "high" && priority != "normal" ==> t == cfg.lowHours * 3600
  {
    if priority == "high" then cfg.highMinutes * 60
    else if priority == "normal" then cfg.normalHours * 3600
    else cfg.lowHours * 3600
  }

  /** The wait before an escalation at the given level: the interval list indexed by the level,
      clamped to its last entry. */
  function EscalationSeconds(level: nat): (t: nat)
    ensures t == 60 * EscalationMinutes[if level < 2 then level else 2]
  {
    60 * EscalationMinutes[if level < |EscalationMinutes| - 1 then level else |EscalationMinutes| - 1]
  }

  /** `_should_send_alert`. */
  function ShouldSend(cfg: AlertConfig, a: Alert, now: int): bool {
    if a.alertsSent == 0 then now - a.addedAt >= ThresholdSeconds(cfg, a.priority)
    else if a.lastAlertAt.Some? && a.escalationLevel < MaxEscalationLevel then
      now - a.lastAlertAt.value >= EscalationSeconds(a.escalationLevel)
    else false
  }

  /** The counter update of `_send_alert`. */
  function Send(a: Alert, now: int): (b: Alert)
    ensures b.alertsSent == a.alertsSent + 1 && b.escalationLevel == a.escalationLevel + 1
    ensures b.lastAlertAt == Some(now)
    ensures b.(alertsSent := a.alertsSent, escalationLevel := a.escalationLevel, lastAlertAt := a.lastAlertAt) == a
  {
    a.(alertsSent := a.alertsSent + 1, lastAlertAt := Some(now), escalationLevel := a.escalationLevel + 1)
  }

  /** One alert at one check. */
  function Tick(cfg: AlertConfig, a: Alert, now: int): Alert {
    if ShouldSend(cfg, a, now) then Send(a, now) else a
  }

  /** The counters move together, stop at the maximum level, and a time of the last alert exists
      exactly when one was sent. */
  predicate Consistent(a: Alert) {
    a.alertsSent == a.escalationLevel <= MaxEscalationLevel
    && (a.alertsSent == 0 <==> a.lastAlertAt.None?)
  }

  lemma FreshConsistent(roomId: string, messageId: string, sender: string, body: string,
                        priority: string, now: int)
    ensures Consistent(Fresh(roomId, messageId, sender, body, priority, now))
  {
  }

  /** Checking keeps the counters consistent. */
  lemma TickConsistent(cfg: AlertConfig, a: Alert, now: int)
    requires Consistent(a)
    ensures Consistent(Tick(cfg, a, now))
  {
  }

  /** The first alert goes out once the priority's threshold has passed since scheduling. */
  lemma FirstAlert(cfg: AlertConfig, a: Alert, now: int)
    requires Consistent(a) && a.alertsSent == 0
    ensures ShouldSend(cfg, a, now) <==> now >= a.addedAt + ThresholdSeconds(cfg, a.priority)
  {
  }

  /** Escalations wait three hours after the first alert and six after the second; the 60-minute
      entry of the interval list is never used, since the first alert already sets level 1. */
  lemma Escalation(cfg: AlertConfig, a: Alert, now: int)
    requires Consistent(a) && a.alertsSent > 0
    ensures a.alertsSent == 1 ==> (ShouldSend(cfg, a, now) <==> now >= a.lastAlertAt.value + 180 * 60)
    ensures a.alertsSent == 2 ==> (ShouldSend(cfg, a, now) <==> now >= a.lastAlertAt.value + 360 * 60)
    ensures a.alertsSent == MaxEscalationLevel ==> !ShouldSend(cfg, a, now)
  {
  }

  /** A high-priority alert scheduled at `t` and checked at the earliest moments is sent three
      times: after 30 minutes, 3 more hours and 6 more hours, and never again. */
  lemma HighPriorityLifecycle(roomId: string, messageId: string, sender: string, body: string,
                              t: int, later: int)
    ensures var a0 := Fresh(roomId, messageId, sender, body, "high", t);
            var a1 := Tick(DefaultConfig, a0, t + 1800);
            var a2 := Tick(DefaultConfig, a1, t + 1800 + 10800);
            var a3 := Tick(DefaultConfig, a2, t + 1800 + 10800 + 21600);
            !ShouldSend(DefaultConfig, a0, t + 1799) && a1.alertsSent == 1
            && !ShouldSend(DefaultConfig, a1, t + 1800 + 10799) && a2.alertsSent == 2
            && !ShouldSend(DefaultConfig, a2, t + 1800 + 10800 + 21599) && a3.alertsSent == 3
            && Tick(DefaultConfig, a3, later) == a3
  {
  }

  /** `_check_pending_alerts`: every alert due at `now` is sent. */
  function CheckPending(cfg: AlertConfig, s: seq<Pending>, now: int): (r: seq<Pending>)
    ensures Ids(r) == Ids(s)
    ensures forall i :: 0 <= i < |s| ==> r[i].alert == Tick(cfg, s[i].alert, now)
  {
    seq(|s|, i requires 0 <= i < |s| => Pending(s[i].id, Tick(cfg, s[i].alert, now)))
  }

  predicate AllConsistent(s: seq<Pending>) {
    forall i :: 0 <= i < |s| ==> Consistent(s[i].alert)
  }

  /** Scheduling, replies and checks keep every alert's counters consistent. */
  lemma CheckPendingConsistent(cfg: AlertConfig, s: seq<Pending>, now: int)
    requires AllConsistent(s)
    ensures AllConsistent(CheckPending(cfg, s, now))
  {
    forall i | 0 <= i < |s| ensures Consistent(CheckPending(cfg, s, now)[i].alert) {
      TickConsistent(cfg, s[i].alert, now);
    }
  }

  lemma {:induction false} PutConsistent(s: seq<Pending>, id: string, a: Alert)
    requires AllConsistent(s) && Consistent(a)
    ensures AllConsistent(Put(s, id, a))
    decreases |s|
  {
    if |s| > 0 && s[0].id != id {
      PutConsistent(s[1..], id, a);
    }
  }

  lemma {:induction false} RemoveConsistent(s: seq<Pending>, id: string)
    requires AllConsistent(s)
    ensures AllConsistent(Remove(s, id))
    decreases |s|
  {
    if |s| > 0 {
      RemoveConsistent(s[1..], id);
    }
  }

  /** `force_check_alerts`: the check, then the ids of every pending alert, in order. */
  function ForceCheck(cfg: AlertConfig, s: seq<Pending>, now: int): (r: (seq<string>, seq<Pending>))
    ensures r.0 == Ids(s) && r.1 == CheckPending(cfg, s, now)
  {
    var after := CheckPending(cfg, s, now);
    (Ids(after), after)
  }

  // ---------------------------------------------------------------------------
  // Pruning

  /** `clear_old_alerts`: the alerts added before `now - hours` go, and their ids are returned
      in order. */
  function ClearOld(s: seq<Pending>, now: int, hours: int): (r: (seq<string>, seq<Pending>))
    ensures |r.0| + |r.1| == |s|
    decreases |s|
  {
    if |s| == 0 then ([], [])
    else
      var rest := ClearOld(s[1..], now, hours);
      if s[0].alert.addedAt < now - hours * 3600 then ([s[0].id] + rest.0, rest.1)
      else (rest.0, [s[0]] + rest.1)
  }

  /** Exactly the old alerts are removed and reported; the others stay. `ClearOldConcat` and
      `ClearOldOne` add that both lists keep the input order. */
  lemma {:induction false} ClearOldSplits(s: seq<Pending>, now: int, hours: int, p: Pending)
    ensures p in ClearOld(s, now, hours).1 <==> p in s && p.alert.addedAt >= now - hours * 3600
    ensures p in s && p.alert.addedAt < now - hours * 3600 ==> p.id in ClearOld(s, now, hours).0
    ensures forall id :: id in ClearOld(s, now, hours).0 ==>
              exists q :: q in s && q.id == id && q.alert.addedAt < now - hours * 3600
    decreases |s|
  {
    if |s| > 0 {
      ClearOldSplits(s[1..], now, hours, p);
      assert forall q :: q in s <==> q == s[0] || q in s[1..];
    }
  }

  /** Pruning works alert by alert: pruning two lists laid end to end gives the two reports
      and the two remainders end to end, so both keep the input order. */
  lemma {:induction false} ClearOldConcat(a: seq<Pending>, b: seq<Pending>, now: int, hours: int)
    ensures ClearOld(a + b, now, hours)
            == (ClearOld(a, now, hours).0 + ClearOld(b, now, hours).0,
                ClearOld(a, now, hours).1 + ClearOld(b, now, hours).1)
    decreases |a|
  {
    var rb := ClearOld(b, now, hours);
    if |a| == 0 {
      assert a + b == b;
      assert ClearOld(a, now, hours) == ([], []);
      assert [] + rb.0 == rb.0 && [] + rb.1 == rb.1;
    } else {
      var p, t := a[0], a[1..];
      var ra := ClearOld(t, now, hours);
      assert a + b == [p] + (t + b) && a == [p] + t;
      ClearOldCons(p, t + b, now, hours);
      ClearOldCons(p, t, now, hours);
      ClearOldConcat(t, b, now, hours);
      if p.alert.addedAt < now - hours * 3600 {
        assert [p.id] + (ra.0 + rb.0) == [p.id] + ra.0 + rb.0;
      } else {
        assert [p] + (ra.1 + rb.1) == [p] + ra.1 + rb.1;
      }
    }
  }

  lemma ClearOldCons(p: Pending, t: seq<Pending>, now: int, hours: int)
    ensures var rest := ClearOld(t, now, hours);
            ClearOld([p] + t, now, hours)
            == if p.alert.addedAt < now - hours * 3600 then ([p.id] + rest.0, rest.1) else (rest.0, [p] + rest.1)
  {
    assert ([p] + t)[0] == p && ([p] + t)[1..] == t;
  }

  /** One alert is reported when it was added before the cutoff, and kept as it is otherwise. */
  lemma ClearOldOne(p: Pending, now: int, hours: int)
    ensures ClearOld([p], now, hours)
            == if p.alert.addedAt < now - hours * 3600 then ([p.id], []) else ([], [p])
  {
    assert [p][0] == p && [p][1..] == [];
    assert ClearOld([], now, hours) == ([], []);
    assert [p.id] + [] == [p.id] && [p] + [] == [p];
  }

  // ---------------------------------------------------------------------------
  // Counting

  /** A dictionary of counts in insertion order. */
  type Tally = seq<(string, nat)>

  function Count(t: Tally, k: string): nat
    decreases |t|
  {
    if |t| == 0 then 0 else if t[0].0 == k then t[0].1 else Count(t[1..], k)
  }

  function TallySum(t: Tally): nat
    decreases |t|
  {
    if |t| == 0 then 0 else t[0].1 + TallySum(t[1..])
  }

  /** The keys of a tally, in insertion order. */
  function Keys(t: Tally): (r: seq<string>)
    ensures |r| == |t| && forall i :: 0 <= i < |t| ==> r[i] == t[i].0
  {
    seq(|t|, i requires 0 <= i < |t| => t[i].0)
  }

  /** `d[k] = d.get(k, 0) + 1`. */
  function Bump(t: Tally, k: string): (r: Tally)
    ensures TallySum(r) == TallySum(t) + 1
    decreases |t|
  {
    if |t| == 0 then [(k, 1)]
    else if t[0].0 == k then [(k, t[0].1 + 1)] + t[1..]
    else [t[0]] + Bump(t[1..], k)
  }

  /** Bumping keeps the keys in order and adds a new key at the end. */
  lemma {:induction false} BumpKeys(t: Tally, k: string)
    ensures Keys(Bump(t, k)) == if k in Keys(t) then Keys(t) else Keys(t) + [k]
    decreases |t|
  {
    if |t| > 0 {
      KeysCons(t);
      KeysCons(Bump(t, k));
      if t[0].0 != k {
        BumpKeys(t[1..], k);
      }
    }
  }

  lemma KeysCons(t: Tally)
    requires |t| > 0
    ensures Keys(t) == [t[0].0] + Keys(t[1..])
  {
  }

  lemma {:induction false} BumpCount(t: Tally, k: string, j: string)
    ensures Count(Bump(t, k), j) == Count(t, j) + (if j == k then 1 else 0)
    decreases |t|
  {
    if |t| > 0 && t[0].0 != k {
      BumpCount(t[1..], k, j);
    }
  }

  /** Bumping every key of a list in turn. */
  function TallyAll(t: Tally, keys: seq<string>): (r: Tally)
    ensures TallySum(r) == TallySum(t) + |keys|
    decreases |keys|
  {
    if |keys| == 0 then t else Bump(TallyAll(t, keys[..|keys| - 1]), keys[|keys| - 1])
  }

  /** Each key is counted as often as it occurs. */
  lemma {:induction false} TallyAllCount(t: Tally, keys: seq<string>, k: string)
    ensures Count(TallyAll(t, keys), k) == Count(t, k) + multiset(keys)[k]
    decreases |keys|
  {
    if |keys| > 0 {
      var init := keys[..|keys| - 1];
      TallyAllCount(t, init, k);
      BumpCount(TallyAll(t, init), keys[|keys| - 1], k);
      assert keys == init + [keys[|keys| - 1]];
    }
  }

  /** The keys of a tally of a list are the starting keys and the list's elements. */
  lemma {:induction false} TallyAllKeys(t: Tally, keys: seq<string>, k: string)
    ensures k in Keys(TallyAll(t, keys)) <==> k in Keys(t) || k in keys
    decreases |keys|
  {
    if |keys| > 0 {
      var init := keys[..|keys| - 1];
      TallyAllKeys(t, init, k);
      BumpKeys(TallyAll(t, init), keys[|keys| - 1]);
      assert keys == init + [keys[|keys| - 1]];
    }
  }

  // ---------------------------------------------------------------------------
  // The summary

  datatype Oldest = Oldest(roomId: string, messageId: string, sender: string, addedAt: int,
                           elapsed: string)

  datatype Summary = Summary(total: nat, byPriority: Tally, byRoom: Tally, oldest: Option<Oldest>)

  function Priorities(s: seq<Pending>): (r: seq<string>)
    ensures |r| == |s| && forall i :: 0 <= i < |s| ==> r[i] == s[i].alert.priority
  {
    seq(|s|, i requires 0 <= i < |s| => s[i].alert.priority)
  }

  function Rooms(s: seq<Pending>): (r: seq<string>)
    ensures |r| == |s| && forall i :: 0 <= i < |s| ==> r[i] == s[i].alert.roomId
  {
    seq(|s|, i requires 0 <= i < |s| => s[i].alert.roomId)
  }

  /** The position of the oldest alert: the first one whose `added_at` is strictly below that
      of every alert before it and not above that of any after it. */
  function OldestIndex(s: seq<Pending>): (r: Option<nat>)
    ensures r.Some? <==> |s| > 0
    ensures r.Some? ==> r.value < |s|
    ensures r.Some? ==> forall k :: 0 <= k < |s| ==> s[r.value].alert.addedAt <= s[k].alert.addedAt
    ensures r.Some? ==> forall k :: 0 <= k < r.value ==> s[k].alert.addedAt > s[r.value].alert.addedAt
    decreases |s|
  {
    if |s| == 0 then None
    else
      var best := OldestIndex(s[..|s| - 1]);
      if best.None? || s[|s| - 1].alert.addedAt < s[best.value].alert.addedAt then Some(|s| - 1)
      else best
  }

  const PrioritySeed: Tally := [("high", 0), ("normal", 0), ("low", 0)]

  function OldestOf(s: seq<Pending>, now: int): Option<Oldest> {
    match OldestIndex(s)
    case None => None
    case Some(i) =>
      var a := s[i].alert;
      Some(Oldest(a.roomId, a.messageId, a.sender, a.addedAt, Elapsed.AlertText(now - a.addedAt)))
  }

  /** `get_pending_alerts_summary` with every priority counted: the three usual ones first, any
      other in order of appearance. */
  function PendingSummary(s: seq<Pending>, now: int): (r: Summary)
    ensures r.total == |s|
    ensures TallySum(r.byPriority) == |s| && TallySum(r.byRoom) == |s|
  {
    assert TallySum(PrioritySeed) == 0;
    Summary(|s|, TallyAll(PrioritySeed, Priorities(s)), TallyAll([], Rooms(s)), OldestOf(s, now))
  }

  /** Each priority and each room is counted once per alert. */
  lemma SummaryCounts(s: seq<Pending>, now: int, k: string)
    ensures Count(PendingSummary(s, now).byPriority, k) == multiset(Priorities(s))[k]
    ensures Count(PendingSummary(s, now).byRoom, k) == multiset(Rooms(s))[k]
  {
    TallyAllCount(PrioritySeed, Priorities(s), k);
    TallyAllCount([], Rooms(s), k);
  }

  /** `summary["by_priority"][priority] += 1` on a dictionary seeded with the three usual
      priorities: any other one raises `KeyError`. */
  function BumpKnown(t: Tally, k: string): (r: Option<Tally>)
    ensures r.Some? <==> k in Keys(t)
    ensures r.Some? ==> r.value == Bump(t, k)
  {
    if k in Keys(t) then Some(Bump(t, k)) else None
  }

  function TallyKnown(t: Tally, keys: seq<string>): Option<Tally>
    decreases |keys|
  {
    if |keys| == 0 then Some(t)
    else match TallyKnown(t, keys[..|keys| - 1])
      case None => None
      case Some(u) => BumpKnown(u, keys[|keys| - 1])
  }

  /** `get_pending_alerts_summary` as written. */
  function PendingSummaryAsWritten(s: seq<Pending>, now: int): Result<Summary, string> {
    match TallyKnown(PrioritySeed, Priorities(s))
    case None => Err("KeyError")
    case Some(byPriority) =>
      Ok(Summary(|s|, byPriority, TallyAll([], Rooms(s)), OldestOf(s, now)))
  }

  predicate Usual(priority: string) {
    priority == "high" || priority == "normal" || priority == "low"
  }

  lemma SeedKeys()
    ensures Keys(PrioritySeed) == ["high", "normal", "low"]
  {
  }

  /** On the usual priorities the counting agrees with the corrected one; a single other
      priority makes it fail. */
  lemma {:induction false} TallyKnownAgrees(keys: seq<string>)
    ensures TallyKnown(PrioritySeed, keys).Some? <==> AllUsual(keys)
    ensures TallyKnown(PrioritySeed, keys).Some? ==> TallyKnown(PrioritySeed, keys).value == TallyAll(PrioritySeed, keys)
    decreases |keys|
  {
    if |keys| > 0 {
      var init := keys[..|keys| - 1];
      TallyKnownAgrees(init);
      TallyKnownStep(init, keys[|keys| - 1]);
      assert keys == init + [keys[|keys| - 1]];
    }
  }

  predicate AllUsual(keys: seq<string>) {
    forall i :: 0 <= i < |keys| ==> Usual(keys[i])
  }

  lemma TallyKnownStep(init: seq<string>, k: string)
    requires TallyKnown(PrioritySeed, init).Some? <==> AllUsual(init)
    requires TallyKnown(PrioritySeed, init).Some? ==> TallyKnown(PrioritySeed, init).value == TallyAll(PrioritySeed, init)
    ensures TallyKnown(PrioritySeed, init + [k]).Some? <==> AllUsual(init) && Usual(k)
    ensures TallyKnown(PrioritySeed, init + [k]).Some? ==>
              TallyKnown(PrioritySeed, init + [k]).value == TallyAll(PrioritySeed, init + [k])
  {
    assert (init + [k])[..|init|] == init;
    SeedKeys();
    TallyAllKeys(PrioritySeed, init, k);
    if AllUsual(init) && k in init {
      var i :| 0 <= i < |init| && init[i] == k;
    }
  }

  /** The summary as written fails exactly when some alert has a priority other than the usual
      three, and otherwise is the corrected summary. */
  lemma SummaryAsWrittenFails(s: seq<Pending>, now: int)
    ensures PendingSummaryAsWritten(s, now).Err? <==> exists i :: 0 <= i < |s| && !Usual(s[i].alert.priority)
    ensures PendingSummaryAsWritten(s, now).Ok? ==> PendingSummaryAsWritten(s, now).value == PendingSummary(s, now)
  {
    TallyKnownAgrees(Priorities(s));
  }

  /** One alert of priority `"medium"` is enough. */
  lemma MediumPriorityFails(a: Alert, now: int)
    requires a.priority == "medium"
    ensures PendingSummaryAsWritten([Pending(AlertId(a.roomId, a.messageId), a)], now).Err?
  {
    SummaryAsWrittenFails([Pending(AlertId(a.roomId, a.messageId), a)], now);
  }
}

=== FILE: analyzer.dfy ===
/** The rule-based message analyzer: mentions, urgency, sentiment, questions, the estimated
    time of a task line, the reply decision and the one-line summary. All of its keyword
    patterns are literal alternations and are modelled exactly; only the two task-detection
    regular expressions are left to the caller as a predicate and a list of captured texts. */
module Analyzer {
  import opened Base
  import opened Text
  import Markup

  /** Some keyword of the list occurs in `s`. */
  predicate AnyIn(s: string, words: seq<string>) {
    exists i :: 0 <= i < |words| && Contains(s, words[i])
  }

  // ---------------------------------------------------------------------------
  // Mentions

  /** `[To:` at `i`, one or more digits, and the closing `]` at `j`. */
  predicate MentionAt(text: string, i: nat, j: nat) {
    i + 4 < j < |text| && OccursAt(text, Markup.MentionOpen, i) && AllPyDigits(text[i + 4..j])
    && text[j] == ']'
  }

  /** `_extract_mentions_from_text`: the account ids of every `[To:<digits>]`, without
      duplicates (the list is built from a set, so it has no meaningful order). */
  function Mentions(text: string): set<nat> {
    set i: nat, j: nat | i < j < |text| && MentionAt(text, i, j) :: DecimalValue(text[i + 4..j])
  }

  /** A mention tag anywhere in the text yields its id. */
  lemma MentionOfTag(a: string, n: nat, b: string)
    ensures n in Mentions(a + Markup.MentionOpen + NatToString(n) + "]" + b)
  {
    var d := NatToString(n);
    var text := a + Markup.MentionOpen + d + "]" + b;
    var i, j := |a|, |a| + 4 + |d|;
    DecimalRoundTrip(n);
    assert text[i..][..4] == Markup.MentionOpen;
    assert text[i + 4..j] == d;
    assert text[j] == ']';
    assert MentionAt(text, i, j);
  }

  /** Without a `[` there is no mention. */
  lemma NoBracketNoMention(text: string)
    requires '[' !in text
    ensures Mentions(text) == {}
  {
    forall i: nat, j: nat | i < j < |text| ensures !MentionAt(text, i, j) {
      assert text[i] != '[';
    }
  }

  // ---------------------------------------------------------------------------
  // Urgency

  const HighKeywords: seq<string> := ["緊急", "至急", "ASAP", "今すぐ", "即", "急ぎ", "重要", "クリティカル"]
  const MediumKeywords: seq<string> := ["なるべく早く", "できれば", "可能であれば", "お早めに"]
  const LowKeywords: seq<string> := ["時間があるとき", "お手すきで", "ゆっくり", "いつでも"]

  /** The keyword lists in the order they are tried. */
  const UrgencyKeywords: seq<(string, seq<string>)> :=
    [("high", HighKeywords), ("medium", MediumKeywords), ("low", LowKeywords)]

  /** The level of the first list with a keyword in `lowered`: some list hits and every list
      before it misses. */
  function FirstLevel(lowered: string, table: seq<(string, seq<string>)>): (r: Option<string>)
    ensures r.Some? <==> exists i :: 0 <= i < |table| && AnyIn(lowered, table[i].1)
    ensures r.Some? ==> exists i :: 0 <= i < |table| && r.value == table[i].0 && AnyIn(lowered, table[i].1)
                                      && forall j :: 0 <= j < i ==> !AnyIn(lowered, table[j].1)
    decreases |table|
  {
    if |table| == 0 then None
    else if AnyIn(lowered, table[0].1) then Some(table[0].0)
    else
      var rest := FirstLevel(lowered, table[1..]);
      assert forall i :: 1 <= i < |table| ==> table[i] == table[1..][i - 1];
      if rest.Some? then
        var i :| 0 <= i < |table[1..]| && rest.value == table[1..][i].0 && AnyIn(lowered, table[1..][i].1)
                 && forall j :: 0 <= j < i ==> !AnyIn(lowered, table[1..][j].1);
        assert forall j :: 0 <= j < i + 1 ==> !AnyIn(lowered, table[j].1);
        rest
      else rest
  }

  /** The exclamation marks that count towards urgency. */
  const Bangs: set<char> := {'!', '！'}

  /** `_determine_priority_from_text` over a keyword table. */
  function PriorityOver(table: seq<(string, seq<string>)>, text: string): string {
    match FirstLevel(Lower(text), table)
    case Some(level) => level
    case None => if CountIn(text, Bangs) >= 2 then "high" else "normal"
  }

  /** `_determine_priority_from_text`. */
  function Priority(text: string): (r: string)
    ensures r == "high" || r == "medium" || r == "low" || r == "normal"
  {
    var t := UrgencyKeywords;
    assert forall i :: 0 <= i < |t| ==> t[i].0 == "high" || t[i].0 == "medium" || t[i].0 == "low";
    PriorityOver(t, text)
  }

  predicate AnyUrgencyKeyword(lowered: string) {
    AnyIn(lowered, HighKeywords) || AnyIn(lowered, MediumKeywords) || AnyIn(lowered, LowKeywords)
  }

  /** The priority is `normal` exactly when no keyword occurs and there are fewer than two
      exclamation marks; a high keyword always wins. */
  lemma PriorityNormal(text: string)
    ensures Priority(text) == "normal" <==> !AnyUrgencyKeyword(Lower(text)) && CountIn(text, Bangs) < 2
    ensures AnyIn(Lower(text), HighKeywords) ==> Priority(text) == "high"
  {
    var t := UrgencyKeywords;
    var l := Lower(text);
    assert t[0].1 == HighKeywords && t[1].1 == MediumKeywords && t[2].1 == LowKeywords;
    if AnyIn(l, HighKeywords) {
      assert FirstLevel(l, t) == Some("high");
    } else {
      assert t[1..][0].1 == MediumKeywords && t[1..][1..][0].1 == LowKeywords;
    }
  }

  /** The lists are tried in order — high, medium, low — and only a text with no keyword at
      all falls back to counting exclamation marks, two or more of which make it high. */
  lemma PriorityPrecedence(text: string)
    ensures var l := Lower(text);
            AnyIn(l, HighKeywords) ==> Priority(text) == "high"
    ensures var l := Lower(text);
            !AnyIn(l, HighKeywords) && AnyIn(l, MediumKeywords) ==> Priority(text) == "medium"
    ensures var l := Lower(text);
            !AnyIn(l, HighKeywords) && !AnyIn(l, MediumKeywords) && AnyIn(l, LowKeywords)
            ==> Priority(text) == "low"
    ensures !AnyUrgencyKeyword(Lower(text)) ==>
              (Priority(text) == "high" <==> CountIn(text, Bangs) >= 2)
              && (Priority(text) == "normal" <==> CountIn(text, Bangs) < 2)
  {
    var t := UrgencyKeywords;
    var l := Lower(text);
    assert t[0].1 == HighKeywords && t[1..][0] == ("medium", MediumKeywords);
    assert t[1..][1..][0] == ("low", LowKeywords) && t[1..][1..][1..] == [];
    if !AnyIn(l, HighKeywords) {
      assert FirstLevel(l, t) == FirstLevel(l, t[1..]);
      if !AnyIn(l, MediumKeywords) {
        assert FirstLevel(l, t[1..]) == FirstLevel(l, t[1..][1..]);
      }
    }
  }

  /** The text is lowered before the search, so the upper-case keyword `ASAP` never matches. */
  lemma AsapNeverMatches(text: string)
    ensures !Contains(Lower(text), "ASAP")
  {
    AbsentHead(Lower(text), "ASAP");
  }

  /** Removing `ASAP` from the high list changes no priority. */
  lemma AsapIsDead(text: string)
    ensures Priority(text) == PriorityOver([("high", HighWithoutAsap)] + UrgencyKeywords[1..], text)
  {
    var l := Lower(text);
    var t := UrgencyKeywords;
    var u := [("high", HighWithoutAsap)] + UrgencyKeywords[1..];
    assert u[1..] == t[1..] && u[0].0 == t[0].0 && t[0].1 == HighKeywords && u[0].1 == HighWithoutAsap;
    AsapNeverMatches(text);
    assert HighKeywords == HighWithoutAsap[..2] + ["ASAP"] + HighWithoutAsap[2..];
    if AnyIn(l, HighKeywords) {
      var i :| 0 <= i < |HighKeywords| && Contains(l, HighKeywords[i]);
      assert i != 2;
      if i < 2 {
        assert HighWithoutAsap[i] == HighKeywords[i];
      } else {
        assert HighWithoutAsap[i - 1] == HighKeywords[i];
      }
    }
    if AnyIn(l, HighWithoutAsap) {
      var i :| 0 <= i < |HighWithoutAsap| && Contains(l, HighWithoutAsap[i]);
      if i < 2 {
        assert HighWithoutAsap[i] == HighKeywords[i];
      } else {
        assert HighWithoutAsap[i] == HighKeywords[i + 1];
      }
    }
  }

  const HighWithoutAsap: seq<string> := ["緊急", "至急", "今すぐ", "即", "急ぎ", "重要", "クリティカル"]

  /** A medium keyword without any high one gives `medium`, a priority the alert summary does
      not count. */
  lemma MediumPriority(text: string)
    requires Contains(Lower(text), "できれば") && !AnyIn(Lower(text), HighKeywords)
    ensures Priority(text) == "medium"
  {
    var t := UrgencyKeywords;
    var l := Lower(text);
    assert t[0].1 == HighKeywords && t[1..][0] == ("medium", MediumKeywords);
    assert Contains(l, MediumKeywords[1]);
    assert FirstLevel(l, t[1..]) == Some("medium");
    assert FirstLevel(l, t) == Some("medium");
  }

  // ---------------------------------------------------------------------------
  // Sentiment

  const PositiveWords: seq<string> := ["ありがとう", "素晴らしい", "良い", "いいね", "完璧", "最高", "助かり"]
  const NegativeWords: seq<string> := ["問題", "困った", "遅れ", "失敗", "ダメ", "最悪", "緊急", "トラブル"]

  /** How many keywords of the list occur, each counted once however often it occurs. */
  function KeywordCount(lowered: string, words: seq<string>): (n: nat)
    ensures n <= |words|
    decreases |words|
  {
    if |words| == 0 then 0
    else KeywordCount(lowered, words[..|words| - 1]) + (if Contains(lowered, words[|words| - 1]) then 1 else 0)
  }

  function Present(lowered: string, words: seq<string>): set<string> {
    set w | w in words && Contains(lowered, w)
  }

  /** The count is the number of distinct keywords present. */
  lemma {:induction false} KeywordCountPresent(lowered: string, words: seq<string>)
    requires Distinct(words)
    ensures KeywordCount(lowered, words) == |Present(lowered, words)|
    decreases |words|
  {
    if |words| > 0 {
      var init := words[..|words| - 1];
      var w := words[|words| - 1];
      assert Distinct(init);
      KeywordCountPresent(lowered, init);
      assert words == init + [w];
      assert w !in init;
      if Contains(lowered, w) {
        assert Present(lowered, words) == Present(lowered, init) + {w};
      } else {
        assert Present(lowered, words) == Present(lowered, init);
      }
    }
  }

  /** `_analyze_sentiment`. */
  function Sentiment(text: string): (r: string)
    ensures r == "positive" || r == "negative" || r == "neutral"
  {
    var p := KeywordCount(Lower(text), PositiveWords);
    var n := KeywordCount(Lower(text), NegativeWords);
    if p > n then "positive" else if n > p then "negative" else "neutral"
  }

  /** The sentiment compares how many distinct positive and negative keywords occur. */
  lemma SentimentByPresence(text: string)
    ensures var p := |Present(Lower(text), PositiveWords)|;
            var n := |Present(Lower(text), NegativeWords)|;
            (Sentiment(text) == "positive" <==> p > n) && (Sentiment(text) == "negative" <==> n > p)
            && (Sentiment(text) == "neutral" <==> p == n)
  {
    KeywordCountPresent(Lower(text), PositiveWords);
    KeywordCountPresent(Lower(text), NegativeWords);
  }

  // ---------------------------------------------------------------------------
  // Replies

  /** The no-reply alternations, lowered for the case-insensitive search. */
  const NoReplyWords: seq<string> :=
    ["共有", "報告", "連絡", "お知らせ", "fyi", "参考", "完了", "終了",
     "ありがとう", "感謝", "了解", "承知", "ok", "おっけー",
     "お疲れさま", "お疲れ様", "お先に"]

  /** The same alternations as written, for the case-sensitive search on bullet items. */
  const NoReplyWordsAsWritten: seq<string> :=
    ["共有", "報告", "連絡", "お知らせ", "FYI", "参考", "完了", "終了",
     "ありがとう", "感謝", "了解", "承知", "OK", "おっけー",
     "お疲れさま", "お疲れ様", "お先に"]

  predicate NoReply(text: string) {
    AnyIn(Lower(text), NoReplyWords)
  }

  /** `_should_respond`. */
  function ShouldRespond(text: string, mentions: set<nat>, questions: seq<string>, tasks: nat,
                         priority: string): bool {
    if NoReply(text) then false
    else |mentions| > 0 || |questions| > 0 || tasks > 0 || priority == "high"
  }

  /** `OK` in any case anywhere, even inside a word such as `book`, rules a reply out. */
  lemma OkRulesOutReply(a: string, b: string, ok: string, mentions: set<nat>, questions: seq<string>,
                        tasks: nat, priority: string)
    requires Lower(ok) == "ok"
    ensures !ShouldRespond(a + ok + b, mentions, questions, tasks, priority)
  {
    var text := a + ok + b;
    assert Lower(text) == Lower(a) + "ok" + Lower(b);
    assert OccursAt(Lower(text), "ok", |a|) by {
      assert Lower(text)[|a|..][..2] == "ok";
    }
    assert NoReplyWords[12] == "ok";
  }

  // ---------------------------------------------------------------------------
  // Questions

  const QuestionEndings: seq<string> := ["？", "?", "ですか", "でしょうか", "ましょうか", "ませんか"]
  const QuestionWords: seq<string> :=
    ["どう", "どの", "どこ", "いつ", "なぜ", "どうして", "どのように",
     "教えて", "知りたい", "分かる", "わかる", "聞きたい"]

  /** A sentence matching one of the question patterns: an ending, or a question word
      anywhere. */
  predicate IsQuestion(s: string) {
    (exists i :: 0 <= i < |QuestionEndings| && EndsWith(s, QuestionEndings[i])) || AnyIn(s, QuestionWords)
  }

  const SentenceBreaks: set<char> := {'。', '\n'}

  /** The stripped, non-empty pieces that are questions, in order. */
  function KeepQuestions(pieces: seq<string>): seq<string>
    decreases |pieces|
  {
    if |pieces| == 0 then []
    else
      var s := Strip(pieces[|pieces| - 1]);
      KeepQuestions(pieces[..|pieces| - 1]) + (if s != "" && IsQuestion(s) then [s] else [])
  }

  lemma {:induction false} KeepQuestionsMembers(pieces: seq<string>, q: string)
    ensures q in KeepQuestions(pieces) <==> exists p :: p in pieces && q == Strip(p) && q != "" && IsQuestion(q)
    decreases |pieces|
  {
    if |pieces| > 0 {
      var init := pieces[..|pieces| - 1];
      KeepQuestionsMembers(init, q);
      assert pieces == init + [pieces[|pieces| - 1]];
      assert forall p :: p in pieces <==> p in init || p == pieces[|pieces| - 1];
    }
  }

  /** Filtering distributes over concatenation: the questions keep their order and their
      repetitions. */
  lemma {:induction false} KeepQuestionsConcat(a: seq<string>, b: seq<string>)
    ensures KeepQuestions(a + b) == KeepQuestions(a) + KeepQuestions(b)
    decreases |b|
  {
    if |b| > 0 {
      var init := b[..|b| - 1];
      assert (a + b)[..|a + b| - 1] == a + init && (a + b)[|a + b| - 1] == b[|b| - 1];
      KeepQuestionsConcat(a, init);
      var x := Strip(b[|b| - 1]);
      var kept := if x != "" && IsQuestion(x) then [x] else [];
      assert KeepQuestions(a + b) == KeepQuestions(a + init) + kept;
      assert KeepQuestions(b) == KeepQuestions(init) + kept;
    } else {
      assert a + b == a;
    }
  }

  /** `_detect_questions`. */
  function Questions(text: string): seq<string> {
    KeepQuestions(SplitAny(text, SentenceBreaks))
  }

  /** A question is a stripped sentence of the text: a piece between sentence breaks. */
  lemma QuestionsAreSentences(text: string, q: string)
    ensures q in Questions(text) <==>
              exists p :: p in SplitAny(text, SentenceBreaks) && q == Strip(p) && q != "" && IsQuestion(q)
  {
    KeepQuestionsMembers(SplitAny(text, SentenceBreaks), q);
  }

  /** A sentence break splits the questions in two: those before it, in order, then those
      after it. */
  lemma QuestionsAcrossBreak(a: string, c: char, b: string)
    requires c in SentenceBreaks
    ensures Questions(a + [c] + b) == Questions(a) + Questions(b)
  {
    SplitAnyAt(a, c, b, SentenceBreaks);
    KeepQuestionsConcat(SplitAny(a, SentenceBreaks), SplitAny(b, SentenceBreaks));
  }

  /** A single sentence yields itself, stripped, when it is a non-empty question, and nothing
      otherwise. */
  lemma QuestionsOfSentence(s: string)
    requires forall i :: 0 <= i < |s| ==> s[i] !in SentenceBreaks
    ensures Questions(s) == if Strip(s) != "" && IsQuestion(Strip(s)) then [Strip(s)] else []
  {
    SplitAnyWhole(s, SentenceBreaks);
    assert [s][..0] == [] && [s][0] == s;
    assert Questions(s) == KeepQuestions([s]);
  }

  // ---------------------------------------------------------------------------
  // Estimated time

  const TimeUnits: seq<string> := ["時間", "分", "日", "週間"]

  /** The end of the run of characters satisfying `p` that starts at `i`. */
  function RunEnd(s: string, i: nat, p: char -> bool): (j: nat)
    requires i <= |s|
    ensures i <= j <= |s| && (j < |s| ==> !p(s[j]))
    ensures forall k :: i <= k < j ==> p(s[k])
    decreases |s| - i
  {
    if i < |s| && p(s[i]) then RunEnd(s, i + 1, p) else i
  }

  /** A match of `(\d+)\s*<unit>` starting at `i`, and where it ends. Neither the digit run nor
      the space run can give back a character to the unit, so the greedy runs decide it. */
  function UnitMatchAt(s: string, i: nat, unit: string): (r: Option<nat>)
    requires i <= |s|
    ensures r.Some? ==> i < r.value <= |s|
  {
    if i < |s| && IsPyDigit(s[i]) then
      var k := RunEnd(s, RunEnd(s, i, IsPyDigit), IsPySpace);
      if OccursAt(s, unit, k) && |unit| > 0 then Some(k + |unit|) else None
    else None
  }

  /** `re.search` for any matcher `m` over start positions up to `n`: the leftmost start at or
      after `i` where `m` reports a match, with the match's end. */
  function Leftmost(m: nat -> Option<nat>, i: nat, n: nat): (r: Option<(nat, nat)>)
    requires i <= n
    ensures r.Some? ==> i <= r.value.0 <= n && m(r.value.0) == Some(r.value.1)
    decreases n - i
  {
    match m(i)
    case Some(e) => Some((i, e))
    case None => if i == n then None else Leftmost(m, i + 1, n)
  }

  /** With no match from `i` up to `k` and one at `k`, the search reports the one at `k`. */
  lemma {:induction false} LeftmostFinds(m: nat -> Option<nat>, i: nat, n: nat, k: nat)
    requires i <= k <= n && m(k).Some?
    requires forall x :: i <= x < k ==> m(x).None?
    ensures Leftmost(m, i, n) == Some((k, m(k).value))
    decreases k - i
  {
    if i < k {
      LeftmostFinds(m, i + 1, n, k);
    }
  }

  /** Without a match from `i` on, the search reports none. */
  lemma {:induction false} LeftmostNone(m: nat -> Option<nat>, i: nat, n: nat)
    requires i <= n
    requires forall x :: i <= x <= n ==> m(x).None?
    ensures Leftmost(m, i, n).None?
    decreases n - i
  {
    if i < n {
      LeftmostNone(m, i + 1, n);
    }
  }

  /** The matcher of `(\d+)\s*<unit>` on `s`. */
  function UnitMatcher(s: string, unit: string): nat -> Option<nat> {
    (k: nat) => if k <= |s| then UnitMatchAt(s, k, unit) else None
  }

  /** `re.search(r'(\d+)\s*<unit>', s)`: the leftmost match, as start and end. */
  function SearchUnit(s: string, unit: string): (r: Option<(nat, nat)>)
    ensures r.Some? ==> r.value.0 < r.value.1 <= |s| && UnitMatchAt(s, r.value.0, unit) == Some(r.value.1)
  {
    Leftmost(UnitMatcher(s, unit), 0, |s|)
  }

  /** `_extract_estimated_time`: the whole match of the first unit, in the order hours,
      minutes, days, weeks, that matches anywhere. */
  function EstimatedTimeFrom(text: string, units: seq<string>): (r: Option<string>)
    ensures r.Some? ==> |r.value| > 0 && IsPyDigit(r.value[0])
    decreases |units|
  {
    if |units| == 0 then None
    else match SearchUnit(text, units[0])
      case Some(m) => Some(text[m.0..m.1])
      case None => EstimatedTimeFrom(text, units[1..])
  }

  /** The estimate is the leftmost match of the earliest unit in the list that matches at all,
      whatever the later units would match. */
  lemma {:induction false} EstimatedTimeFirstHit(text: string, units: seq<string>, i: nat)
    requires i < |units| && SearchUnit(text, units[i]).Some?
    requires forall j :: 0 <= j < i ==> SearchUnit(text, units[j]).None?
    ensures EstimatedTimeFrom(text, units)
            == Some(text[SearchUnit(text, units[i]).value.0..SearchUnit(text, units[i]).value.1])
    decreases i
  {
    if i > 0 {
      assert SearchUnit(text, units[0]).None?;
      assert forall j :: 0 <= j < i - 1 ==> units[1..][j] == units[j + 1];
      EstimatedTimeFirstHit(text, units[1..], i - 1);
    }
  }

  /** Without a match of any unit there is no estimate. */
  lemma {:induction false} EstimatedTimeNoHit(text: string, units: seq<string>)
    requires forall j :: 0 <= j < |units| ==> SearchUnit(text, units[j]).None?
    ensures EstimatedTimeFrom(text, units).None?
    decreases |units|
  {
    if |units| > 0 {
      assert forall j :: 0 <= j < |units| - 1 ==> units[1..][j] == units[j + 1];
      EstimatedTimeNoHit(text, units[1..]);
    }
  }

  function EstimatedTime(text: string): Option<string> {
    EstimatedTimeFrom(text, TimeUnits)
  }

  /** Hours take precedence over the other units wherever they occur: a digit-free prefix,
      a number of hours, then anything. */
  lemma HoursFirst(a: string, n: nat, b: string)
    requires forall k :: 0 <= k < |a| ==> !IsPyDigit(a[k])
    ensures EstimatedTime(a + NatToString(n) + "時間" + b) == Some(NatToString(n) + "時間")
  {
    var d := NatToString(n);
    var s := a + d + "時間" + b;
    forall k | 0 <= k < |a| ensures UnitMatchAt(s, k, "時間").None? {
      assert s[k] == a[k];
    }
    assert s[|a|] == d[0];
    var j := RunEnd(s, |a|, IsPyDigit);
    assert j == |a| + |d| by {
      forall k | |a| <= k < |a| + |d| ensures IsPyDigit(s[k]) {
        assert s[k] == d[k - |a|];
      }
      assert s[|a| + |d|] == '時';
      RunEndAt(s, |a|, |a| + |d|, IsPyDigit);
    }
    assert s[|a| + |d|] == '時';
    assert RunEnd(s, j, IsPySpace) == j;
    assert s[j..][..2] == "時間";
    assert UnitMatchAt(s, |a|, "時間") == Some(j + 2);
    LeftmostFinds(UnitMatcher(s, "時間"), 0, |s|, |a|);
    assert s[|a|..j + 2] == d + "時間";
  }

  /** A run whose characters all satisfy `p` up to `j`, where `p` fails, ends at `j`. */
  lemma {:induction false} RunEndAt(s: string, i: nat, j: nat, p: char -> bool)
    requires i <= j < |s| && !p(s[j]) && forall k :: i <= k < j ==> p(s[k])
    ensures RunEnd(s, i, p) == j
    decreases j - i
  {
    if i < j {
      RunEndAt(s, i + 1, j, p);
    }
  }

  // ---------------------------------------------------------------------------
  // Tasks and the summary

  /** A `TaskInfo` without its deadline. */
  datatype Task = Task(description: string, assignees: set<nat>, priority: string,
                       estimatedTime: Option<string>)

  /** `_parse_task_line`: the description is the line without its surrounding whitespace, and
      the priority is `normal` exactly when the line has no urgency keyword and fewer than two
      exclamation marks. */
  function ParseTaskLine(line: string): (t: Task)
    ensures t.description == Strip(line)
    ensures t.priority == Priority(line) && t.assignees == Mentions(line)
    ensures |t.description| <= |line|
    ensures t.description == "" || (!IsPySpace(t.description[0]) && !IsPySpace(t.description[|t.description| - 1]))
    ensures t.description == "" <==> AllPySpace(line)
    ensures t.priority == "normal" <==> !AnyUrgencyKeyword(Lower(line)) && CountIn(line, Bangs) < 2
    ensures '[' !in line ==> t.assignees == {}
    ensures t.estimatedTime.Some? ==> |t.estimatedTime.value| > 0 && IsPyDigit(t.estimatedTime.value[0])
  {
    PriorityNormal(line);
    assert '[' !in line ==> Mentions(line) == {} by {
      if '[' !in line {
        NoBracketNoMention(line);
      }
    }
    StripEmpty(line);
    Task(Strip(line), Mentions(line), Priority(line), EstimatedTime(line))
  }

  /** The line tasks of `_extract_tasks`: each stripped, non-empty line the task patterns
      (`isTask`) accept. */
  function LineTasks(lines: seq<string>, isTask: string -> bool): (r: seq<Task>)
    ensures |r| <= |lines|
    decreases |lines|
  {
    if |lines| == 0 then []
    else
      var l := Strip(lines[|lines| - 1]);
      LineTasks(lines[..|lines| - 1], isTask) + (if l != "" && isTask(l) then [ParseTaskLine(l)] else [])
  }

  /** `_extract_bullet_tasks` on the captured item texts: an item counts when its stripped
      text is longer than five characters and matches none of the no-reply alternations,
      searched here case-sensitively. */
  function BulletTasks(items: seq<string>): (r: seq<Task>)
    ensures |r| <= |items|
    decreases |items|
  {
    if |items| == 0 then []
    else
      var t := Strip(items[|items| - 1]);
      BulletTasks(items[..|items| - 1])
        + (if |t| > 5 && !AnyIn(t, NoReplyWordsAsWritten) then [ParseTaskLine(t)] else [])
  }

  /** `_generate_summary`. */
  function SummaryText(tasks: nat, questions: nat, priority: string): (r: string)
    ensures r == "通常メッセージ" <==> tasks == 0 && questions == 0 && priority != "high"
    ensures r != "通常メッセージ" ==> StartsWith(r, "検出: ")
  {
    var elements := (if tasks > 0 then ["タスク" + NatToString(tasks) + "件"] else [])
                    + (if questions > 0 then ["質問" + NatToString(questions) + "件"] else [])
                    + (if priority == "high" then ["高優先度"] else []);
    if |elements| > 0 then
      var r := "検出: " + Join(elements, ", ");
      assert r[0] == '検';
      r
    else "通常メッセージ"
  }

  /** The summary lists `タスクN件`, `質問M件` and `高優先度`, in that order, each only when it
      applies, separated by `, ` and preceded by `検出: `. */
  lemma SummaryListsInOrder(tasks: nat, questions: nat, priority: string)
    ensures var t := if tasks > 0 then "タスク" + NatToString(tasks) + "件" else "";
            var q := if questions > 0 then "質問" + NatToString(questions) + "件" else "";
            var h := if priority == "high" then "高優先度" else "";
            t + q + h != "" ==>
              SummaryText(tasks, questions, priority)
              == "検出: " + (t + (if t != "" && q + h != "" then ", " else "") + q
                             + (if q != "" && h != "" then ", " else "") + h)
  {
    var t := if tasks > 0 then "タスク" + NatToString(tasks) + "件" else "";
    var q := if questions > 0 then "質問" + NatToString(questions) + "件" else "";
    var h := if priority == "high" then "高優先度" else "";
    var ts := if tasks > 0 then [t] else [];
    var qs := if questions > 0 then [q] else [];
    var hs := if priority == "high" then [h] else [];
    assert |t| > 0 <==> tasks > 0;
    assert |q| > 0 <==> questions > 0;
    assert |h| > 0 <==> priority == "high";
    JoinOfThree(ts, qs, hs, t, q, h);
    if t + q + h != "" {
      assert ts + qs + hs != [];
      assert SummaryText(tasks, questions, priority) == "検出: " + Join(ts + qs + hs, ", ");
    }
  }

  /** `Join` over at most three optional parts. */
  lemma JoinOfThree(ts: seq<string>, qs: seq<string>, hs: seq<string>, t: string, q: string, h: string)
    requires (ts == [t] && t != "") || (ts == [] && t == "")
    requires (qs == [q] && q != "") || (qs == [] && q == "")
    requires (hs == [h] && h != "") || (hs == [] && h == "")
    ensures Join(ts + qs + hs, ", ")
            == t + (if t != "" && q + h != "" then ", " else "") + q + (if q != "" && h != "" then ", " else "") + h
  {
    var tail := q + (if q != "" && h != "" then ", " else "") + h;
    JoinOfTwo(qs, hs, q, h);
    if ts == [] {
      assert ts + qs + hs == qs + hs;
    } else {
      assert ts + qs + hs == [t] + (qs + hs);
      JoinCons(t, qs + hs, ", ");
      if qs + hs == [] {
        assert q + h == "";
      } else {
        assert q + h != "";
        AppendAssoc(t + ", ", q + (if q != "" && h != "" then ", " else ""), h);
        AppendAssoc(t + ", ", q, if q != "" && h != "" then ", " else "");
      }
    }
  }

  lemma JoinOfTwo(qs: seq<string>, hs: seq<string>, q: string, h: string)
    requires (qs == [q] && q != "") || (qs == [] && q == "")
    requires (hs == [h] && h != "") || (hs == [] && h == "")
    ensures Join(qs + hs, ", ") == q + (if q != "" && h != "" then ", " else "") + h
  {
    if qs == [] {
      assert qs + hs == hs;
    } else {
      assert qs + hs == [q] + hs;
      JoinCons(q, hs, ", ");
    }
  }

  lemma JoinCons(x: string, rest: seq<string>, sep: string)
    ensures Join([x] + rest, sep) == if rest == [] then x else x + sep + Join(rest, sep)
  {
    assert ([x] + rest)[1..] == rest;
  }

  /** The summary ends with the high-priority marker exactly for high priority. */
  lemma SummaryMarksHigh(tasks: nat, questions: nat, priority: string)
    ensures EndsWith(SummaryText(tasks, questions, priority), "高優先度") <==> priority == "high"
  {
    var r := SummaryText(tasks, questions, priority);
    var t := if tasks > 0 then ["タスク" + NatToString(tasks) + "件"] else [];
    var q := if questions > 0 then ["質問" + NatToString(questions) + "件"] else [];
    if priority == "high" {
      JoinEndsWith(t + q, "高優先度", ", ");
    } else if tasks > 0 || questions > 0 {
      var es := t + q;
      assert t + q + [] == es;
      assert r == "検出: " + Join(es, ", ");
      JoinLast(es, ", ");
      assert es[|es| - 1][|es[|es| - 1]| - 1] == '件';
      assert r[|r| - 1] == '件';
    } else {
      assert r[|r| - 1] == 'ジ';
    }
  }

  lemma JoinEndsWith(parts: seq<string>, last: string, sep: string)
    ensures EndsWith(Join(parts + [last], sep), last)
    decreases |parts|
  {
    if |parts| > 0 {
      assert (parts + [last])[1..] == parts[1..] + [last];
      JoinEndsWith(parts[1..], last, sep);
    }
  }

  lemma JoinLast(parts: seq<string>, sep: string)
    requires |parts| > 0 && |parts[|parts| - 1]| > 0
    ensures var j := Join(parts, sep); |j| > 0 && j[|j| - 1] == parts[|parts| - 1][|parts[|parts| - 1]| - 1]
    decreases |parts|
  {
    if |parts| > 1 {
      JoinLast(parts[1..], sep);
    }
  }

  // ---------------------------------------------------------------------------
  // The whole analysis

  /** A `MessageAnalysis` without its deadline and confidence score. */
  datatype Analysis = Analysis(requiresReply: bool, priority: string, tasks: seq<Task>,
                               questions: seq<string>, mentions: set<nat>, sentiment: string,
                               summary: string)

  /** What `analyze` returns when any step raises. */
  const ErrorAnalysis: Analysis := Analysis(false, "normal", [], [], {}, "neutral", "分析エラー")

  /** `analyze`. `isTask` stands for the task patterns, `items` for the bullet captures, and
      `fails` for an exception in any step. */
  function Analyze(body: string, isTask: string -> bool, items: seq<string>, fails: bool): (a: Analysis)
    ensures fails ==> a == ErrorAnalysis
    ensures !fails ==> a.priority == Priority(body) && a.mentions == Mentions(body)
    ensures !fails ==> a.requiresReply == ShouldRespond(body, a.mentions, a.questions, |a.tasks|, a.priority)
    ensures !fails ==> a.summary == SummaryText(|a.tasks|, |a.questions|, a.priority)
    ensures !fails ==> a.questions == Questions(body) && a.sentiment == Sentiment(body)
    ensures !fails ==> |a.tasks| <= |SplitAny(body, {'\n'})| + |items|
    ensures !fails && NoReply(body) ==> !a.requiresReply
    ensures !fails && !NoReply(body) ==>
              (a.requiresReply <==> Mentions(body) != {} || Questions(body) != [] || a.tasks != []
                                    || Priority(body) == "high")
    ensures !fails ==> (a.summary == "通常メッセージ" <==> a.tasks == [] && a.questions == [] && a.priority != "high")
  {
    if fails then ErrorAnalysis
    else
      var tasks := LineTasks(SplitAny(body, {'\n'}), isTask) + BulletTasks(items);
      var questions := Questions(body);
      var mentions := Mentions(body);
      var priority := Priority(body);
      Analysis(ShouldRespond(body, mentions, questions, |tasks|, priority), priority, tasks, questions,
               mentions, Sentiment(body), SummaryText(|tasks|, |questions|, priority))
  }

  /** A failed analysis never asks for a reply and reads as an error, not as an ordinary
      message. */
  lemma ErrorIsDistinct(body: string, isTask: string -> bool, items: seq<string>)
    ensures !Analyze(body, isTask, items, true).requiresReply
    ensures forall t: nat, q: nat, p :: Analyze(body, isTask, items, true).summary != SummaryText(t, q, p)
  {
    forall t: nat, q: nat, p | true ensures ErrorAnalysis.summary != SummaryText(t, q, p) {
      var r := SummaryText(t, q, p);
      if r != "通常メッセージ" {
        assert r[0] == '検';
      }
    }
  }
}

=== FILE: api.dfy ===
/** The dashboard server's shaping of its answers: the 503 guard in front of every `/api`
    handler, the message window, the alert list, the flattened and sorted deletion log, a
    room's deletion log, the `new_message` broadcast and the WebSocket ping rule. The data each
    handler reads from the manager is passed in. */
module Api {
  import opened Base
  import opened Text
  import MessageSync
  import Alerts
  import Manager
  import Analyzer

  /** What a handler answers: its body, 503 when the manager is not initialised, or 500 with
      the text of the exception the handler raised. */
  datatype Response<T> = Success(body: T) | NotInitialised | ServerError(detail: string)

  // ---------------------------------------------------------------------------
  // `/api/messages/{room_id}`

  /** `messages[-limit:]` of the fetched messages, in their original order. */
  function GetMessages(initialised: bool, fetched: Result<seq<MessageSync.Message>, string>,
                       limit: int): (r: Response<seq<MessageSync.Message>>)
    ensures !initialised ==> r == NotInitialised
    ensures initialised && fetched.Err? ==> r == ServerError(fetched.error)
    ensures initialised && fetched.Ok? ==> r.Success?
    ensures r.Success? ==> |r.body| <= |fetched.value| && r.body == fetched.value[|fetched.value| - |r.body|..]
    ensures r.Success? && limit > 0 ==>
              |r.body| == (if limit < |fetched.value| then limit else |fetched.value|)
    ensures r.Success? && limit == 0 ==> r.body == fetched.value
  {
    if !initialised then NotInitialised
    else match fetched
      case Err(e) => ServerError(e)
      case Ok(ms) => Success(PySliceFrom(ms, -limit))
  }

  /** The ChatWork fetch swallows its own failures and hands back an empty page, so after
      start-up a failed fetch is answered with an empty list, not an error. */
  lemma FailedFetchAnswersEmpty(limit: int)
    ensures GetMessages(true, Ok([]), limit) == Success([])
  {
  }

  // ---------------------------------------------------------------------------
  // `/api/alerts`

  const AlertBodyLimit: nat := 200

  /** One entry of `pending_alerts`: the body is cut to 200 characters, without an ellipsis. */
  datatype AlertRow = AlertRow(alertId: string, roomId: string, messageId: string, sender: string,
                               body: string, priority: string, addedAt: int, alertsSent: nat,
                               escalationLevel: nat)

  function AlertRowOf(p: Alerts.Pending): AlertRow {
    var b := p.alert.body;
    AlertRow(p.id, p.alert.roomId, p.alert.messageId, p.alert.sender,
             if |b| <= AlertBodyLimit then b else b[..AlertBodyLimit],
             p.alert.priority, p.alert.addedAt, p.alert.alertsSent, p.alert.escalationLevel)
  }

  /** The total number of logged deletions, over the rooms in dictionary order. */
  function TotalDeleted(logs: map<string, seq<MessageSync.LogEntry>>, order: seq<string>): nat
    requires forall room :: room in order ==> room in logs
    decreases |order|
  {
    if |order| == 0 then 0
    else TotalDeleted(logs, order[..|order| - 1]) + |logs[order[|order| - 1]]|
  }

  datatype AlertsView = AlertsView(summary: Alerts.Summary, pending: seq<AlertRow>, totalDeleted: nat)

  /** The `/api/alerts` body for a given outcome of the summary. */
  function AlertsResponse(initialised: bool, summary: Result<Alerts.Summary, string>,
                          alerts: seq<Alerts.Pending>, logs: map<string, seq<MessageSync.LogEntry>>,
                          order: seq<string>): (r: Response<AlertsView>)
    requires MessageSync.Enumerates(order, logs.Keys)
    ensures !initialised ==> r == NotInitialised
    ensures initialised ==> (r.Success? <==> summary.Ok?)
    ensures r.Success? ==> r.body.summary == summary.value && r.body.totalDeleted == TotalDeleted(logs, order)
    ensures r.Success? ==> |r.body.pending| == |alerts|
    ensures r.Success? ==> forall i :: 0 <= i < |alerts| ==>
              r.body.pending[i].alertId == alerts[i].id
              && |r.body.pending[i].body| == (if |alerts[i].alert.body| <= AlertBodyLimit then |alerts[i].alert.body| else AlertBodyLimit)
              && StartsWith(alerts[i].alert.body, r.body.pending[i].body)
  {
    if !initialised then NotInitialised
    else match summary
      case Err(e) => ServerError(e)
      case Ok(sm) =>
        var rows := seq(|alerts|, i requires 0 <= i < |alerts| => AlertRowOf(alerts[i]));
        Success(AlertsView(sm, rows, TotalDeleted(logs, order)))
  }

  /** `/api/alerts` with the corrected summary, which counts every priority. */
  function GetAlerts(initialised: bool, alerts: seq<Alerts.Pending>,
                     logs: map<string, seq<MessageSync.LogEntry>>, order: seq<string>, now: int): (r: Response<AlertsView>)
    requires MessageSync.Enumerates(order, logs.Keys)
    ensures initialised ==> r.Success? && r.body.summary.total == |alerts| == |r.body.pending|
  {
    AlertsResponse(initialised, Ok(Alerts.PendingSummary(alerts, now)), alerts, logs, order)
  }

  /** `/api/alerts` as written answers 500 exactly when some pending alert has a priority other
      than high, normal and low, and otherwise agrees with the corrected endpoint. */
  lemma AlertsAsWrittenFails(alerts: seq<Alerts.Pending>, logs: map<string, seq<MessageSync.LogEntry>>,
                             order: seq<string>, now: int)
    requires MessageSync.Enumerates(order, logs.Keys)
    ensures var r := AlertsResponse(true, Alerts.PendingSummaryAsWritten(alerts, now), alerts, logs, order);
            (r.ServerError? <==> exists i :: 0 <= i < |alerts| && !Alerts.Usual(alerts[i].alert.priority))
            && (r.Success? ==> r == GetAlerts(true, alerts, logs, order, now))
  {
    Alerts.SummaryAsWrittenFails(alerts, now);
  }

  // ---------------------------------------------------------------------------
  // `/api/deleted-messages` and `/api/deleted-messages/{room_id}`

  /** A logged deletion together with the name of its room. */
  datatype DeletedRow = DeletedRow(entry: MessageSync.LogEntry, roomName: string)

  /** `{str(room["room_id"]): room["name"] for room in rooms}`: a later room with the same id
      wins. */
  function NameMap(rooms: seq<(string, string)>): (names: map<string, string>)
    ensures names.Keys == set r | r in rooms :: r.0
    decreases |rooms|
  {
    if |rooms| == 0 then map[]
    else
      var init := rooms[..|rooms| - 1];
      var last := rooms[|rooms| - 1];
      assert rooms == init + [last];
      NameMap(init)[last.0 := last.1]
  }

  /** `room_names.get(room_id, f"Room {room_id}")`. */
  function RoomName(names: map<string, string>, room: string): string {
    if room in names then names[room] else "Room " + room
  }

  /** The rows of the rooms in `order`, room by room. */
  function Flatten(logs: map<string, seq<MessageSync.LogEntry>>, order: seq<string>,
                   names: map<string, string>): (r: seq<DeletedRow>)
    requires forall room :: room in order ==> room in logs
    ensures |r| == TotalDeleted(logs, order)
    decreases |order|
  {
    if |order| == 0 then []
    else
      var room := order[|order| - 1];
      Flatten(logs, order[..|order| - 1], names)
        + seq(|logs[room]|, i requires 0 <= i < |logs[room]| => DeletedRow(logs[room][i], RoomName(names, room)))
  }

  /** Every row comes from one room's log and carries that room's name, and every logged
      deletion has its row. */
  lemma {:induction false} FlattenMembers(logs: map<string, seq<MessageSync.LogEntry>>, order: seq<string>,
                                          names: map<string, string>, row: DeletedRow)
    requires forall room :: room in order ==> room in logs
    ensures row in Flatten(logs, order, names) <==>
              exists room :: room in order && row.entry in logs[room] && row.roomName == RoomName(names, room)
    decreases |order|
  {
    if |order| > 0 {
      var init := order[..|order| - 1];
      var room := order[|order| - 1];
      var tail := seq(|logs[room]|, i requires 0 <= i < |logs[room]| => DeletedRow(logs[room][i], RoomName(names, room)));
      FlattenMembers(logs, init, names, row);
      assert row in tail <==> row.entry in logs[room] && row.roomName == RoomName(names, room) by {
        if row.entry in logs[room] && row.roomName == RoomName(names, room) {
          var i :| 0 <= i < |logs[room]| && logs[room][i] == row.entry;
          assert tail[i] == row;
        }
      }
      assert forall x :: x in order <==> x in init || x == room by {
        assert order == init + [room];
      }
    }
  }

  /** The sort key: `x.get("deleted_at", "")`; every logged entry carries one. */
  function DeletedAt(row: DeletedRow): string {
    row.entry.deletedAt
  }

  /** Newest first: no row's key is smaller than the next one's. */
  predicate NonIncreasing(s: seq<DeletedRow>) {
    forall i :: 0 < i < |s| ==> !LexLess(DeletedAt(s[i - 1]), DeletedAt(s[i]))
  }

  /** Puts `x` before the first row with a smaller key, so after every row whose key is not
      smaller: rows with equal keys keep their order. */
  function InsertDesc(x: DeletedRow, s: seq<DeletedRow>): (r: seq<DeletedRow>)
    ensures |r| == |s| + 1 && multiset(r) == multiset(s) + multiset{x}
    ensures r[0] == x || (|s| > 0 && r[0] == s[0])
    decreases |s|
  {
    if |s| == 0 then [x]
    else if LexLess(DeletedAt(s[0]), DeletedAt(x)) then [x] + s
    else
      assert s == [s[0]] + s[1..];
      [s[0]] + InsertDesc(x, s[1..])
  }

  lemma NonIncreasingTail(s: seq<DeletedRow>)
    requires |s| > 0 && NonIncreasing(s)
    ensures NonIncreasing(s[1..])
  {
    forall i | 0 < i < |s[1..]| ensures !LexLess(DeletedAt(s[1..][i - 1]), DeletedAt(s[1..][i])) {
      assert s[1..][i - 1] == s[i] && s[1..][i] == s[i + 1];
    }
  }

  lemma NonIncreasingCons(a: DeletedRow, s: seq<DeletedRow>)
    requires NonIncreasing(s) && (|s| > 0 ==> !LexLess(DeletedAt(a), DeletedAt(s[0])))
    ensures NonIncreasing([a] + s)
  {
    var r := [a] + s;
    forall i | 0 < i < |r| ensures !LexLess(DeletedAt(r[i - 1]), DeletedAt(r[i])) {
      if i > 1 {
        assert r[i - 1] == s[i - 2] && r[i] == s[i - 1];
      }
    }
  }

  /** Inserting into a newest-first sequence keeps it newest first. */
  lemma {:induction false} InsertDescSorted(x: DeletedRow, s: seq<DeletedRow>)
    requires NonIncreasing(s)
    ensures NonIncreasing(InsertDesc(x, s))
    decreases |s|
  {
    if |s| > 0 {
      if LexLess(DeletedAt(s[0]), DeletedAt(x)) {
        LexAsymmetric(DeletedAt(s[0]), DeletedAt(x));
        NonIncreasingCons(x, s);
      } else {
        NonIncreasingTail(s);
        InsertDescSorted(x, s[1..]);
        NonIncreasingCons(s[0], InsertDesc(x, s[1..]));
      }
    }
  }

  /** `result.sort(key=..., reverse=True)`: Python's sort is stable, also in reverse. */
  function SortDesc(s: seq<DeletedRow>): (r: seq<DeletedRow>)
    ensures multiset(r) == multiset(s) && NonIncreasing(r)
    decreases |s|
  {
    if |s| == 0 then []
    else
      assert s == s[..|s| - 1] + [s[|s| - 1]];
      InsertDescSorted(s[|s| - 1], SortDesc(s[..|s| - 1]));
      InsertDesc(s[|s| - 1], SortDesc(s[..|s| - 1]))
  }

  /** The rows whose key is `k`, in order. */
  function WithKey(s: seq<DeletedRow>, k: string): (r: seq<DeletedRow>)
    decreases |s|
  {
    if |s| == 0 then []
    else (if DeletedAt(s[0]) == k then [s[0]] else []) + WithKey(s[1..], k)
  }

  lemma {:induction false} WithKeyAppend(s: seq<DeletedRow>, x: DeletedRow, k: string)
    ensures WithKey(s + [x], k) == WithKey(s, k) + (if DeletedAt(x) == k then [x] else [])
    decreases |s|
  {
    if |s| > 0 {
      assert (s + [x])[1..] == s[1..] + [x];
      WithKeyAppend(s[1..], x, k);
    } else {
      assert [x][1..] == [];
    }
  }

  /** In a newest-first sequence headed by a key smaller than `k`, no row has key `k`. */
  lemma {:induction false} NoKeyBelowHead(s: seq<DeletedRow>, k: string)
    requires |s| > 0 && NonIncreasing(s) && LexLess(DeletedAt(s[0]), k)
    ensures WithKey(s, k) == []
    decreases |s|
  {
    LexIrreflexive(k);
    if |s| > 1 {
      var a, b := DeletedAt(s[0]), DeletedAt(s[1]);
      assert !LexLess(a, b);
      LexTotal(a, b);
      if a != b {
        LexTransitive(b, a, k);
      }
      NonIncreasingTail(s);
      NoKeyBelowHead(s[1..], k);
    }
  }

  lemma WithKeyCons(a: DeletedRow, s: seq<DeletedRow>, k: string)
    ensures WithKey([a] + s, k) == (if DeletedAt(a) == k then [a] else []) + WithKey(s, k)
  {
    assert ([a] + s)[1..] == s;
  }

  /** Case of `InsertDesc` where `x` goes in front. */
  lemma InsertFrontStable(x: DeletedRow, s: seq<DeletedRow>, k: string)
    requires |s| > 0 && NonIncreasing(s) && LexLess(DeletedAt(s[0]), DeletedAt(x))
    ensures WithKey([x] + s, k) == WithKey(s, k) + (if DeletedAt(x) == k then [x] else [])
  {
    WithKeyCons(x, s, k);
    if DeletedAt(x) == k {
      NoKeyBelowHead(s, k);
    }
  }

  /** Case of `InsertDesc` where `x` goes behind the head `a`. */
  lemma InsertBehindStable(a: DeletedRow, rest: seq<DeletedRow>, inserted: seq<DeletedRow>, own: seq<DeletedRow>, k: string)
    requires WithKey(inserted, k) == WithKey(rest, k) + own
    ensures WithKey([a] + inserted, k) == WithKey([a] + rest, k) + own
  {
    WithKeyCons(a, inserted, k);
    WithKeyCons(a, rest, k);
  }

  /** Inserting keeps the rows of each key in order, the new one after those already there. */
  lemma {:induction false} InsertDescStable(x: DeletedRow, s: seq<DeletedRow>, k: string)
    requires NonIncreasing(s)
    ensures WithKey(InsertDesc(x, s), k) == WithKey(s, k) + (if DeletedAt(x) == k then [x] else [])
    decreases |s|
  {
    if |s| == 0 {
      WithKeyCons(x, [], k);
    } else if LexLess(DeletedAt(s[0]), DeletedAt(x)) {
      InsertFrontStable(x, s, k);
    } else {
      NonIncreasingTail(s);
      InsertDescStable(x, s[1..], k);
      InsertBehindStable(s[0], s[1..], InsertDesc(x, s[1..]), if DeletedAt(x) == k then [x] else [], k);
      assert [s[0]] + s[1..] == s;
    }
  }

  /** The sort is stable: the rows of each key appear in the order they had before. */
  lemma {:induction false} SortDescStable(s: seq<DeletedRow>, k: string)
    ensures WithKey(SortDesc(s), k) == WithKey(s, k)
    decreases |s|
  {
    if |s| > 0 {
      var init, x := s[..|s| - 1], s[|s| - 1];
      assert s == init + [x];
      var sorted := SortDesc(init);
      assert SortDesc(s) == InsertDesc(x, sorted);
      SortDescStable(init, k);
      InsertDescStable(x, sorted, k);
      WithKeyAppend(init, x, k);
    }
  }

  /** `/api/deleted-messages`: every room's log flattened, each row with its room's name, newest
      deletion first. */
  function GetAllDeleted(initialised: bool, logs: map<string, seq<MessageSync.LogEntry>>, order: seq<string>,
                         rooms: seq<(string, string)>): (r: Response<seq<DeletedRow>>)
    requires MessageSync.Enumerates(order, logs.Keys)
    ensures !initialised ==> r == NotInitialised
    ensures initialised ==> r.Success? && |r.body| == TotalDeleted(logs, order) && NonIncreasing(r.body)
    ensures r.Success? ==> multiset(r.body) == multiset(Flatten(logs, order, NameMap(rooms)))
  {
    if !initialised then NotInitialised
    else Success(SortDesc(Flatten(logs, order, NameMap(rooms))))
  }

  /** A row of the sorted list is exactly a logged deletion with its room's name, falling back
      to `Room <id>` for a room the room list does not name. */
  lemma AllDeletedMembers(logs: map<string, seq<MessageSync.LogEntry>>, order: seq<string>,
                          rooms: seq<(string, string)>, row: DeletedRow)
    requires MessageSync.Enumerates(order, logs.Keys)
    ensures row in GetAllDeleted(true, logs, order, rooms).body <==>
              exists room :: room in logs && row.entry in logs[room] && row.roomName == RoomName(NameMap(rooms), room)
  {
    var flat := Flatten(logs, order, NameMap(rooms));
    FlattenMembers(logs, order, NameMap(rooms), row);
    assert row in GetAllDeleted(true, logs, order, rooms).body <==> row in multiset(flat);
  }

  /** `/api/deleted-messages/{room_id}`: `get_deleted_messages(room_id).get(room_id, [])`. */
  function GetDeletedByRoom(initialised: bool, logs: map<string, seq<MessageSync.LogEntry>>,
                            room: string): (r: Response<seq<MessageSync.LogEntry>>)
    ensures !initialised ==> r == NotInitialised
    ensures initialised ==> r == Success(if room in logs then logs[room] else [])
  {
    if !initialised then NotInitialised
    else
      var selected := MessageSync.DeletedLogs(logs, Some(room));
      Success(if room in selected then selected[room] else [])
  }

  // ---------------------------------------------------------------------------
  // The WebSocket

  const EnvelopeBodyLimit: nat := 100

  /** The `data` of a `new_message` broadcast, sent after each processed message. */
  datatype Envelope = Envelope(roomId: string, messageId: string, sender: string, body: string,
                               timestamp: int)

  function NewMessageEnvelope(m: MessageSync.Message): Envelope {
    Envelope(m.roomId, m.messageId, m.sender, Abbreviate(m.body, EnvelopeBodyLimit), m.sendTime)
  }

  /** The broadcast body and the stored detail's body (cut at 200) agree on their first 100
      characters; they are equal, and equal to the body, when it has at most 100. */
  lemma EnvelopeAgreesWithDetail(m: MessageSync.Message, a: Analyzer.Analysis, now: int)
    ensures var e := NewMessageEnvelope(m).body;
            var d := Manager.DetailOf(m, a, now).body;
            var n := if |m.body| < EnvelopeBodyLimit then |m.body| else EnvelopeBodyLimit;
            |e| >= n && |d| >= n && e[..n] == d[..n] == m.body[..n]
            && (|m.body| <= EnvelopeBodyLimit ==> e == d == m.body)
            && |e| <= EnvelopeBodyLimit + 3
  {
  }

  /** A JSON value as `json.loads` returns it (numbers as integers). */
  datatype Json = JNull | JBool(b: bool) | JNum(n: int) | JStr(s: string) | JArr(items: seq<Json>)
                | JObj(fields: map<string, Json>)

  /** What the endpoint does with one client text: answer `pong`, ignore it, or end the handler
      with an exception. */
  datatype ClientOutcome = Pong | Ignored | Raised

  /** One received text: `parsed` is `None` when it is not JSON, which raises; so does any JSON
      value other than an object, which has no `.get`. */
  function OnClientText(parsed: Option<Json>): (r: ClientOutcome)
    ensures r == Pong <==> parsed.Some? && parsed.value.JObj? && "type" in parsed.value.fields
                           && parsed.value.fields["type"] == JStr("ping")
    ensures r == Raised <==> parsed.None? || !parsed.value.JObj?
  {
    match parsed
    case None => Raised
    case Some(JObj(f)) => if "type" in f && f["type"] == JStr("ping") then Pong else Ignored
    case Some(_) => Raised
  }

  /** The replies to a session's texts: one `pong` per ping, up to the first text that raises,
      after which the handler has ended and nothing more is read. */
  function Session(texts: seq<Option<Json>>): (r: seq<ClientOutcome>)
    ensures |r| <= |texts|
    ensures forall i :: 0 <= i < |r| ==> r[i] == OnClientText(texts[i])
    ensures forall i :: 0 <= i < |r| - 1 ==> r[i] != Raised
    ensures |r| < |texts| ==> |r| > 0 && r[|r| - 1] == Raised
    decreases |texts|
  {
    if |texts| == 0 then []
    else
      var o := OnClientText(texts[0]);
      if o == Raised then [Raised] else [o] + Session(texts[1..])
  }

  /** A session of well-formed objects is read to the end. */
  lemma {:induction false} ObjectsAreAllRead(texts: seq<Option<Json>>)
    requires forall i :: 0 <= i < |texts| ==> texts[i].Some? && texts[i].value.JObj?
    ensures |Session(texts)| == |texts|
    decreases |texts|
  {
    if |texts| > 0 {
      ObjectsAreAllRead(texts[1..]);
    }
  }
}

=== FILE: base.dfy ===
/** Small failure-carrying datatypes shared by every other module. */
module Base {

  /** A value that may be missing: Python's `None`, a JSON key that is absent. */
  datatype Option<T> = None | Some(value: T) {
    function GetOr(default: T): T {
      match this
      case Some(v) => v
      case None => default
    }
  }

  /** The outcome of an operation that can raise: `Err` carries the exception kind. */
  datatype Result<T, E> = Ok(value: T) | Err(error: E)

  /** No element occurs twice: the keys of a dictionary, the ids of a log. */
  predicate Distinct<T(==)>(xs: seq<T>) {
    forall i, j :: 0 <= i < j < |xs| ==> xs[i] != xs[j]
  }

  /** Dropping a prefix keeps the elements distinct. */
  lemma DistinctSuffix<T>(xs: seq<T>, k: nat)
    requires Distinct(xs) && k <= |xs|
    ensures Distinct(xs[k..])
  {
    forall i, j | 0 <= i < j < |xs| - k ensures xs[k..][i] != xs[k..][j] {
      assert xs[k..][i] == xs[k + i] && xs[k..][j] == xs[k + j];
    }
  }

  /** A set built from distinct elements has as many members as the sequence has elements. */
  lemma {:induction false} DistinctCard<T>(xs: seq<T>)
    requires Distinct(xs)
    ensures |set x | x in xs| == |xs|
    decreases |xs|
  {
    if |xs| > 0 {
      var init := xs[..|xs| - 1];
      assert Distinct(init);
      DistinctCard(init);
      assert (set x | x in xs) == (set x | x in init) + {xs[|xs| - 1]};
      assert xs[|xs| - 1] !in init;
    }
  }
}

=== FILE: elapsed.dfy ===
/** The two renderings of an elapsed time: the dashboard's `formatTimeElapsed` (milliseconds,
    days and hours or hours and minutes or minutes) and the alert system's
    `_format_time_elapsed` (seconds, days, hours and minutes). Both truncate to whole units. */
module Elapsed {
  import opened Text

  const MinuteMs: nat := 60000
  const HourMs: nat := 3600000
  const DayMs: nat := 86400000

  /** JavaScript's `%`, which truncates toward zero. */
  function JsRemainder(a: int, b: int): (r: int)
    requires b > 0
    ensures a >= 0 ==> r == a % b
  {
    if a >= 0 then a % b else -((-a) % b)
  }

  /** What the dashboard shows. */
  datatype Shown = DaysHours(days: int, hours: int) | HoursMinutes(hours: int, minutes: int)
                 | MinutesOnly(minutes: int)

  /** `formatTimeElapsed` before rendering: `Math.floor` of the elapsed minutes, hours and days,
      reported as the two largest units (or minutes alone). Each figure is the truncation of the
      elapsed time to that unit. */
  function DashboardParts(diffMs: int): (p: Shown)
    ensures p.DaysHours? <==> diffMs >= DayMs
    ensures p.HoursMinutes? <==> HourMs <= diffMs < DayMs
    ensures p.DaysHours? ==> p.days > 0 && 0 <= p.hours < 24
    ensures p.DaysHours? ==> (p.days * 24 + p.hours) * HourMs <= diffMs < (p.days * 24 + p.hours + 1) * HourMs
    ensures p.HoursMinutes? ==> 0 < p.hours < 24 && 0 <= p.minutes < 60
    ensures p.HoursMinutes? ==> (p.hours * 60 + p.minutes) * MinuteMs <= diffMs < (p.hours * 60 + p.minutes + 1) * MinuteMs
    ensures p.MinutesOnly? ==> p.minutes < 60 && p.minutes * MinuteMs <= diffMs < (p.minutes + 1) * MinuteMs
  {
    // Math.floor(x / k) for a positive k is Dafny's Euclidean division.
    var minutes := diffMs / 60000;
    var hours := minutes / 60;
    var days := hours / 24;
    if days > 0 then DaysHours(days, JsRemainder(hours, 24))
    else if hours > 0 then HoursMinutes(hours, JsRemainder(minutes, 60))
    else MinutesOnly(minutes)
  }

  function DashboardText(diffMs: int): string {
    match DashboardParts(diffMs)
    case DaysHours(d, h) => IntToString(d) + "日" + IntToString(h) + "時間"
    case HoursMinutes(h, m) => IntToString(h) + "時間" + IntToString(m) + "分"
    case MinutesOnly(m) => IntToString(m) + "分"
  }

  /** What an alert shows. */
  datatype AlertShown = AlertDays(days: int, hours: int, minutes: int) | AlertHours(hours: int, minutes: int)
                      | AlertMinutes(minutes: int)

  /** `int(x / 60)`: Python's `int` truncates the quotient toward zero. */
  function TruncMinutes(seconds: int): (m: int)
    ensures seconds >= 0 ==> m == seconds / 60
    ensures seconds < 0 ==> m == -((-seconds) / 60)
  {
    if seconds >= 0 then seconds / 60 else -((-seconds) / 60)
  }

  /** `_format_time_elapsed` before rendering. Python's `//` and `%` floor, so the hour and minute
      figures are never negative, even for a time before the start. */
  function AlertParts(seconds: int): (p: AlertShown)
    ensures p.AlertDays? <==> seconds >= 86400
    ensures p.AlertDays? ==> p.days > 0
    ensures p.AlertDays? ==> 0 <= p.hours < 24 && 0 <= p.minutes < 60
    ensures p.AlertDays? ==> ((p.days * 24 + p.hours) * 60 + p.minutes) * 60 <= seconds
    ensures p.AlertDays? ==> seconds < ((p.days * 24 + p.hours) * 60 + p.minutes + 1) * 60
    ensures p.AlertHours? ==> 0 < p.hours < 24 && 0 <= p.minutes < 60
    ensures seconds >= 0 ==> (p.AlertHours? <==> 3600 <= seconds < 86400)
    ensures seconds >= 0 && p.AlertHours? ==> (p.hours * 60 + p.minutes) * 60 <= seconds < (p.hours * 60 + p.minutes + 1) * 60
    ensures seconds >= 0 && p.AlertMinutes? ==> p.minutes * 60 <= seconds < (p.minutes + 1) * 60
  {
    var totalMinutes := TruncMinutes(seconds);
    var hours := totalMinutes / 60;
    var minutes := totalMinutes % 60;
    var days := hours / 24;
    var hours' := hours % 24;
    if days > 0 then AlertDays(days, hours', minutes)
    else if hours' > 0 then AlertHours(hours', minutes)
    else AlertMinutes(minutes)
  }

  function AlertText(seconds: int): string {
    match AlertParts(seconds)
    case AlertDays(d, h, m) => IntToString(d) + "日" + IntToString(h) + "時間" + IntToString(m) + "分"
    case AlertHours(h, m) => IntToString(h) + "時間" + IntToString(m) + "分"
    case AlertMinutes(m) => IntToString(m) + "分"
  }

  /** Below one day the dashboard and the alerts show the same text for the same time. */
  lemma SameTextBelowADay(seconds: int)
    requires 0 <= seconds < 86400
    ensures DashboardText(seconds * 1000) == AlertText(seconds)
  {
    var p := DashboardParts(seconds * 1000);
    var q := AlertParts(seconds);
    if p.HoursMinutes? {
      assert q.AlertHours?;
      SameMinute(seconds, p.hours * 60 + p.minutes, q.hours * 60 + q.minutes);
    } else {
      assert q.AlertMinutes?;
      SameMinute(seconds, p.minutes, q.minutes);
    }
  }

  /** From one day on the dashboard drops the minutes the alerts still show. */
  lemma AlertAddsMinutes(seconds: int)
    requires seconds >= 86400
    ensures AlertText(seconds) == DashboardText(seconds * 1000) + IntToString(AlertParts(seconds).minutes) + "分"
  {
    var p := DashboardParts(seconds * 1000);
    var q := AlertParts(seconds);
    SameHour(seconds, p.days * 24 + p.hours, q.days * 24 + q.hours, q.minutes);
  }

  lemma SameMinute(seconds: int, a: int, b: int)
    requires a * 60000 <= seconds * 1000 < (a + 1) * 60000
    requires b * 60 <= seconds < (b + 1) * 60
    ensures a == b
  {
  }

  lemma SameHour(seconds: int, a: int, b: int, m: int)
    requires a * 3600000 <= seconds * 1000 < (a + 1) * 3600000
    requires 0 <= m < 60 && (b * 60 + m) * 60 <= seconds < (b * 60 + m + 1) * 60
    ensures a == b
  {
  }

  /** A time one minute before the start reads as 23 hours and 59 minutes in an alert. */
  lemma AlertBeforeStart()
    ensures AlertText(-60) == "23時間59分"
  {
  }
}

=== FILE: manager.dfy ===
/** The manager's bookkeeping around each polled message: every message key is processed at
    most once, the newest hundred processed-message details are kept, a message that needs a
    reply gets an alert, and the history and status read-outs. Fetching the new messages of a
    room and analysing a message are parameters. */
module Manager {
  import opened Base
  import opened Text
  import MessageSync
  import Analyzer
  import Alerts

  const DetailCap: nat := 100
  const DetailBodyLimit: nat := 200

  /** One `processed_message_details` entry, without the sender's account id; the analysis is
      kept whole. */
  datatype Detail = Detail(messageId: string, roomId: string, sender: string, body: string,
                           sendTime: int, processedAt: int, analysis: Analyzer.Analysis)

  /** `ChatWorkAIManager`: the running flag, the processed message keys, the detail history and
      the alert system's pending alerts. */
  datatype Manager = Manager(running: bool, processed: set<string>, details: seq<Detail>,
                             alerts: seq<Alerts.Pending>)

  const Initial: Manager := Manager(false, {}, [], [])

  /** The key a message is remembered under: the polled room's id, `_`, the message id. */
  function Key(room: string, m: MessageSync.Message): string {
    Alerts.AlertId(room, m.messageId)
  }

  function KeySet(room: string, ms: seq<MessageSync.Message>): set<string> {
    set m | m in ms :: Key(room, m)
  }

  /** The detail stored for a message: the body cut to 200 characters with `...` when longer. */
  function DetailOf(m: MessageSync.Message, a: Analyzer.Analysis, now: int): Detail {
    Detail(m.messageId, m.roomId, m.sender, Abbreviate(m.body, DetailBodyLimit), m.sendTime, now, a)
  }

  // ---------------------------------------------------------------------------
  // Processing one message

  /** `process_message`. `outcome` is the analysis, or `None` when the processing raised before
      its bookkeeping; the exception is swallowed either way. The detail is appended and the
      history cut back to its newest hundred; an alert is scheduled exactly when the analysis
      asks for a reply. */
  function ProcessMessage(st: Manager, m: MessageSync.Message, outcome: Option<Analyzer.Analysis>,
                          now: int): (r: Manager)
    ensures r.running == st.running && r.processed == st.processed
    ensures outcome.None? ==> r == st
    ensures outcome.Some? ==>
              |r.details| == (if |st.details| < DetailCap then |st.details| + 1 else DetailCap)
              && r.details[|r.details| - 1] == DetailOf(m, outcome.value, now)
              && r.details == (st.details + [DetailOf(m, outcome.value, now)])[|st.details| + 1 - |r.details|..]
    ensures outcome.Some? && outcome.value.requiresReply ==>
              Alerts.Get(r.alerts, Alerts.AlertId(m.roomId, m.messageId))
              == Some(Alerts.Fresh(m.roomId, m.messageId, m.sender, m.body, outcome.value.priority, now))
    ensures (outcome.None? || !outcome.value.requiresReply) ==> r.alerts == st.alerts
    ensures forall k :: k != Alerts.AlertId(m.roomId, m.messageId) ==> Alerts.Get(r.alerts, k) == Alerts.Get(st.alerts, k)
  {
    match outcome
    case None => st
    case Some(a) =>
      var details := PySliceFrom(st.details + [DetailOf(m, a, now)], -(DetailCap as int));
      var alerts := if a.requiresReply
                    then Alerts.Schedule(st.alerts, m.roomId, m.messageId, m.sender, m.body, a.priority, now)
                    else st.alerts;
      st.(details := details, alerts := alerts)
  }

  // ---------------------------------------------------------------------------
  // Checking a room

  /** The keys in `log` were newly processed: none was processed before, none twice, and
      afterwards exactly they have joined the processed set. */
  predicate Logged(before: set<string>, after: set<string>, log: seq<string>) {
    Distinct(log) && (forall i :: 0 <= i < |log| ==> log[i] !in before)
    && after == before + set k | k in log
  }

  lemma DistinctSnoc<T>(xs: seq<T>, x: T)
    requires Distinct(xs) && x !in xs
    ensures Distinct(xs + [x])
  {
  }

  lemma KeySetSnoc(room: string, ms: seq<MessageSync.Message>)
    requires |ms| > 0
    ensures KeySet(room, ms) == KeySet(room, ms[..|ms| - 1]) + {Key(room, ms[|ms| - 1])}
  {
    assert ms == ms[..|ms| - 1] + [ms[|ms| - 1]];
  }

  /** `_check_room_messages` on the new messages of a room, in order. A message whose key is
      already processed is skipped; any other is processed and its key added, whether or not
      the processing succeeded. The second result lists the keys processed, in order (the
      `Processed message` log lines). */
  function CheckRoom(st: Manager, room: string, ms: seq<MessageSync.Message>,
                     analyze: MessageSync.Message -> Option<Analyzer.Analysis>, now: int): (r: (Manager, seq<string>))
    ensures r.0.running == st.running
    ensures r.0.processed == st.processed + KeySet(room, ms)
    ensures Logged(st.processed, r.0.processed, r.1)
    decreases |ms|
  {
    if |ms| == 0 then (st, [])
    else
      var prev := CheckRoom(st, room, ms[..|ms| - 1], analyze, now);
      var m := ms[|ms| - 1];
      var k := Key(room, m);
      KeySetSnoc(room, ms);
      if k in prev.0.processed then prev
      else
        var p := ProcessMessage(prev.0, m, analyze(m), now);
        assert k !in prev.1;
        DistinctSnoc(prev.1, k);
        assert (set x | x in prev.1 + [k]) == (set x | x in prev.1) + {k};
        (p.(processed := p.processed + {k}), prev.1 + [k])
  }

  /** The history stays within its cap through a whole check. */
  lemma {:induction false} CheckRoomBounded(st: Manager, room: string, ms: seq<MessageSync.Message>,
                                            analyze: MessageSync.Message -> Option<Analyzer.Analysis>, now: int)
    requires |st.details| <= DetailCap
    ensures |CheckRoom(st, room, ms, analyze, now).0.details| <= DetailCap
    decreases |ms|
  {
    if |ms| > 0 {
      CheckRoomBounded(st, room, ms[..|ms| - 1], analyze, now);
    }
  }

  /** Messages that were all processed before change nothing: fetching the same messages again
      processes none of them. */
  lemma {:induction false} RecheckIsQuiet(st: Manager, room: string, ms: seq<MessageSync.Message>,
                                          analyze: MessageSync.Message -> Option<Analyzer.Analysis>, now: int)
    requires forall m :: m in ms ==> Key(room, m) in st.processed
    ensures CheckRoom(st, room, ms, analyze, now) == (st, [])
    decreases |ms|
  {
    if |ms| > 0 {
      RecheckIsQuiet(st, room, ms[..|ms| - 1], analyze, now);
      assert ms[|ms| - 1] in ms;
    }
  }

  /** Checking the same messages twice processes them once. */
  lemma CheckRoomTwice(st: Manager, room: string, ms: seq<MessageSync.Message>,
                       analyze: MessageSync.Message -> Option<Analyzer.Analysis>, now: int)
    ensures var once := CheckRoom(st, room, ms, analyze, now).0;
            CheckRoom(once, room, ms, analyze, now) == (once, [])
  {
    var once := CheckRoom(st, room, ms, analyze, now).0;
    forall m | m in ms ensures Key(room, m) in once.processed {
    }
    RecheckIsQuiet(once, room, ms, analyze, now);
  }

  /** Every alert a check adds or replaces belongs to one of the checked messages, and that
      message's analysis asked for a reply. */
  lemma {:induction false} AlertsOnlyForReplies(st: Manager, room: string, ms: seq<MessageSync.Message>,
                                                analyze: MessageSync.Message -> Option<Analyzer.Analysis>,
                                                now: int, k: string)
    requires Alerts.Get(CheckRoom(st, room, ms, analyze, now).0.alerts, k) != Alerts.Get(st.alerts, k)
    ensures exists m :: m in ms && k == Alerts.AlertId(m.roomId, m.messageId)
                        && analyze(m).Some? && analyze(m).value.requiresReply
    decreases |ms|
  {
    if |ms| > 0 {
      var init := ms[..|ms| - 1];
      var m := ms[|ms| - 1];
      var prev := CheckRoom(st, room, init, analyze, now);
      if Alerts.Get(prev.0.alerts, k) != Alerts.Get(st.alerts, k) {
        AlertsOnlyForReplies(st, room, init, analyze, now, k);
        var w :| w in init && k == Alerts.AlertId(w.roomId, w.messageId) && analyze(w).Some? && analyze(w).value.requiresReply;
        assert w in ms;
      } else {
        assert m in ms;
      }
    }
  }

  // ---------------------------------------------------------------------------
  // A monitoring round and the whole run

  /** One pass of `monitor_messages` over the monitored rooms. `fetch` gives a room's new
      messages, or `None` when fetching raised, in which case the room is skipped. */
  function Round(st: Manager, rooms: seq<string>, fetch: string -> Option<seq<MessageSync.Message>>,
                 analyze: MessageSync.Message -> Option<Analyzer.Analysis>, now: int): (r: (Manager, seq<string>))
    ensures r.0.running == st.running
    ensures Logged(st.processed, r.0.processed, r.1)
    decreases |rooms|
  {
    if |rooms| == 0 then (st, [])
    else
      var prev := Round(st, rooms[..|rooms| - 1], fetch, analyze, now);
      var room := rooms[|rooms| - 1];
      match fetch(room)
      case None => prev
      case Some(ms) =>
        var c := CheckRoom(prev.0, room, ms, analyze, now);
        LoggedCompose(st.processed, prev.0.processed, c.0.processed, prev.1, c.1);
        (c.0, prev.1 + c.1)
  }

  /** Logs chain: whatever is processed in two successive steps is processed once overall. */
  lemma LoggedCompose(a: set<string>, b: set<string>, c: set<string>, l1: seq<string>, l2: seq<string>)
    requires Logged(a, b, l1) && Logged(b, c, l2)
    ensures Logged(a, c, l1 + l2)
  {
    var l := l1 + l2;
    forall i, j | 0 <= i < j < |l| ensures l[i] != l[j] {
      if j >= |l1| {
        if i < |l1| {
          assert l[i] in b;
          assert l[j] == l2[j - |l1|];
        } else {
          assert l[i] == l2[i - |l1|];
          assert l[j] == l2[j - |l1|];
        }
      }
    }
    forall i | 0 <= i < |l| ensures l[i] !in a {
      if i >= |l1| {
        assert l[i] == l2[i - |l1|];
      }
    }
    assert (set k | k in l) == (set k | k in l1) + (set k | k in l2);
  }

  /** The keys of a run of rounds, each from the state the previous one left. */
  function Run(st: Manager, rounds: seq<(seq<string>, string -> Option<seq<MessageSync.Message>>)>,
               analyze: MessageSync.Message -> Option<Analyzer.Analysis>, now: int): (r: (Manager, seq<string>))
    ensures Logged(st.processed, r.0.processed, r.1)
    decreases |rounds|
  {
    if |rounds| == 0 then (st, [])
    else
      var prev := Run(st, rounds[..|rounds| - 1], analyze, now);
      var last := rounds[|rounds| - 1];
      var c := Round(prev.0, last.0, last.1, analyze, now);
      LoggedCompose(st.processed, prev.0.processed, c.0.processed, prev.1, c.1);
      (c.0, prev.1 + c.1)
  }

  // ---------------------------------------------------------------------------
  // Read-outs

  /** `get_processed_messages(limit)`: `details[-limit:][::-1]`, newest first. A positive limit
      gives at most that many; a limit of 0 gives the whole history, because `[-0:]` is the
      whole list; a negative limit drops that many of the oldest. */
  function ProcessedMessages(st: Manager, limit: int): (r: seq<Detail>)
    ensures limit > 0 ==> |r| == (if limit < |st.details| then limit else |st.details|)
    ensures limit == 0 ==> |r| == |st.details|
    ensures limit < 0 ==> |r| == (if -limit < |st.details| then |st.details| + limit else 0)
    ensures forall i :: 0 <= i < |r| ==> r[i] == st.details[|st.details| - 1 - i]
  {
    var t := PySliceFrom(st.details, -limit);
    ReverseSuffix(st.details, t);
    Reverse(t)
  }

  /** Reversing a suffix lists the last elements, newest first. */
  lemma ReverseSuffix<T>(s: seq<T>, t: seq<T>)
    requires |t| <= |s| && t == s[|s| - |t|..]
    ensures forall i :: 0 <= i < |t| ==> Reverse(t)[i] == s[|s| - 1 - i]
  {
    forall i | 0 <= i < |t| ensures Reverse(t)[i] == s[|s| - 1 - i] {
      assert Reverse(t)[i] == t[|t| - 1 - i];
    }
  }

  /** `get_status` without its clock reading. */
  datatype Status = Status(isRunning: bool, processedCount: nat, monitoredRooms: nat, pendingAlerts: nat)

  function GetStatus(st: Manager, rooms: seq<string>): Status {
    Status(st.running, |st.processed|, |rooms|, |st.alerts|)
  }

  /** After a check the processed count has grown by exactly the number of messages processed. */
  lemma StatusCountsProcessed(st: Manager, room: string, ms: seq<MessageSync.Message>,
                              analyze: MessageSync.Message -> Option<Analyzer.Analysis>, now: int,
                              rooms: seq<string>)
    ensures var r := CheckRoom(st, room, ms, analyze, now);
            GetStatus(r.0, rooms).processedCount == GetStatus(st, rooms).processedCount + |r.1|
  {
    var r := CheckRoom(st, room, ms, analyze, now);
    DistinctCard(r.1);
    var s := set k | k in r.1;
    assert st.processed * s == {} by {
      forall k | k in s ensures k !in st.processed {
        var i :| 0 <= i < |r.1| && r.1[i] == k;
      }
    }
  }
}

=== FILE: markup.dfy ===
/** The dashboard's rendering of the chat service's bracket-tag markup into HTML.
    Rendering is an ordered chain of rewrites over the text: each later rewrite sees the HTML
    inserted by the earlier ones, so every stage is modelled on plain strings. Two early exits
    (the "group chat created" notice and the generic system notice) skip every later stage. */
module Markup {
  import opened Base
  import opened Text

  const DeleteTag: string := "[delete]"
  const DeletedTag: string := "[deleted]"
  const Badge: string := "<span class=\"deleted-tag-mark\">" + "\U{1F5D1}\U{FE0F} 削除済み</span>"

  const InfoOpen: string := "[info]"
  const InfoClose: string := "[/info]"
  const CreatedMarker: string := "[dtext:chatroom_groupchat_created]"
  const NameOpen: string := "[dtext:chatroom_chatname_is]"
  const NameClose: string := "[dtext:chatroom_set]"
  const CreatedPrefix: string := "<div class=\"system-message\">" + "\U{1F4DD} グループチャット「"
  const CreatedSuffix: string := "」が作成されました</div>"
  const GenericNotice: string := "<div class=\"system-message\">" + "\U{1F4AC} システムメッセージ</div>"

  const MentionOpen: string := "[To:"
  const MentionSpan: string := "<span class=\"mention\">" + "@メンション</span>"

  const TaskOpen: string := "[task]"
  const TaskClose: string := "[/task]"
  const TaskPre: string := "<div class=\"task-mention\">" + "\U{1F4CB} "
  const TaskPost: string := "</div>"
  const QuoteOpen: string := "[qt]"
  const QuoteClose: string := "[/qt]"
  const QuotePre: string := "<blockquote>"
  const QuotePost: string := "</blockquote>"
  const CodeOpen: string := "[code]"
  const CodeClose: string := "[/code]"
  const CodePre: string := "<pre><code>"
  const CodePost: string := "</code></pre>"

  const LineBreak: string := "<br>"

  // ---------------------------------------------------------------------------
  // Stage 1: `[delete]` / `[deleted]` become the deleted badge

  /** Length of a deletion tag at the start of `s`, 0 when none starts there. */
  function DeleteTagLen(s: string): (n: nat)
    ensures n == 0 <==> !StartsWith(s, DeleteTag) && !StartsWith(s, DeletedTag)
    ensures n > 0 ==> n <= |s|
  {
    if StartsWith(s, DeleteTag) then |DeleteTag|
    else if StartsWith(s, DeletedTag) then |DeletedTag|
    else 0
  }

  function DeletePass(s: string): string
    decreases |s|
  {
    if |s| == 0 then ""
    else if DeleteTagLen(s) > 0 then Badge + DeletePass(s[DeleteTagLen(s)..])
    else [s[0]] + DeletePass(s[1..])
  }

  /** A prefix of the rewritten text without `<` was copied unchanged from the input. */
  lemma {:induction false} DeletePassPlainPrefix(s: string, w: string)
    requires StartsWith(DeletePass(s), w) && '<' !in w
    ensures StartsWith(s, w)
    decreases |s|
  {
    if |w| > 0 && |s| > 0 {
      DeletePassTaggedHead(s);
      assert w[0] in w;
      assert DeleteTagLen(s) == 0;
      var rest := DeletePass(s[1..]);
      assert DeletePass(s) == [s[0]] + rest;
      assert w[0] == s[0];
      assert StartsWith(rest, w[1..]);
      DeletePassPlainPrefix(s[1..], w[1..]);
      assert w == [w[0]] + w[1..];
    }
  }

  /** Where a deletion tag starts, the rewritten text starts with the badge's `<`. */
  lemma DeletePassTaggedHead(s: string)
    ensures DeleteTagLen(s) > 0 ==> |DeletePass(s)| > 0 && DeletePass(s)[0] == '<'
  {
    if DeleteTagLen(s) > 0 {
      assert DeletePass(s)[0] == Badge[0];
    }
  }

  /** Where the input has no deletion tag at its head, neither has the output. */
  lemma DeletePassHeadNoTag(s: string)
    requires DeleteTagLen(s) == 0
    ensures DeleteTagLen(DeletePass(s)) == 0
  {
    var out := DeletePass(s);
    if StartsWith(out, DeleteTag) {
      DeletePassPlainPrefix(s, DeleteTag);
    }
    if StartsWith(out, DeletedTag) {
      DeletePassPlainPrefix(s, DeletedTag);
    }
  }

  /** Strings free of the three characters that later stages look at. */
  predicate Inert(s: string) {
    '[' !in s && 'h' !in s && '\n' !in s
  }

  // One character per lemma: a combined query over a long literal is far more expensive.
  lemma BadgeLacksBracket() ensures '[' !in Badge {}
  lemma BadgeLacksH() ensures 'h' !in Badge {}
  lemma BadgeLacksNewline() ensures '\n' !in Badge {}

  /** The badge holds no tag character, no `h` (so no URL scheme) and no line end. */
  lemma BadgeInert()
    ensures Inert(Badge)
  {
    BadgeLacksBracket();
    BadgeLacksH();
    BadgeLacksNewline();
  }

  lemma {:induction false} DeletePassNoTagAt(s: string, k: int)
    requires 0 <= k <= |DeletePass(s)|
    ensures DeleteTagLen(DeletePass(s)[k..]) == 0
    decreases |s|
  {
    if |s| == 0 {
      assert DeletePass(s)[k..] == "";
    } else if DeleteTagLen(s) > 0 {
      DeletePassNoTagInReplaced(s, k);
    } else {
      DeletePassNoTagInCopied(s, k);
    }
  }

  lemma DeletePassNoTagInReplaced(s: string, k: int)
    requires |s| > 0 && DeleteTagLen(s) > 0 && 0 <= k <= |DeletePass(s)|
    ensures DeleteTagLen(DeletePass(s)[k..]) == 0
    decreases |s|, 0
  {
    DeletePassAtTag(s);
    if k >= |Badge| {
      DeletePassNoTagAt(s[DeleteTagLen(s)..], k - |Badge|);
      DropAppend(Badge, DeletePass(s[DeleteTagLen(s)..]), k);
    } else {
      DeletePassNoTagInMarker(s, k);
    }
  }

  lemma DeletePassNoTagInMarker(s: string, k: int)
    requires |s| > 0 && DeleteTagLen(s) > 0 && 0 <= k < |Badge|
    ensures DeleteTagLen(DeletePass(s)[k..]) == 0
  {
    DeletePassAtTag(s);
    BadgeLacksBracket();
    NoBracketAt(Badge, DeletePass(s[DeleteTagLen(s)..]), k);
    DeleteTagLenNeedsBracket(DeletePass(s)[k..]);
  }

  lemma DeleteTagLenNeedsBracket(x: string)
    requires |x| > 0 && x[0] != '['
    ensures DeleteTagLen(x) == 0
  {
  }

  lemma DeletePassAtTag(s: string)
    requires |s| > 0 && DeleteTagLen(s) > 0
    ensures DeletePass(s) == Badge + DeletePass(s[DeleteTagLen(s)..])
  {
  }

  lemma DeletePassNoTagInCopied(s: string, k: int)
    requires |s| > 0 && DeleteTagLen(s) == 0 && 0 <= k <= |DeletePass(s)|
    ensures DeleteTagLen(DeletePass(s)[k..]) == 0
    decreases |s|, 0
  {
    var out := DeletePass(s);
    var rest := DeletePass(s[1..]);
    assert out == [s[0]] + rest;
    if k >= 1 {
      DeletePassNoTagAt(s[1..], k - 1);
      assert out[k..] == rest[k - 1..];
    } else {
      DeletePassHeadNoTag(s);
    }
  }

  /** Every deletion tag is rewritten: none survives the first stage. */
  lemma DeletePassRemovesTags(s: string)
    ensures !Contains(DeletePass(s), DeleteTag) && !Contains(DeletePass(s), DeletedTag)
  {
    forall k | 0 <= k <= |DeletePass(s)|
      ensures !OccursAt(DeletePass(s), DeleteTag, k) && !OccursAt(DeletePass(s), DeletedTag, k)
    {
      DeletePassNoTagAt(s, k);
    }
  }

  /** One character that starts no tag is copied as it is. */
  lemma DeletePassCopies(c: char, rest: string)
    requires c != '['
    ensures DeletePass([c] + rest) == [c] + DeletePass(rest)
  {
    var s := [c] + rest;
    assert !StartsWith(s, DeleteTag) by { assert s[0] != DeleteTag[0]; }
    assert !StartsWith(s, DeletedTag) by { assert s[0] != DeletedTag[0]; }
    assert s[1..] == rest;
  }

  /** Text without `[` has no tag of any kind, so a stage that only rewrites tags leaves it alone. */
  lemma {:induction false} DeletePassPlain(s: string)
    requires '[' !in s
    ensures DeletePass(s) == s
    decreases |s|
  {
    if |s| > 0 {
      assert s == [s[0]] + s[1..];
      DeletePassCopies(s[0], s[1..]);
      DeletePassPlain(s[1..]);
    }
  }

  // ---------------------------------------------------------------------------
  // Stage 2: system notices (early exits)

  predicate IsWholeInfoBlock(d: string) {
    |d| >= |InfoOpen| + |InfoClose| && StartsWith(d, InfoOpen) && EndsWith(d, InfoClose)
  }

  /** First `[dtext:chatroom_set]` at or after `k` that is reached without crossing a line end
      (the capture group `(.*?)` without the `s` flag). */
  function CloseOnLine(s: string, k: nat): (r: Option<nat>)
    requires k <= |s|
    ensures r.Some? ==> k <= r.value <= |s| && OccursAt(s, NameClose, r.value)
    ensures r.Some? ==> forall i :: k <= i < r.value ==> !IsJsLineTerminator(s[i])
    decreases |s| - k
  {
    if OccursAt(s, NameClose, k) then Some(k)
    else if k < |s| && !IsJsLineTerminator(s[k]) then CloseOnLine(s, k + 1)
    else None
  }

  /** A capture from `a` to `b`: the opening tag ends at `a`, the closing tag starts at `b`,
      and no line ends in between. */
  predicate NameCaptureAt(s: string, a: nat, b: nat) {
    |NameOpen| <= a <= b <= |s| && OccursAt(s, NameOpen, a - |NameOpen|) && OccursAt(s, NameClose, b)
    && forall j :: a <= j < b ==> !IsJsLineTerminator(s[j])
  }

  /** Bounds of the first `[dtext:chatroom_chatname_is](.*?)[dtext:chatroom_set]` capture at or
      after index `i`. */
  function NameCaptureFrom(s: string, i: nat): (r: Option<(nat, nat)>)
    requires i <= |s|
    ensures r.Some? ==> NameCaptureAt(s, r.value.0, r.value.1)
    decreases |s| - i
  {
    var n := |NameOpen|;
    var c := if OccursAt(s, NameOpen, i) then CloseOnLine(s, i + n) else None;
    if c.Some? then
      assert NameCaptureAt(s, i + n, c.value);
      Some((i + n, c.value))
    else if i < |s| then NameCaptureFrom(s, i + 1)
    else None
  }

  /** The captured room name, `''` when the pattern does not match. */
  function ChatName(d: string): (name: string)
    ensures forall j :: 0 <= j < |name| ==> !IsJsLineTerminator(name[j])
    ensures name != "" ==> Contains(d, NameOpen) && Contains(d, NameClose)
  {
    match NameCaptureFrom(d, 0)
    case Some((a, b)) =>
      assert OccursAt(d, NameOpen, a - |NameOpen|) && OccursAt(d, NameClose, b);
      d[a..b]
    case None => ""
  }

  /** Without a line end on the way, the search reaches the nearest closing tag. */
  lemma {:induction false} CloseOnLineReaches(s: string, k: nat, j: nat)
    requires k <= j <= |s| && OccursAt(s, NameClose, j)
    requires forall q :: k <= q < j ==> !OccursAt(s, NameClose, q) && !IsJsLineTerminator(s[q])
    ensures CloseOnLine(s, k) == Some(j)
    decreases j - k
  {
    if k < j {
      CloseOnLineReaches(s, k + 1, j);
    }
  }

  /** Positions where no opening tag starts are passed over. */
  lemma {:induction false} NameCaptureSkips(s: string, k: nat, i: nat)
    requires k <= i <= |s|
    requires forall q :: k <= q < i ==> !OccursAt(s, NameOpen, q)
    ensures NameCaptureFrom(s, k) == NameCaptureFrom(s, i)
    decreases i - k
  {
    if k < i {
      assert !OccursAt(s, NameOpen, k);
      assert NameCaptureFrom(s, k) == NameCaptureFrom(s, k + 1);
      NameCaptureSkips(s, k + 1, i);
    }
  }

  /** The room name is the text between the first name tag and the nearest `[dtext:chatroom_set]`
      after it, provided no line ends in between. */
  lemma ChatNameOf(d: string, i: nat, j: nat)
    requires OccursAt(d, NameOpen, i) && forall q :: 0 <= q < i ==> !OccursAt(d, NameOpen, q)
    requires i + |NameOpen| <= j && OccursAt(d, NameClose, j)
    requires forall q :: i + |NameOpen| <= q < j ==> !OccursAt(d, NameClose, q) && !IsJsLineTerminator(d[q])
    ensures ChatName(d) == d[i + |NameOpen|..j]
  {
    NameCaptureSkips(d, 0, i);
    CloseOnLineReaches(d, i + |NameOpen|, j);
  }

  // ---------------------------------------------------------------------------
  // Stage 3: `[To:<digits>]` becomes the mention marker

  /** Number of ASCII digits (`\d` in JavaScript) at the start of `s`. */
  function DigitsPrefixLen(s: string): (n: nat)
    ensures n <= |s|
    ensures forall i :: 0 <= i < n ==> IsAsciiDigit(s[i])
    ensures n < |s| ==> !IsAsciiDigit(s[n])
    decreases |s|
  {
    if |s| > 0 && IsAsciiDigit(s[0]) then 1 + DigitsPrefixLen(s[1..]) else 0
  }

  /** Length of a `[To:<digits>]` tag at the start of `s`, 0 when none starts there. */
  function MentionTagLen(s: string): (n: nat)
    ensures n > 0 ==> 6 <= n <= |s| && StartsWith(s, MentionOpen) && s[n - 1] == ']'
    ensures n > 0 ==> forall i :: 4 <= i < n - 1 ==> IsAsciiDigit(s[i])
  {
    if StartsWith(s, MentionOpen) then
      var d := DigitsPrefixLen(s[4..]);
      if d > 0 && 4 + d < |s| && s[4 + d] == ']' then d + 5 else 0
    else 0
  }

  lemma {:induction false} DigitsPrefixOf(ds: string, rest: string)
    requires forall i :: 0 <= i < |ds| ==> IsAsciiDigit(ds[i])
    requires |rest| > 0 && !IsAsciiDigit(rest[0])
    ensures DigitsPrefixLen(ds + rest) == |ds|
    decreases |ds|
  {
    if |ds| > 0 {
      assert (ds + rest)[1..] == ds[1..] + rest;
      DigitsPrefixOf(ds[1..], rest);
    } else {
      assert ds + rest == rest;
    }
  }

  /** A complete tag `[To:` digits `]` is recognised with exactly its own length. */
  lemma MentionTagOf(ds: string, rest: string)
    requires |ds| > 0 && forall i :: 0 <= i < |ds| ==> IsAsciiDigit(ds[i])
    ensures MentionTagLen(MentionOpen + ds + "]" + rest) == |ds| + 5
  {
    var s := MentionOpen + ds + "]" + rest;
    assert StartsWith(s, MentionOpen);
    assert s[4..] == ds + ("]" + rest);
    DigitsPrefixOf(ds, "]" + rest);
    assert s[4 + |ds|] == ']';
  }

  function MentionPass(s: string): string
    decreases |s|
  {
    if |s| == 0 then ""
    else if MentionTagLen(s) > 0 then MentionSpan + MentionPass(s[MentionTagLen(s)..])
    else [s[0]] + MentionPass(s[1..])
  }

  lemma {:induction false} MentionPassPlainPrefix(s: string, w: string)
    requires StartsWith(MentionPass(s), w) && '<' !in w
    ensures StartsWith(s, w)
    decreases |s|
  {
    if |w| > 0 && |s| > 0 {
      MentionPassHead(s);
      assert w[0] == MentionPass(s)[0];
      assert MentionTagLen(s) == 0;
      var rest := MentionPass(s[1..]);
      assert MentionPass(s) == [s[0]] + rest;
      assert w[0] == s[0];
      assert StartsWith(rest, w[1..]);
      MentionPassPlainPrefix(s[1..], w[1..]);
      assert w == [w[0]] + w[1..];
    }
  }

  /** The output starts with the span exactly where a tag starts. */
  lemma MentionPassHead(s: string)
    requires |s| > 0
    ensures MentionTagLen(s) > 0 ==> MentionPass(s)[0] == '<'
  {
    assert MentionSpan[0] == '<';
  }

  /** A tag recognised at the start of `x` is recognised in any `y` that begins with it. */
  lemma MentionTagPrefix(x: string, y: string)
    requires MentionTagLen(x) > 0 && StartsWith(y, x[..MentionTagLen(x)])
    ensures MentionTagLen(y) == MentionTagLen(x)
  {
    var n := MentionTagLen(x);
    var ds := x[4..n - 1];
    assert |ds| > 0;
    assert forall i :: 0 <= i < |ds| ==> IsAsciiDigit(ds[i]) by {
      forall i | 0 <= i < |ds| ensures IsAsciiDigit(ds[i]) {
        assert ds[i] == x[4 + i];
      }
    }
    assert y == MentionOpen + ds + "]" + y[n..];
    MentionTagOf(ds, y[n..]);
  }

  /** The characters of a recognised mention tag: `[To:`, digits, `]`; none of them is `<`. */
  lemma MentionTagNoAngle(s: string)
    requires MentionTagLen(s) > 0
    ensures '<' !in s[..MentionTagLen(s)]
  {
    var m := MentionTagLen(s);
    forall i | 0 <= i < m ensures s[i] != '<' {
      if i < 4 { assert s[i] == MentionOpen[i]; }
    }
  }

  /** Where the input has no tag at its head, neither has the output. */
  lemma MentionPassHeadNoTag(s: string)
    requires MentionTagLen(s) == 0
    ensures MentionTagLen(MentionPass(s)) == 0
  {
    var out := MentionPass(s);
    if MentionTagLen(out) > 0 {
      MentionTagNoAngle(out);
      MentionPassPlainPrefix(s, out[..MentionTagLen(out)]);
      MentionTagPrefix(out, s);
      assert false;
    }
  }

  lemma {:induction false} MentionPassNoTagAt(s: string, k: int)
    requires 0 <= k <= |MentionPass(s)|
    ensures MentionTagLen(MentionPass(s)[k..]) == 0
    decreases |s|
  {
    if |s| == 0 {
      assert MentionPass(s)[k..] == "";
    } else if MentionTagLen(s) > 0 {
      MentionPassNoTagInReplaced(s, k);
    } else {
      MentionPassNoTagInCopied(s, k);
    }
  }

  lemma MentionPassNoTagInReplaced(s: string, k: int)
    requires |s| > 0 && MentionTagLen(s) > 0 && 0 <= k <= |MentionPass(s)|
    ensures MentionTagLen(MentionPass(s)[k..]) == 0
    decreases |s|, 0
  {
    MentionPassAtTag(s);
    if k >= |MentionSpan| {
      MentionPassNoTagAt(s[MentionTagLen(s)..], k - |MentionSpan|);
      DropAppend(MentionSpan, MentionPass(s[MentionTagLen(s)..]), k);
    } else {
      MentionPassNoTagInMarker(s, k);
    }
  }

  lemma MentionPassNoTagInMarker(s: string, k: int)
    requires |s| > 0 && MentionTagLen(s) > 0 && 0 <= k < |MentionSpan|
    ensures MentionTagLen(MentionPass(s)[k..]) == 0
  {
    MentionPassAtTag(s);
    MentionSpanLacksBracket();
    NoBracketAt(MentionSpan, MentionPass(s[MentionTagLen(s)..]), k);
    MentionTagLenNeedsBracket(MentionPass(s)[k..]);
  }

  lemma MentionTagLenNeedsBracket(x: string)
    requires |x| > 0 && x[0] != '['
    ensures MentionTagLen(x) == 0
  {
  }

  lemma MentionPassAtTag(s: string)
    requires |s| > 0 && MentionTagLen(s) > 0
    ensures MentionPass(s) == MentionSpan + MentionPass(s[MentionTagLen(s)..])
  {
  }

  lemma MentionPassNoTagInCopied(s: string, k: int)
    requires |s| > 0 && MentionTagLen(s) == 0 && 0 <= k <= |MentionPass(s)|
    ensures MentionTagLen(MentionPass(s)[k..]) == 0
    decreases |s|, 0
  {
    var out := MentionPass(s);
    var rest := MentionPass(s[1..]);
    assert out == [s[0]] + rest;
    if k >= 1 {
      MentionPassNoTagAt(s[1..], k - 1);
      assert out[k..] == rest[k - 1..];
    } else {
      MentionPassHeadNoTag(s);
    }
  }

  /** No complete mention tag survives the mention stage. */
  lemma MentionPassRemovesTags(s: string)
    ensures forall k :: 0 <= k <= |MentionPass(s)| ==> MentionTagLen(MentionPass(s)[k..]) == 0
  {
    forall k | 0 <= k <= |MentionPass(s)| ensures MentionTagLen(MentionPass(s)[k..]) == 0 {
      MentionPassNoTagAt(s, k);
    }
  }

  /** The tag, id included, is replaced by the marker and the rest is rewritten on its own. */
  lemma MentionPassOfTag(ds: string, rest: string)
    requires |ds| > 0 && forall i :: 0 <= i < |ds| ==> IsAsciiDigit(ds[i])
    ensures MentionPass(MentionOpen + ds + "]" + rest) == MentionSpan + MentionPass(rest)
  {
    var s := MentionOpen + ds + "]" + rest;
    MentionTagOf(ds, rest);
    assert s[|ds| + 5..] == rest;
  }

  /** One character that starts no tag is copied as it is. */
  lemma MentionPassCopies(c: char, rest: string)
    requires c != '['
    ensures MentionPass([c] + rest) == [c] + MentionPass(rest)
  {
    var s := [c] + rest;
    assert !StartsWith(s, MentionOpen) by { assert s[0] != MentionOpen[0]; }
    assert s[1..] == rest;
  }

  /** `[To:` followed by something other than a digit is left literal. */
  lemma MentionPassNonDigit(c: char, rest: string)
    requires !IsAsciiDigit(c)
    ensures MentionPass(MentionOpen + [c] + rest) == MentionOpen + MentionPass([c] + rest)
  {
    var t := [c] + rest;
    var w := MentionOpen[1..];
    assert MentionOpen == ['['] + w && '[' !in w;
    var s := MentionOpen + t;
    AppendAssoc(MentionOpen, [c], rest);
    AppendAssoc(['['], w, t);
    NonDigitNoMention(c, rest);
    MentionPassUntagged(s);
    assert s[1..] == w + t;
    MentionPassLiteral(w, t);
    AppendAssoc(['['], w, MentionPass(t));
  }

  lemma MentionPassUntagged(s: string)
    requires |s| > 0 && MentionTagLen(s) == 0
    ensures MentionPass(s) == [s[0]] + MentionPass(s[1..])
  {
  }

  /** Text without `[` in front of a suffix is copied as it is. */
  lemma {:induction false} MentionPassLiteral(w: string, t: string)
    requires '[' !in w
    ensures MentionPass(w + t) == w + MentionPass(t)
    decreases |w|
  {
    if |w| > 0 {
      assert w + t == [w[0]] + (w[1..] + t);
      MentionPassCopies(w[0], w[1..] + t);
      MentionPassLiteral(w[1..], t);
      assert w == [w[0]] + w[1..];
    } else {
      assert w + t == t;
    }
  }

  lemma NonDigitNoMention(c: char, rest: string)
    requires !IsAsciiDigit(c)
    ensures MentionTagLen(MentionOpen + ([c] + rest)) == 0
  {
    var s := MentionOpen + ([c] + rest);
    assert s[4..] == [c] + rest;
    assert DigitsPrefixLen(s[4..]) == 0;
  }

  lemma {:induction false} MentionPassPlain(s: string)
    requires '[' !in s
    ensures MentionPass(s) == s
    decreases |s|
  {
    if |s| > 0 {
      assert s == [s[0]] + s[1..];
      MentionPassCopies(s[0], s[1..]);
      MentionPassPlain(s[1..]);
    }
  }

  // ---------------------------------------------------------------------------
  // Stages 4-6: `[task]`, `[qt]`, `[code]` pairs are wrapped (lazy pairing, spans lines)

  /** First index at or after `k` where `p` occurs in `s`. */
  function FindFrom(s: string, p: string, k: nat): (r: Option<nat>)
    requires k <= |s|
    ensures r.Some? ==> k <= r.value && OccursAt(s, p, r.value)
    decreases |s| - k
  {
    if OccursAt(s, p, k) then Some(k)
    else if k < |s| then FindFrom(s, p, k + 1)
    else None
  }

  /** Any occurrence at or after `k` bounds the one found: the search finds the nearest. */
  lemma {:induction false} FindFromNearest(s: string, p: string, k: nat, q: int)
    requires k <= q <= |s| && OccursAt(s, p, q)
    ensures FindFrom(s, p, k).Some? && FindFrom(s, p, k).value <= q
    decreases q - k
  {
    if !OccursAt(s, p, k) {
      FindFromNearest(s, p, k + 1, q);
    }
  }

  /** The search succeeds exactly when the rest of the text from `k` contains `p`. */
  lemma FindFromContains(s: string, p: string, k: nat)
    requires k <= |s|
    ensures FindFrom(s, p, k).Some? <==> Contains(s[k..], p)
  {
    if FindFrom(s, p, k).Some? {
      var v := FindFrom(s, p, k).value;
      OccursDrop(s, p, k, v - k);
    }
    if Contains(s[k..], p) {
      var q :| 0 <= q <= |s[k..]| && OccursAt(s[k..], p, q);
      OccursDrop(s, p, k, q);
      FindFromNearest(s, p, k, q + k);
    }
  }

  /** The rewrite of `s` from index `k` on: the regular expression's scan resumes at `k`. */
  function PairFrom(s: string, k: nat, open: string, close: string, pre: string, post: string): string
    requires |open| > 0 && k <= |s|
    decreases |s| - k
  {
    if k == |s| then ""
    else if OccursAt(s, open, k) && FindFrom(s, close, k + |open|).Some? then
      var e := FindFrom(s, close, k + |open|).value;
      pre + s[k + |open|..e] + post + PairFrom(s, e + |close|, open, close, pre, post)
    else [s[k]] + PairFrom(s, k + 1, open, close, pre, post)
  }

  /** `s.replace(/open(.*?)close/gs, pre + '$1' + post)`. */
  function PairPass(s: string, open: string, close: string, pre: string, post: string): string
    requires |open| > 0
  {
    PairFrom(s, 0, open, close, pre, post)
  }

  /** Where no opening tag starts, one character is copied. */
  lemma PairFromSkip(s: string, k: nat, open: string, close: string, pre: string, post: string)
    requires |open| > 0 && k < |s|
    requires !OccursAt(s, open, k) || FindFrom(s, close, k + |open|).None?
    ensures PairFrom(s, k, open, close, pre, post) == [s[k]] + PairFrom(s, k + 1, open, close, pre, post)
  {
  }

  lemma ConsSlice(s: string, k: nat, i: nat, x: string, y: string, z: string)
    requires k < i <= |s| && x == [s[k]] + y && y == s[k + 1..i] + z
    ensures x == s[k..i] + z
  {
    assert s[k..i] == [s[k]] + s[k + 1..i];
  }

  /** Text up to the next opening tag is copied as it is. */
  lemma {:induction false} PairFromCopies(s: string, k: nat, i: nat, open: string, close: string, pre: string, post: string)
    requires |open| > 0 && k <= i <= |s|
    requires forall q :: k <= q < i ==> !OccursAt(s, open, q)
    ensures PairFrom(s, k, open, close, pre, post) == s[k..i] + PairFrom(s, i, open, close, pre, post)
    decreases i - k
  {
    if k < i {
      PairFromSkip(s, k, open, close, pre, post);
      PairFromCopies(s, k + 1, i, open, close, pre, post);
      ConsSlice(s, k, i, PairFrom(s, k, open, close, pre, post), PairFrom(s, k + 1, open, close, pre, post),
                PairFrom(s, i, open, close, pre, post));
    } else {
      assert s[k..i] == [];
    }
  }

  /** At an opening tag with a closing tag after it, the pair is wrapped. */
  lemma PairFromAtOpen(s: string, k: nat, open: string, close: string, pre: string, post: string, e: nat)
    requires |open| > 0 && k <= |s| && OccursAt(s, open, k) && FindFrom(s, close, k + |open|) == Some(e)
    ensures k + |open| <= e && e + |close| <= |s|
    ensures PairFrom(s, k, open, close, pre, post)
            == pre + s[k + |open|..e] + post + PairFrom(s, e + |close|, open, close, pre, post)
  {
    assert |open| <= |s[k..]|;
    assert OccursAt(s, close, e) && |close| <= |s[e..]|;
  }

  /** The first opening tag is paired with the nearest closing tag after it (see
      `FindFromNearest`); the text before it is kept, the inner text is copied unescaped between
      the wrapper halves, and the scan resumes after the closing tag. */
  lemma PairPassFirstPair(s: string, open: string, close: string, pre: string, post: string, i: nat, e: nat)
    requires |open| > 0
    requires OccursAt(s, open, i) && forall q :: 0 <= q < i ==> !OccursAt(s, open, q)
    requires FindFrom(s, close, i + |open|) == Some(e)
    ensures i + |open| <= e && e + |close| <= |s|
    ensures PairPass(s, open, close, pre, post)
            == s[..i] + (pre + s[i + |open|..e] + post + PairFrom(s, e + |close|, open, close, pre, post))
  {
    PairFromCopies(s, 0, i, open, close, pre, post);
    PairFromAtOpen(s, i, open, close, pre, post, e);
    assert s[0..i] == s[..i];
  }

  /** From a position where no opening tag has a closing tag after it, the rest is literal. */
  lemma {:induction false} PairFromUnclosed(s: string, k: nat, open: string, close: string, pre: string, post: string)
    requires |open| > 0 && k <= |s|
    requires forall q :: OccursAt(s, open, q) ==> !Contains(s[q + |open|..], close)
    ensures PairFrom(s, k, open, close, pre, post) == s[k..]
    decreases |s| - k
  {
    if k < |s| {
      if OccursAt(s, open, k) {
        FindFromContains(s, close, k + |open|);
      }
      PairFromSkip(s, k, open, close, pre, post);
      PairFromUnclosed(s, k + 1, open, close, pre, post);
      ConsSlice(s, k, |s|, PairFrom(s, k, open, close, pre, post), PairFrom(s, k + 1, open, close, pre, post), "");
    }
  }

  /** When no closing tag follows any opening tag, the text is left literal. */
  lemma PairPassUnclosed(s: string, open: string, close: string, pre: string, post: string)
    requires |open| > 0
    requires forall k :: OccursAt(s, open, k) ==> !Contains(s[k + |open|..], close)
    ensures PairPass(s, open, close, pre, post) == s
  {
    PairFromUnclosed(s, 0, open, close, pre, post);
  }

  /** Text without `[` holds no opening tag and is left alone. */
  lemma PairPassPlain(s: string, open: string, close: string, pre: string, post: string)
    requires |open| > 0 && open[0] == '[' && '[' !in s
    ensures PairPass(s, open, close, pre, post) == s
  {
    forall q | 0 <= q < |s| ensures !OccursAt(s, open, q) {
      assert s[q] != '[';
    }
    PairFromCopies(s, 0, |s|, open, close, pre, post);
  }

  function TaskPass(s: string): string {
    PairPass(s, TaskOpen, TaskClose, TaskPre, TaskPost)
  }

  function QuotePass(s: string): string {
    PairPass(s, QuoteOpen, QuoteClose, QuotePre, QuotePost)
  }

  function CodePass(s: string): string {
    PairPass(s, CodeOpen, CodeClose, CodePre, CodePost)
  }

  // ---------------------------------------------------------------------------
  // Stage 7: bare URLs become anchors

  /** Length of `https://` or `http://` at the start of `s`, 0 when neither starts there. */
  function SchemeLen(s: string): (n: nat)
    ensures n == 0 || n == 7 || n == 8
    ensures n > 0 ==> n <= |s|
  {
    if StartsWith(s, "https://") then 8 else if StartsWith(s, "http://") then 7 else 0
  }

  /** Number of characters at the start of `s` outside JavaScript's `\s`. */
  function NonSpaceRun(s: string): (n: nat)
    ensures n <= |s|
    ensures forall i :: 0 <= i < n ==> !IsJsSpace(s[i])
    ensures n < |s| ==> IsJsSpace(s[n])
    decreases |s|
  {
    if |s| > 0 && !IsJsSpace(s[0]) then 1 + NonSpaceRun(s[1..]) else 0
  }

  /** Length of a URL match `https?://\S+` at the start of `s`, 0 when none starts there. */
  function UrlLen(s: string): (n: nat)
    ensures n > 0 ==> n <= |s|
  {
    var m := SchemeLen(s);
    if m > 0 && NonSpaceRun(s[m..]) > 0 then m + NonSpaceRun(s[m..]) else 0
  }

  function Anchor(u: string): string {
    "<a href=\"" + u + "\" target=\"_blank\">" + u + "</a>"
  }

  function LinkPass(s: string): string
    decreases |s|
  {
    if |s| == 0 then ""
    else if UrlLen(s) > 0 then Anchor(s[..UrlLen(s)]) + LinkPass(s[UrlLen(s)..])
    else [s[0]] + LinkPass(s[1..])
  }

  lemma SchemeLenOf(scheme: string, rest: string)
    requires scheme == "http://" || scheme == "https://"
    ensures SchemeLen(scheme + rest) == |scheme|
  {
    var s := scheme + rest;
    assert s[..|scheme|] == scheme;
    if scheme == "http://" {
      assert !StartsWith(s, "https://") by { assert s[4] == ':'; }
    }
  }

  /** A URL runs up to the next whitespace; it is wrapped whole and the rest rewritten on its own. */
  lemma LinkPassOfUrl(scheme: string, rest: string, tail: string)
    requires scheme == "http://" || scheme == "https://"
    requires |rest| > 0 && forall i :: 0 <= i < |rest| ==> !IsJsSpace(rest[i])
    requires tail == "" || IsJsSpace(tail[0])
    ensures LinkPass(scheme + rest + tail) == Anchor(scheme + rest) + LinkPass(tail)
  {
    var s := scheme + rest + tail;
    SchemeLenOf(scheme, rest + tail);
    assert s == scheme + (rest + tail);
    assert s[|scheme|..] == rest + tail;
    NonSpaceRunOf(rest, tail);
    var n := UrlLen(s);
    assert n == |scheme| + |rest|;
    assert s[..n] == scheme + rest;
    assert s[n..] == tail;
    LinkPassAtUrl(s);
  }

  lemma LinkPassAtUrl(s: string)
    requires UrlLen(s) > 0
    ensures LinkPass(s) == Anchor(s[..UrlLen(s)]) + LinkPass(s[UrlLen(s)..])
  {
  }

  lemma {:induction false} NonSpaceRunOf(rest: string, tail: string)
    requires forall i :: 0 <= i < |rest| ==> !IsJsSpace(rest[i])
    requires tail == "" || IsJsSpace(tail[0])
    ensures NonSpaceRun(rest + tail) == |rest|
    decreases |rest|
  {
    if |rest| > 0 {
      assert (rest + tail)[1..] == rest[1..] + tail;
      NonSpaceRunOf(rest[1..], tail);
    } else {
      assert rest + tail == tail;
    }
  }

  /** Text without `http://` and `https://` gains no anchor. */
  lemma {:induction false} LinkPassPlain(s: string)
    requires !Contains(s, "http://") && !Contains(s, "https://")
    ensures LinkPass(s) == s
    decreases |s|
  {
    if |s| > 0 {
      ContainsUnfold(s, "http://");
      ContainsUnfold(s, "https://");
      LinkPassPlain(s[1..]);
    }
  }

  // ---------------------------------------------------------------------------
  // Stage 8: line breaks

  function BreakPass(s: string): string {
    ReplaceAll(s, "\n", LineBreak)
  }

  // ---------------------------------------------------------------------------
  // The whole pipeline

  /** Which of the four outcomes of `formatChatWorkMessage` a body takes. */
  datatype Outcome = EmptyBody | ChatCreated | SystemNotice | Rendered

  /** The body after stage 1 (the rewrite only runs when a deletion tag is present). */
  function AfterDelete(body: string): string {
    if Contains(body, DeleteTag) || Contains(body, DeletedTag) then DeletePass(body) else body
  }

  function OutcomeOf(body: string): Outcome {
    var d := AfterDelete(body);
    if body == "" then EmptyBody
    else if Contains(d, InfoOpen) && Contains(d, CreatedMarker) then ChatCreated
    else if Contains(d, InfoOpen) && IsWholeInfoBlock(d) then SystemNotice
    else Rendered
  }

  /** Stages 3 to 8 in their fixed order. */
  function Render(d: string): string {
    BreakPass(LinkPass(CodePass(QuotePass(TaskPass(MentionPass(d))))))
  }

  /** `formatChatWorkMessage(body)`; `escape` stands for the DOM-based `escapeHtml`. */
  function Format(body: string, escape: string -> string): (r: string)
    ensures r == "" <==> body == ""
    ensures OutcomeOf(body) == ChatCreated ==> StartsWith(r, CreatedPrefix) && EndsWith(r, CreatedSuffix)
    ensures OutcomeOf(body) == ChatCreated ==> r == CreatedPrefix + escape(ChatName(AfterDelete(body))) + CreatedSuffix
    ensures OutcomeOf(body) != ChatCreated ==> '\n' !in r
  {
    var d := AfterDelete(body);
    match OutcomeOf(body)
    case EmptyBody => ""
    case ChatCreated =>
      var r := CreatedPrefix + escape(ChatName(d)) + CreatedSuffix;
      assert r[..|CreatedPrefix|] == CreatedPrefix;
      assert r[|r| - |CreatedSuffix|..] == CreatedSuffix;
      r
    case SystemNotice => GenericNoticeLacksNewline(); GenericNotice
    case Rendered =>
      var r := Render(d);
      ReplaceCharRemoves(LinkPass(CodePass(QuotePass(TaskPass(MentionPass(d))))), '\n', LineBreak);
      RenderNonEmpty(d);
      r
  }

  lemma RenderNonEmpty(d: string)
    requires d != ""
    ensures Render(d) != ""
  {
    var m := MentionPass(d);
    assert m != "";
    var t := TaskPass(m);
    assert t != "";
    var q := QuotePass(t);
    assert q != "";
    var c := CodePass(q);
    assert c != "";
    var l := LinkPass(c);
    assert l != "";
  }

  // ---------------------------------------------------------------------------
  // Whole-message properties

  /** Text with no tag character, no `h` and no line end goes through stages 3 to 8 unchanged. */
  lemma RenderInert(d: string)
    requires '[' !in d && 'h' !in d && '\n' !in d
    ensures Render(d) == d
  {
    MentionPassPlain(d);
    PairPassPlain(d, TaskOpen, TaskClose, TaskPre, TaskPost);
    PairPassPlain(d, QuoteOpen, QuoteClose, QuotePre, QuotePost);
    PairPassPlain(d, CodeOpen, CodeClose, CodePre, CodePost);
    AbsentHead(d, "http://");
    AbsentHead(d, "https://");
    LinkPassPlain(d);
    AbsentHead(d, "\n");
    ReplaceAllAbsent(d, "\n", LineBreak);
  }

  /** Plain text (no `[`, no URL) is shown as it is, without escaping, each line break becoming
      `<br>`. */
  lemma FormatPlain(body: string, escape: string -> string)
    requires body != "" && '[' !in body && !Contains(body, "http://") && !Contains(body, "https://")
    ensures Format(body, escape) == ReplaceAll(body, "\n", LineBreak)
  {
    AbsentHead(body, DeleteTag);
    AbsentHead(body, DeletedTag);
    AbsentHead(body, InfoOpen);
    assert OutcomeOf(body) == Rendered;
    MentionPassPlain(body);
    PairPassPlain(body, TaskOpen, TaskClose, TaskPre, TaskPost);
    PairPassPlain(body, QuoteOpen, QuoteClose, QuotePre, QuotePost);
    PairPassPlain(body, CodeOpen, CodeClose, CodePre, CodePost);
    LinkPassPlain(body);
  }

  /** A creation notice shows the escaped chat name and nothing else of the message: two
      creation messages with the same name read the same, whatever else they hold. */
  lemma CreatedShowsOnlyName(a: string, b: string, escape: string -> string)
    requires OutcomeOf(a) == ChatCreated && OutcomeOf(b) == ChatCreated
    requires ChatName(AfterDelete(a)) == ChatName(AfterDelete(b))
    ensures Format(a, escape) == Format(b, escape)
  {
  }

  /** The rendered outcome is stages 3 to 8 applied to the text after stage 1. */
  lemma FormatRendered(body: string, escape: string -> string)
    requires OutcomeOf(body) == Rendered
    ensures Format(body, escape) == Render(AfterDelete(body))
  {
  }

  lemma AfterDeleteOfTag(body: string)
    requires body == DeleteTag || body == DeletedTag
    ensures AfterDelete(body) == Badge
  {
    assert OccursAt(body, body, 0);
    if body == DeletedTag {
      assert !StartsWith(body, DeleteTag) by { assert body[7] != DeleteTag[7]; }
    }
    assert DeleteTagLen(body) == |body|;
    assert body[|body|..] == "";
    assert DeletePass(body) == Badge + DeletePass("");
  }

  /** A message that is only a deletion tag shows only the deleted badge. */
  lemma FormatDeletedOnly(body: string, escape: string -> string)
    requires body == DeleteTag || body == DeletedTag
    ensures Format(body, escape) == Badge
  {
    AfterDeleteOfTag(body);
    BadgeInert();
    AbsentHead(Badge, InfoOpen);
    assert OutcomeOf(body) == Rendered;
    FormatRendered(body, escape);
    RenderInert(Badge);
  }

  /** A whole `[info]...[/info]` block without the creation marker is shown as the generic
      system notice, whatever deletion tags it holds: their badge cannot disturb either end of
      the block, nor form the marker. */
  lemma FormatSystemNotice(x: string, escape: string -> string)
    requires !Contains(InfoOpen + x + InfoClose, CreatedMarker)
    ensures Format(InfoOpen + x + InfoClose, escape) == GenericNotice
  {
    var body := InfoOpen + x + InfoClose;
    AppendAssoc(InfoOpen, x, InfoClose);
    DeletePassInfoOpen(x + InfoClose);
    DeletePassBeforeClose(x);
    DeletePassMarkerFree(body);
    var d := AfterDelete(body);
    var inner := if Contains(body, DeleteTag) || Contains(body, DeletedTag) then DeletePass(x) else x;
    assert d == InfoOpen + (inner + InfoClose);
    AppendAssoc(InfoOpen, inner, InfoClose);
    assert d[..|InfoOpen|] == InfoOpen;
    assert d[|d| - |InfoClose|..] == InfoClose;
    assert OccursAt(d, InfoOpen, 0);
    assert OutcomeOf(body) == SystemNotice;
  }

  /** A prefix free of `[` is copied through the deletion pass as it is. */
  lemma {:induction false} DeletePassPlainHead(t: string, y: string)
    requires '[' !in t
    ensures DeletePass(t + y) == t + DeletePass(y)
    decreases |t|
  {
    if |t| > 0 {
      assert t + y == [t[0]] + (t[1..] + y);
      DeletePassCopies(t[0], t[1..] + y);
      DeletePassPlainHead(t[1..], y);
      assert DeletePass(t + y) == [t[0]] + (t[1..] + DeletePass(y));
      AppendAssoc([t[0]], t[1..], DeletePass(y));
      assert t == [t[0]] + t[1..];
    } else {
      assert t + y == y;
    }
  }

  /** No character of `[info]` starts a deletion tag, so the pass keeps it at the front. */
  lemma DeletePassInfoOpen(y: string)
    ensures DeletePass(InfoOpen + y) == InfoOpen + DeletePass(y)
  {
    var s := InfoOpen + y;
    var t := InfoOpen[1..];
    NotStartsAt(s, DeleteTag, 1);
    NotStartsAt(s, DeletedTag, 1);
    assert s[1..] == t + y;
    assert '[' !in t;
    DeletePassPlainHead(t, y);
    assert DeletePass(s) == [s[0]] + DeletePass(t + y);
    AppendAssoc([s[0]], t, DeletePass(y));
    assert InfoOpen == [s[0]] + t;
  }

  /** `p` does not start `s` when they differ at a position both have. */
  lemma NotStartsAt(s: string, p: string, j: nat)
    requires j < |p| && j < |s| && s[j] != p[j]
    ensures !StartsWith(s, p)
  {
    if |p| <= |s| {
      assert s[..|p|][j] == s[j];
    }
  }

  /** `[/info]` right after `y` cannot complete a deletion tag begun in `y`: every tag character
      after the first differs from its `[`. */
  lemma DeleteTagLenBeforeClose(y: string)
    requires |y| > 0
    ensures DeleteTagLen(y + InfoClose) == DeleteTagLen(y)
  {
    var s := y + InfoClose;
    if |y| >= |DeletedTag| {
      assert s[..|DeleteTag|] == y[..|DeleteTag|];
      assert s[..|DeletedTag|] == y[..|DeletedTag|];
    } else {
      assert s[|y|] == '[';
      NotStartsAt(s, DeletedTag, |y|);
      if |y| < |DeleteTag| {
        NotStartsAt(s, DeleteTag, |y|);
      } else {
        assert s[..|DeleteTag|] == y;
      }
    }
  }

  /** The deletion pass keeps `[/info]` at the end. */
  lemma {:induction false} DeletePassBeforeClose(y: string)
    ensures DeletePass(y + InfoClose) == DeletePass(y) + InfoClose
    decreases |y|
  {
    var s := y + InfoClose;
    if |y| == 0 {
      assert s == InfoClose;
      NotStartsAt(InfoClose, DeleteTag, 1);
      NotStartsAt(InfoClose, DeletedTag, 1);
      assert '[' !in InfoClose[1..];
      DeletePassPlain(InfoClose[1..]);
      assert InfoClose == [InfoClose[0]] + InfoClose[1..];
      assert DeletePass(y) == "";
    } else {
      DeleteTagLenBeforeClose(y);
      var n := if DeleteTagLen(y) > 0 then DeleteTagLen(y) else 1;
      assert s[n..] == y[n..] + InfoClose;
      DeletePassBeforeClose(y[n..]);
      var head := if DeleteTagLen(y) > 0 then Badge else [y[0]];
      assert DeletePass(s) == head + DeletePass(s[n..]);
      assert DeletePass(y) == head + DeletePass(y[n..]);
      AppendAssoc(head, DeletePass(y[n..]), InfoClose);
    }
  }

  /** An occurrence in the rewritten text of a string that starts with `[` and has no `<` was
      in the input already: it cannot begin inside a badge, nor run into one. */
  lemma {:induction false} DeletePassOccurs(s: string, w: string, k: nat)
    requires |w| > 0 && w[0] == '[' && '<' !in w
    ensures OccursAt(DeletePass(s), w, k) ==> Contains(s, w)
    decreases |s|
  {
    var out := DeletePass(s);
    if |s| == 0 {
      assert out == "";
    } else if DeleteTagLen(s) > 0 {
      var n := DeleteTagLen(s);
      var rest := DeletePass(s[n..]);
      assert out == Badge + rest;
      if k < |Badge| {
        BadgeLacksBracket();
        NoBracketAt(Badge, rest, k);
      } else if k <= |out| {
        DropAppend(Badge, rest, k);
        DeletePassOccurs(s[n..], w, k - |Badge|);
        if Contains(s[n..], w) {
          var j :| 0 <= j <= |s[n..]| && OccursAt(s[n..], w, j);
          assert s[j + n..] == s[n..][j..];
          assert OccursAt(s, w, j + n);
        }
      }
    } else {
      var rest := DeletePass(s[1..]);
      assert out == [s[0]] + rest;
      if k == 0 {
        if StartsWith(out, w) {
          DeletePassPlainPrefix(s, w);
          assert OccursAt(s, w, 0);
        }
      } else if k <= |out| {
        assert out[k..] == rest[k - 1..];
        DeletePassOccurs(s[1..], w, k - 1);
        if Contains(s[1..], w) {
          var j :| 0 <= j <= |s[1..]| && OccursAt(s[1..], w, j);
          assert s[j + 1..] == s[1..][j..];
          assert OccursAt(s, w, j + 1);
        }
      }
    }
  }

  lemma MarkerOpensWithBracket() ensures CreatedMarker[0] == '[' {}
  lemma MarkerLacksAngle() ensures '<' !in CreatedMarker {}

  /** The deletion pass never forms the creation marker. */
  lemma DeletePassMarkerFree(s: string)
    requires !Contains(s, CreatedMarker)
    ensures !Contains(DeletePass(s), CreatedMarker)
  {
    MarkerOpensWithBracket();
    MarkerLacksAngle();
    forall k | 0 <= k <= |DeletePass(s)| ensures !OccursAt(DeletePass(s), CreatedMarker, k) {
      DeletePassOccurs(s, CreatedMarker, k);
    }
  }

  /** A `[To:` tag at the front has no deletion or `[info]` tag in it. */
  lemma MentionBodyOutcome(ds: string, text: string)
    requires '[' !in text
    requires forall i :: 0 <= i < |ds| ==> IsAsciiDigit(ds[i])
    ensures OutcomeOf(MentionOpen + ds + "] " + text) == Rendered
    ensures AfterDelete(MentionOpen + ds + "] " + text) == MentionOpen + ds + "] " + text
  {
    var body := MentionOpen + ds + "] " + text;
    var tail := "To:" + ds + "] " + text;
    assert body == ['['] + tail;
    assert '[' !in tail;
    assert !StartsWith(body, DeleteTag) && !StartsWith(body, DeletedTag) && !StartsWith(body, InfoOpen) by {
      assert body[1] == 'T';
    }
    AbsentHead(tail, DeleteTag);
    AbsentHead(tail, DeletedTag);
    AbsentHead(tail, InfoOpen);
    ContainsCons('[', tail, DeleteTag);
    ContainsCons('[', tail, DeletedTag);
    ContainsCons('[', tail, InfoOpen);
  }

  lemma MentionOfReply(ds: string, text: string)
    requires |ds| > 0 && forall i :: 0 <= i < |ds| ==> IsAsciiDigit(ds[i])
    requires '[' !in text
    ensures MentionPass(MentionOpen + ds + "] " + text) == MentionSpan + " " + text
  {
    ReplyShape(MentionOpen + ds, text);
    MentionPassOfTag(ds, " " + text);
    MentionPassPlain(" " + text);
    AppendAssoc(MentionSpan, " ", text);
  }

  lemma ReplyShape(p: string, t: string)
    ensures p + "] " + t == p + "]" + (" " + t)
  {
  }

  lemma GenericNoticeLacksNewline() ensures '\n' !in GenericNotice {}
  lemma MentionSpanLacksBracket() ensures '[' !in MentionSpan {}
  lemma MentionSpanLacksH() ensures 'h' !in MentionSpan {}
  lemma MentionSpanLacksNewline() ensures '\n' !in MentionSpan {}

  /** The mention marker followed by the space of a reply holds no character later stages use. */
  lemma MentionSpanInert()
    ensures Inert(MentionSpan + " ")
  {
    MentionSpanLacksBracket();
    MentionSpanLacksH();
    MentionSpanLacksNewline();
  }

  /** Stages 3 to 8 on a mention followed by plain text. */
  lemma RenderMention(ds: string, text: string)
    requires |ds| > 0 && forall i :: 0 <= i < |ds| ==> IsAsciiDigit(ds[i])
    requires '[' !in text && !Contains(text, "http://") && !Contains(text, "https://")
    ensures Render(MentionOpen + ds + "] " + text) == MentionSpan + " " + ReplaceAll(text, "\n", LineBreak)
  {
    var head := MentionSpan + " ";
    var m := head + text;
    MentionOfReply(ds, text);
    MentionSpanInert();
    assert '[' !in m;
    PairPassPlain(m, TaskOpen, TaskClose, TaskPre, TaskPost);
    PairPassPlain(m, QuoteOpen, QuoteClose, QuotePre, QuotePost);
    PairPassPlain(m, CodeOpen, CodeClose, CodePre, CodePost);
    ContainsAppendHead(head, text, "http://");
    ContainsAppendHead(head, text, "https://");
    LinkPassPlain(m);
    ReplaceCharAppend(head, text, '\n', LineBreak);
  }

  /** A reply addressed with `[To:<id>]` shows the mention marker in place of the tag. */
  lemma FormatMentionReply(ds: string, text: string, escape: string -> string)
    requires |ds| > 0 && forall i :: 0 <= i < |ds| ==> IsAsciiDigit(ds[i])
    requires '[' !in text && !Contains(text, "http://") && !Contains(text, "https://")
    ensures Format(MentionOpen + ds + "] " + text, escape) == MentionSpan + " " + ReplaceAll(text, "\n", LineBreak)
  {
    MentionBodyOutcome(ds, text);
    FormatRendered(MentionOpen + ds + "] " + text, escape);
    RenderMention(ds, text);
  }
}

=== FILE: message_sync.dfy ===
/** The server's per-room message bookkeeping: each fetch splits off the messages carrying a
    deletion tag, logs them, detects messages that vanished since the previous fetch, caches
    the rest, and a lexicographic watermark tells which messages are new. */
module MessageSync {
  import opened Base
  import opened Text

  datatype Message = Message(messageId: string, roomId: string, sender: string, body: string,
                             sendTime: int, updateTime: int)

  /** `Vanished` entries come from comparing fetches; `Tagged` ones carry `deletion_type: "tag"`. */
  datatype DeletionKind = Vanished | Tagged

  datatype LogEntry = LogEntry(messageId: string, roomId: string, sender: string, body: string,
                               sendTime: int, deletedAt: string, kind: DeletionKind)

  /** Only the newest 100 entries of a room's log are kept. */
  const LogCap: nat := 100

  // ---------------------------------------------------------------------------
  // Splitting a fetched list

  predicate IsTagged(m: Message) {
    Contains(m.body, "[delete]") || Contains(m.body, "[deleted]")
  }

  /** The messages `get_messages` returns and caches, in list order. */
  function Kept(ms: seq<Message>): (r: seq<Message>)
    ensures |r| <= |ms|
    decreases |ms|
  {
    if |ms| == 0 then []
    else Kept(ms[..|ms| - 1]) + (if IsTagged(ms[|ms| - 1]) then [] else [ms[|ms| - 1]])
  }

  /** The messages routed to the deletion log, in list order. */
  function TaggedOnly(ms: seq<Message>): (r: seq<Message>)
    ensures |r| <= |ms|
    decreases |ms|
  {
    if |ms| == 0 then []
    else TaggedOnly(ms[..|ms| - 1]) + (if IsTagged(ms[|ms| - 1]) then [ms[|ms| - 1]] else [])
  }

  /** Every fetched message goes to exactly one side, and each side has only its own kind. */
  lemma {:induction false} PartitionExact(ms: seq<Message>, m: Message)
    ensures |Kept(ms)| + |TaggedOnly(ms)| == |ms|
    ensures m in Kept(ms) <==> m in ms && !IsTagged(m)
    ensures m in TaggedOnly(ms) <==> m in ms && IsTagged(m)
    decreases |ms|
  {
    if |ms| > 0 {
      var init := ms[..|ms| - 1];
      assert ms == init + [ms[|ms| - 1]];
      PartitionExact(init, m);
    }
  }

  function MessageIds(ms: seq<Message>): (r: seq<string>)
    ensures |r| == |ms| && forall i :: 0 <= i < |ms| ==> r[i] == ms[i].messageId
  {
    seq(|ms|, i requires 0 <= i < |ms| => ms[i].messageId)
  }

  /** The ids of a deletion log; the log holds `LogEntry` records, not messages, so this is
      the counterpart of `MessageIds` over them. */
  function LogIds(log: seq<LogEntry>): (r: seq<string>)
    ensures |r| == |log| && forall i :: 0 <= i < |log| ==> r[i] == log[i].messageId
  {
    seq(|log|, i requires 0 <= i < |log| => log[i].messageId)
  }

  // ---------------------------------------------------------------------------
  // The log cap

  /** `log[-100:]`. */
  function Cap(log: seq<LogEntry>): (r: seq<LogEntry>)
    ensures |r| == (if |log| <= LogCap then |log| else LogCap)
    ensures r == log[|log| - |r|..]
  {
    PySliceFrom(log, -(LogCap as int))
  }

  /** A suffix of a log without repeated ids has none either. */
  lemma CapDistinct(log: seq<LogEntry>)
    requires Distinct(LogIds(log))
    ensures Distinct(LogIds(Cap(log)))
  {
    var k := |log| - |Cap(log)|;
    assert LogIds(Cap(log)) == LogIds(log)[k..];
    DistinctSuffix(LogIds(log), k);
  }

  // ---------------------------------------------------------------------------
  // Tagged messages

  /** The body logged for a tagged message: `"[delete]"` removed, then `"[deleted]"` (each in
      one left-to-right pass), then surrounding whitespace stripped. */
  function CleanBody(body: string): string {
    Strip(ReplaceAll(ReplaceAll(body, "[delete]", ""), "[deleted]", ""))
  }

  /** Either tag followed by plain text leaves exactly the stripped text. */
  lemma CleanBodyRemovesTag(text: string)
    requires '[' !in text
    ensures CleanBody("[delete]" + text) == Strip(text)
    ensures CleanBody("[deleted]" + text) == Strip(text)
  {
    AbsentHead(text, "[delete]");
    AbsentHead(text, "[deleted]");
    RemovesDeleteTag(text);
    RemovesDeletedTag(text);
  }

  lemma RemovesDeleteTag(text: string)
    requires !Contains(text, "[delete]") && !Contains(text, "[deleted]")
    ensures ReplaceAll(ReplaceAll("[delete]" + text, "[delete]", ""), "[deleted]", "") == text
  {
    ReplaceHit("[delete]", text, "");
    assert "" + ReplaceAll(text, "[delete]", "") == ReplaceAll(text, "[delete]", "");
    ReplaceAllAbsent(text, "[delete]", "");
    ReplaceAllAbsent(text, "[deleted]", "");
  }

  lemma RemovesDeletedTag(text: string)
    requires '[' !in text && !Contains(text, "[deleted]")
    ensures ReplaceAll(ReplaceAll("[deleted]" + text, "[delete]", ""), "[deleted]", "") == text
  {
    DeletedTagSurvivesFirstPass(text);
    ReplaceAllAbsent("[deleted]" + text, "[delete]", "");
    ReplaceHit("[deleted]", text, "");
    assert "" + ReplaceAll(text, "[deleted]", "") == ReplaceAll(text, "[deleted]", "");
    ReplaceAllAbsent(text, "[deleted]", "");
  }

  /** The longer tag is not touched by the removal of the shorter one. */
  lemma DeletedTagSurvivesFirstPass(text: string)
    requires '[' !in text
    ensures !Contains("[deleted]" + text, "[delete]")
  {
    var t := "[deleted]" + text;
    MismatchAt(t, "[delete]", 7);
    assert t == ['['] + ("deleted]" + text);
    AbsentHead("deleted]" + text, "[delete]");
    ContainsCons('[', "deleted]" + text, "[delete]");
  }

  /** A body without either tag and without surrounding whitespace is logged as it is. */
  lemma CleanBodyKeeps(body: string)
    requires !Contains(body, "[delete]") && !Contains(body, "[deleted]")
    requires body == "" || (!IsPySpace(body[0]) && !IsPySpace(body[|body| - 1]))
    ensures CleanBody(body) == body
  {
    ReplaceAllAbsent(body, "[delete]", "");
    ReplaceAllAbsent(body, "[deleted]", "");
    StripKeeps(body);
  }

  function TagEntry(room: string, m: Message, now: string): LogEntry {
    LogEntry(m.messageId, room, m.sender, CleanBody(m.body), m.sendTime, now, Tagged)
  }

  /** Appends each entry whose id the log (including what was appended before it) lacks. */
  function AppendNew(log: seq<LogEntry>, es: seq<LogEntry>): (r: seq<LogEntry>)
    ensures |log| <= |r| && r[..|log|] == log
    decreases |es|
  {
    if |es| == 0 then log
    else
      var acc := AppendNew(log, es[..|es| - 1]);
      var e := es[|es| - 1];
      if e.messageId in LogIds(acc) then acc else acc + [e]
  }

  /** The de-duplicated append keeps a log free of repeated ids and holds every appended id. */
  lemma {:induction false} AppendNewDistinct(log: seq<LogEntry>, es: seq<LogEntry>)
    requires Distinct(LogIds(log))
    ensures Distinct(LogIds(AppendNew(log, es)))
    ensures forall i :: 0 <= i < |es| ==> es[i].messageId in LogIds(AppendNew(log, es))
    decreases |es|
  {
    if |es| > 0 {
      var init := es[..|es| - 1];
      AppendNewDistinct(log, init);
      var acc := AppendNew(log, init);
      var e := es[|es| - 1];
      if e.messageId !in LogIds(acc) {
        var r := acc + [e];
        assert LogIds(r) == LogIds(acc) + [e.messageId];
        assert forall i :: 0 <= i < |init| ==> init[i].messageId in LogIds(r);
      }
      assert forall i :: 0 <= i < |es| - 1 ==> es[i] == init[i];
    }
  }

  /** Every appended id ends up in the log, whether or not the log was free of repeats. */
  lemma {:induction false} AppendNewHolds(log: seq<LogEntry>, es: seq<LogEntry>)
    ensures forall i :: 0 <= i < |es| ==> es[i].messageId in LogIds(AppendNew(log, es))
    decreases |es|
  {
    if |es| > 0 {
      var init := es[..|es| - 1];
      AppendNewHolds(log, init);
      var acc := AppendNew(log, init);
      var e := es[|es| - 1];
      if e.messageId !in LogIds(acc) {
        assert LogIds(acc + [e]) == LogIds(acc) + [e.messageId];
      }
      assert forall i :: 0 <= i < |es| - 1 ==> es[i] == init[i];
    }
  }

  function TagEntries(room: string, ms: seq<Message>, now: string): (r: seq<LogEntry>)
    ensures |r| == |ms|
    ensures forall i :: 0 <= i < |ms| ==> r[i] == TagEntry(room, ms[i], now)
  {
    seq(|ms|, i requires 0 <= i < |ms| => TagEntry(room, ms[i], now))
  }

  /** Whether a log already holds an entry for the id. */
  method HasId(log: seq<LogEntry>, id: string) returns (b: bool)
    ensures b <==> id in LogIds(log)
  {
    b := false;
    var j := 0;
    while j < |log|
      invariant j <= |log|
      invariant b <==> exists k :: 0 <= k < j && log[k].messageId == id
    {
      if log[j].messageId == id {
        b := true;
      }
      j := j + 1;
    }
    if b {
      var k :| 0 <= k < j && log[k].messageId == id;
      assert LogIds(log)[k] == id;
    }
  }

  lemma AppendNewStep(log: seq<LogEntry>, es: seq<LogEntry>, i: nat)
    requires i < |es|
    ensures var acc := AppendNew(log, es[..i]);
            AppendNew(log, es[..i + 1]) == if es[i].messageId in LogIds(acc) then acc else acc + [es[i]]
  {
    assert es[..i + 1][..i] == es[..i];
  }

  /** `_add_deleted_tag_messages_to_log` on one room's log (absent: empty). */
  method AddTaggedToLog(log: seq<LogEntry>, room: string, ms: seq<Message>, now: string)
    returns (r: seq<LogEntry>)
    ensures r == Cap(AppendNew(log, TagEntries(room, ms, now)))
    ensures |r| <= LogCap
  {
    var es := TagEntries(room, ms, now);
    var acc := log;
    var i := 0;
    while i < |ms|
      invariant i <= |ms|
      invariant acc == AppendNew(log, es[..i])
    {
      AppendNewStep(log, es, i);
      var e := TagEntry(room, ms[i], now);
      var present := HasId(acc, e.messageId);
      if !present {
        acc := acc + [e];
      }
      i := i + 1;
    }
    assert es[..i] == es;
    r := if |acc| > LogCap then acc[|acc| - LogCap..] else acc;
  }

  // ---------------------------------------------------------------------------
  // Vanished messages

  /** The entry takes its id from the cache key and the rest from the cached message. */
  function VanishedEntry(room: string, id: string, m: Message, now: string): LogEntry {
    LogEntry(id, room, m.sender, m.body, m.sendTime, now, Vanished)
  }

  /** The entries for the vanished ids, in the given order, from the cached messages. */
  function VanishedEntries(room: string, c: map<string, Message>, order: seq<string>, now: string)
    : (r: seq<LogEntry>)
    requires forall id :: id in order ==> id in c
    ensures |r| == |order|
    ensures forall i :: 0 <= i < |order| ==> r[i] == VanishedEntry(room, order[i], c[order[i]], now)
  {
    seq(|order|, i requires 0 <= i < |order| => assert order[i] in order; VanishedEntry(room, order[i], c[order[i]], now))
  }

  /** The iteration order of the set of vanished ids: every one of them, each once. */
  predicate Enumerates(order: seq<string>, s: set<string>) {
    (forall id :: id in order ==> id in s) && (forall id :: id in s ==> id in order) && Distinct(order)
  }

  /** `_detect_deleted_messages` on the whole deletion log. `cache` is the room's cached
      messages, absent before its first fetch; `order` is the order in which the set of vanished
      ids is iterated. */
  function DetectDeleted(logs: map<string, seq<LogEntry>>, room: string,
                         cache: Option<map<string, Message>>, current: set<string>,
                         order: seq<string>, now: string): (r: map<string, seq<LogEntry>>)
    requires cache.Some? ==> Enumerates(order, cache.value.Keys - current)
    ensures cache.None? || cache.value.Keys <= current ==> r == logs
    ensures forall other :: other != room ==> (other in r <==> other in logs)
    ensures forall other :: other != room && other in logs ==> r[other] == logs[other]
  {
    if cache.None? || cache.value.Keys - current == {} then
      logs
    else
      var prior := if room in logs then logs[room] else [];
      logs[room := Cap(prior + VanishedEntries(room, cache.value, order, now))]
  }

  /** What a refetch logs: one entry for each cached id missing from the fetch, each once,
      appended to the room's log, taken from the cached copy of the message. */
  lemma DetectDeletedLogs(logs: map<string, seq<LogEntry>>, room: string, cache: map<string, Message>,
                          current: set<string>, order: seq<string>, now: string)
    requires Enumerates(order, cache.Keys - current) && cache.Keys - current != {}
    ensures var r := DetectDeleted(logs, room, Some(cache), current, order, now);
            var prior := if room in logs then logs[room] else [];
            room in r && exists added: seq<LogEntry> ::
              r[room] == Cap(prior + added) && Distinct(LogIds(added))
              && (forall id :: id in LogIds(added) <==> id in cache && id !in current)
              && (forall e :: e in added ==> e.kind == Vanished && e.messageId in cache
                                             && e.body == cache[e.messageId].body)
  {
    var r := DetectDeleted(logs, room, Some(cache), current, order, now);
    var prior := if room in logs then logs[room] else [];
    var added := VanishedEntries(room, cache, order, now);
    assert r[room] == Cap(prior + added);
    VanishedIds(room, cache, order, now);
    assert forall id :: id in LogIds(added) <==> id in cache && id !in current;
    forall e | e in added ensures e.kind == Vanished && e.messageId in cache && e.body == cache[e.messageId].body {
      var i :| 0 <= i < |added| && added[i] == e;
      assert order[i] in order;
    }
  }

  /** The vanished entries carry the vanished ids, in order. */
  lemma VanishedIds(room: string, c: map<string, Message>, order: seq<string>, now: string)
    requires forall id :: id in order ==> id in c
    ensures LogIds(VanishedEntries(room, c, order, now)) == order
  {
    var ids := LogIds(VanishedEntries(room, c, order, now));
    assert forall i :: 0 <= i < |order| ==> ids[i] == order[i];
  }

  // ---------------------------------------------------------------------------
  // One fetch

  datatype SyncState = SyncState(cache: map<string, map<string, Message>>,
                                 deleted: map<string, seq<LogEntry>>,
                                 lastIds: map<string, string>)

  /** `{m.message_id: m for m in ms}`: a later duplicate id wins. */
  function CacheOf(ms: seq<Message>): (c: map<string, Message>)
    ensures c.Keys == set m | m in ms :: m.messageId
    decreases |ms|
  {
    if |ms| == 0 then map[]
    else
      var init := ms[..|ms| - 1];
      var last := ms[|ms| - 1];
      assert forall m :: m in ms <==> m in init || m == last;
      CacheOf(init)[last.messageId := last]
  }

  /** The cached messages of a room before this fetch, if it was fetched before. */
  function CachedIn(st: SyncState, room: string): Option<map<string, Message>> {
    if room in st.cache then Some(st.cache[room]) else None
  }

  /** The deletion log after the tagged messages of a fetch are added to the room's log; the
      log is unchanged when there are none. */
  function TaggedLogs(logs: map<string, seq<LogEntry>>, room: string, tagged: seq<Message>, now: string)
    : (r: map<string, seq<LogEntry>>)
    ensures r.Keys == if |tagged| > 0 then logs.Keys + {room} else logs.Keys
    ensures forall other :: other != room && other in logs ==> r[other] == logs[other]
  {
    if |tagged| > 0 then
      var prior := if room in logs then logs[room] else [];
      logs[room := Cap(AppendNew(prior, TagEntries(room, tagged, now)))]
    else logs
  }

  /** Once the tagged messages are added, each of their ids is in the room's log, unless the
      log outgrew its cap. */
  lemma TaggedLogsHold(logs: map<string, seq<LogEntry>>, room: string, tagged: seq<Message>, now: string)
    ensures var prior := if room in logs then logs[room] else [];
            var r := TaggedLogs(logs, room, tagged, now);
            |tagged| > 0 && |AppendNew(prior, TagEntries(room, tagged, now))| <= LogCap
            ==> room in r && forall m :: m in tagged ==> m.messageId in LogIds(r[room])
  {
    var prior := if room in logs then logs[room] else [];
    var es := TagEntries(room, tagged, now);
    AppendNewHolds(prior, es);
    forall m | m in tagged ensures m.messageId in LogIds(AppendNew(prior, es)) {
      var i :| 0 <= i < |tagged| && tagged[i] == m;
      assert es[i].messageId == m.messageId;
    }
  }

  /** `get_messages`: the untagged messages are returned and cached, tagged ones are logged,
      vanished ones are logged. `fails` is the request or the reading of its data raising: the
      call then answers an empty list and no state changes, since every update comes after. */
  method GetMessages(st: SyncState, room: string, fails: bool, data: seq<Message>, now: string, order: seq<string>)
    returns (returned: seq<Message>, st': SyncState)
    requires room in st.cache ==>
               Enumerates(order, st.cache[room].Keys - (set m | m in Kept(data) :: m.messageId))
    ensures fails ==> returned == [] && st' == st
    ensures !fails ==> returned == Kept(data)
    ensures !fails ==> st'.cache == st.cache[room := CacheOf(Kept(data))]
    ensures st'.lastIds == st.lastIds
    ensures forall other :: other != room ==> (other in st'.deleted <==> other in st.deleted)
    ensures forall other :: other != room && other in st.deleted ==> st'.deleted[other] == st.deleted[other]
    ensures !fails ==> st'.deleted == DetectDeleted(TaggedLogs(st.deleted, room, TaggedOnly(data), now), room,
                                                    CachedIn(st, room), set m | m in Kept(data) :: m.messageId, order, now)
    ensures var prior := if room in st.deleted then st.deleted[room] else [];
            var tagged := TaggedOnly(data);
            !fails && |tagged| > 0 && |AppendNew(prior, TagEntries(room, tagged, now))| <= LogCap
            && (room !in st.cache || st.cache[room].Keys <= set m | m in Kept(data) :: m.messageId)
            ==> room in st'.deleted && forall m :: m in tagged ==> m.messageId in LogIds(st'.deleted[room])
  {
    if fails {
      returned, st' := [], st;
    } else {
      returned, st' := StoreFetched(st, room, data, now, order);
    }
  }

  /** The part of `get_messages` after a successful fetch. */
  method StoreFetched(st: SyncState, room: string, data: seq<Message>, now: string, order: seq<string>)
    returns (returned: seq<Message>, st': SyncState)
    requires room in st.cache ==>
               Enumerates(order, st.cache[room].Keys - (set m | m in Kept(data) :: m.messageId))
    ensures returned == Kept(data)
    ensures st'.cache == st.cache[room := CacheOf(Kept(data))]
    ensures st'.lastIds == st.lastIds
    ensures forall other :: other != room ==> (other in st'.deleted <==> other in st.deleted)
    ensures forall other :: other != room && other in st.deleted ==> st'.deleted[other] == st.deleted[other]
    ensures st'.deleted == DetectDeleted(TaggedLogs(st.deleted, room, TaggedOnly(data), now), room,
                                         CachedIn(st, room), set m | m in Kept(data) :: m.messageId, order, now)
    ensures var prior := if room in st.deleted then st.deleted[room] else [];
            var tagged := TaggedOnly(data);
            |tagged| > 0 && |AppendNew(prior, TagEntries(room, tagged, now))| <= LogCap
            && (room !in st.cache || st.cache[room].Keys <= set m | m in Kept(data) :: m.messageId)
            ==> room in st'.deleted && forall m :: m in tagged ==> m.messageId in LogIds(st'.deleted[room])
  {
    returned := Kept(data);
    var tagged := TaggedOnly(data);
    var logs := st.deleted;
    if |tagged| > 0 {
      var prior := if room in logs then logs[room] else [];
      var updated := AddTaggedToLog(prior, room, tagged, now);
      logs := logs[room := updated];
    }
    assert logs == TaggedLogs(st.deleted, room, tagged, now);
    TaggedLogsHold(st.deleted, room, tagged, now);
    var current := set m | m in returned :: m.messageId;
    logs := DetectDeleted(logs, room, CachedIn(st, room), current, order, now);
    st' := SyncState(st.cache[room := CacheOf(returned)], logs, st.lastIds);
  }

  /** Fetching the same untagged list again logs nothing. */
  lemma RefetchIsQuiet(cache: map<string, Message>, data: seq<Message>, logs: map<string, seq<LogEntry>>,
                       room: string, now: string)
    requires cache == CacheOf(Kept(data))
    ensures DetectDeleted(logs, room, Some(cache), set m | m in Kept(data) :: m.messageId, [], now) == logs
  {
  }

  /** On a room's first fetch nothing is logged as vanished. */
  lemma FirstFetchLogsNoVanished(logs: map<string, seq<LogEntry>>, room: string, current: set<string>,
                                 order: seq<string>, now: string)
    ensures DetectDeleted(logs, room, None, current, order, now) == logs
  {
  }

  // ---------------------------------------------------------------------------
  // New messages

  /** `get_new_messages` after its fetch: the messages whose id sorts after the stored watermark
      (all of them without one), and the watermark after the call. */
  function NewMessages(watermark: Option<string>, all: seq<Message>): (r: (seq<Message>, Option<string>))
    ensures r.0 == NewSince(watermark, all)
    ensures forall m :: m in r.0 <==> m in all && (watermark.None? || LexLess(watermark.value, m.messageId))
    ensures |all| == 0 ==> r.1 == watermark
    ensures |all| > 0 ==> r.1.Some? && r.1.value in MessageIds(all)
    ensures |all| > 0 ==> forall i :: 0 <= i < |all| ==> !LexLess(r.1.value, all[i].messageId)
  {
    var newer := NewSince(watermark, all);
    if |all| == 0 then (newer, watermark)
    else
      var ids := MessageIds(all);
      var top := MaxString(ids);
      assert forall i :: 0 <= i < |all| ==> ids[i] in ids;
      (newer, Some(top))
  }

  function NewSince(watermark: Option<string>, all: seq<Message>): (r: seq<Message>)
    ensures forall m :: m in r <==> m in all && (watermark.None? || LexLess(watermark.value, m.messageId))
    ensures |r| <= |all|
    ensures watermark.None? ==> r == all
    decreases |all|
  {
    if |all| == 0 then []
    else
      var init := all[..|all| - 1];
      var last := all[|all| - 1];
      assert forall m :: m in all <==> m in init || m == last;
      NewSince(watermark, init)
        + (if watermark.None? || LexLess(watermark.value, last.messageId) then [last] else [])
  }

  /** The selection keeps the page's order and its repetitions: it distributes over
      concatenation. */
  lemma {:induction false} NewSinceConcat(watermark: Option<string>, a: seq<Message>, b: seq<Message>)
    ensures NewSince(watermark, a + b) == NewSince(watermark, a) + NewSince(watermark, b)
    decreases |b|
  {
    if |b| > 0 {
      var init := b[..|b| - 1];
      var last := b[|b| - 1];
      assert (a + b)[..|a + b| - 1] == a + init && (a + b)[|a + b| - 1] == last;
      NewSinceConcat(watermark, a, init);
      var kept := if watermark.None? || LexLess(watermark.value, last.messageId) then [last] else [];
      assert NewSince(watermark, a + b) == NewSince(watermark, a + init) + kept;
      assert NewSince(watermark, b) == NewSince(watermark, init) + kept;
    } else {
      assert a + b == a;
    }
  }

  /** One message is selected exactly when it is newer than the watermark, or there is none. */
  lemma NewSinceOne(watermark: Option<string>, m: Message)
    ensures NewSince(watermark, [m])
            == if watermark.None? || LexLess(watermark.value, m.messageId) then [m] else []
  {
    assert [m][..0] == [] && [m][0] == m;
  }

  /** Asking again for the same list right after finds nothing new. */
  lemma NewMessagesSettle(watermark: Option<string>, all: seq<Message>)
    requires |all| > 0
    ensures NewMessages(NewMessages(watermark, all).1, all).0 == []
  {
    NewSinceNone(NewMessages(watermark, all).1.value, all);
  }

  lemma {:induction false} NewSinceNone(w: string, all: seq<Message>)
    requires forall i :: 0 <= i < |all| ==> !LexLess(w, all[i].messageId)
    ensures NewSince(Some(w), all) == []
    decreases |all|
  {
    if |all| > 0 {
      NewSinceNone(w, all[..|all| - 1]);
    }
  }

  // ---------------------------------------------------------------------------
  // Reading and clearing the log

  /** `get_deleted_messages(room_id)`: one room's log (empty when it has none), or every log when
      no room is given (`None` or `''`). */
  function DeletedLogs(logs: map<string, seq<LogEntry>>, room: Option<string>): (r: map<string, seq<LogEntry>>)
    ensures room.Some? && room.value != "" ==> r.Keys == {room.value}
    ensures room.Some? && room.value != "" && room.value in logs ==> r[room.value] == logs[room.value]
    ensures room.Some? && room.value != "" && room.value !in logs ==> r[room.value] == []
    ensures room.None? || room.value == "" ==> r == logs
  {
    if room.Some? && room.value != "" then map[room.value := if room.value in logs then logs[room.value] else []]
    else logs
  }

  /** `clear_deleted_messages_log(room_id)`. */
  function ClearLogs(logs: map<string, seq<LogEntry>>, room: Option<string>): (r: map<string, seq<LogEntry>>)
    ensures room.None? || room.value == "" ==> r == map[]
    ensures room.Some? && room.value != "" ==> room.value !in r
    ensures room.Some? && room.value != "" ==> forall k :: k != room.value ==> (k in r <==> k in logs)
    ensures room.Some? && room.value != "" ==> forall k :: k in r ==> r[k] == logs[k]
  {
    if room.Some? && room.value != "" then logs - {room.value} else map[]
  }

  /** After clearing a room its log reads as empty and the other rooms read as before. */
  lemma ClearThenRead(logs: map<string, seq<LogEntry>>, room: string, other: string)
    requires room != "" && other != "" && other != room
    ensures DeletedLogs(ClearLogs(logs, Some(room)), Some(room))[room] == []
    ensures DeletedLogs(ClearLogs(logs, Some(room)), Some(other)) == DeletedLogs(logs, Some(other))
  {
  }
}

=== FILE: outgoing.dfy ===
/** Bodies of the messages the manager sends on the user's behalf: replies, quotes and
    emoji reactions, written in the chat service's bracket-tag markup. */
module Outgoing {
  import opened Base
  import opened Text
  import Markup

  /** Python truthiness of an optional string argument: `None` and `''` are both false. */
  predicate Truthy(x: Option<string>) {
    x.Some? && x.value != ""
  }

  // ---------------------------------------------------------------------------
  // Replies

  const ReplyPrefix: string := "> 返信: "

  /** `reply_to_message`: addressed with `[To:<sender>]` when a sender is given, otherwise
      introduced by the plain reply prefix. */
  function ReplyBody(body: string, sender: Option<string>): (r: string)
    ensures Truthy(sender) ==> StartsWith(r, Markup.MentionOpen)
    ensures !Truthy(sender) ==> StartsWith(r, ReplyPrefix)
    ensures EndsWith(r, body)
  {
    var r := if Truthy(sender) then Markup.MentionOpen + sender.value + "] " + body
             else ReplyPrefix + body;
    assert r[..4] == (if Truthy(sender) then Markup.MentionOpen else ReplyPrefix[..4]);
    assert r[|r| - |body|..] == body;
    r
  }

  /** Reads a reply body back: the addressee (empty for the unaddressed form) and the text. */
  function ParseReply(r: string): Option<(string, string)> {
    if StartsWith(r, Markup.MentionOpen) then
      var tail := r[|Markup.MentionOpen|..];
      match IndexOf(tail, "]")
      case Some(j) =>
        if j > 0 && j + 1 < |tail| && tail[j + 1] == ' ' then Some((tail[..j], tail[j + 2..]))
        else None
      case None => None
    else if StartsWith(r, ReplyPrefix) then Some(("", r[|ReplyPrefix|..]))
    else None
  }

  lemma ReplyAddressedShape(sender: string, body: string)
    ensures (Markup.MentionOpen + sender + "] " + body)[|Markup.MentionOpen|..] == sender + [']'] + (" " + body)
  {
  }

  /** A reply can be read back: its addressee and its text are recovered, provided the sender
      holds no `]`. */
  lemma ReplyRoundTrip(body: string, sender: Option<string>)
    requires sender.Some? ==> ']' !in sender.value
    ensures ParseReply(ReplyBody(body, sender)) == Some((if Truthy(sender) then sender.value else "", body))
  {
    if Truthy(sender) {
      ReplyRoundTripAddressed(sender.value, body);
    } else {
      var r := ReplyBody(body, sender);
      assert r == ReplyPrefix + body;
      assert r[..|Markup.MentionOpen|] != Markup.MentionOpen by { assert r[0] == '>'; }
      assert r[..|ReplyPrefix|] == ReplyPrefix;
      assert r[|ReplyPrefix|..] == body;
    }
  }

  lemma ReplyRoundTripAddressed(s: string, body: string)
    requires ']' !in s && s != ""
    ensures ParseReply(Markup.MentionOpen + s + "] " + body) == Some((s, body))
  {
    var r := Markup.MentionOpen + s + "] " + body;
    assert r[..|Markup.MentionOpen|] == Markup.MentionOpen;
    ReplyAddressedShape(s, body);
    var tail := s + [']'] + (" " + body);
    assert r[|Markup.MentionOpen|..] == tail;
    IndexOfChar(s, ']', " " + body);
    assert IndexOf(tail, "]") == Some(|s|);
    assert tail[|s| + 1] == ' ';
    assert tail[..|s|] == s;
    assert tail[|s| + 2..] == body;
  }

  /** A reply to a numeric account id is shown by the dashboard with the mention marker in place
      of the address tag. */
  lemma ReplyRendersMention(body: string, id: string, escape: string -> string)
    requires |id| > 0 && forall i :: 0 <= i < |id| ==> IsAsciiDigit(id[i])
    requires '[' !in body && !Contains(body, "http://") && !Contains(body, "https://")
    ensures Markup.Format(ReplyBody(body, Some(id)), escape)
         == Markup.MentionSpan + " " + ReplaceAll(body, "\n", Markup.LineBreak)
  {
    Markup.FormatMentionReply(id, body, escape);
  }

  // ---------------------------------------------------------------------------
  // Reactions

  /** The emoji each known reaction name stands for. */
  const ReactionTable: map<string, string> := map[
    "thumbsup" := "\U{1F44D}",
    "thumbsdown" := "\U{1F44E}",
    "clap" := "\U{1F44F}",
    "love" := "\U{2764}\U{FE0F}",
    "smile" := "\U{1F604}",
    "surprised" := "\U{1F632}"
  ]

  /** `add_reaction`: a known name becomes its emoji, any other text is sent as it is. */
  function Reaction(name: string): (r: string)
    ensures r != name <==> name in ReactionTable
    ensures name in ReactionTable ==> r in ReactionTable.Values && 0 < |r| <= 2
  {
    if name in ReactionTable then ReactionTable[name] else name
  }

  /** Sending a reaction's own emoji as a reaction name sends the same emoji. */
  lemma ReactionIdempotent(name: string)
    ensures Reaction(Reaction(name)) == Reaction(name)
  {
  }

  /** Distinct known names give distinct emoji. */
  lemma ReactionInjective(a: string, b: string)
    requires a in ReactionTable && b in ReactionTable && a != b
    ensures Reaction(a) != Reaction(b)
  {
  }

  // ---------------------------------------------------------------------------
  // Quotes: removal of `\[.*?\]`

  /** Index of the first `]` at or after `k` on the same line: the lazy `.*?` of `\[.*?\]`
      (Python's `.` matches every character except `\n`). */
  function BracketEnd(s: string, k: nat): (r: Option<nat>)
    ensures r.Some? ==> k <= r.value < |s| && s[r.value] == ']'
    ensures r.Some? ==> forall i :: k <= i < r.value ==> s[i] != '\n'
    decreases |s| - k
  {
    if k >= |s| || s[k] == '\n' then None
    else if s[k] == ']' then Some(k)
    else BracketEnd(s, k + 1)
  }

  /** `re.sub(r'\[.*?\]', '', s[k:])`: each `[` that has a `]` later on its line is removed up
      to and including the nearest such `]`; the scan resumes after it. */
  function StripFrom(s: string, k: nat): string
    decreases |s| - k
  {
    if k >= |s| then ""
    else if s[k] == '[' && BracketEnd(s, k + 1).Some? then StripFrom(s, BracketEnd(s, k + 1).value + 1)
    else [s[k]] + StripFrom(s, k + 1)
  }

  /** No `[` of `t` is followed by a `]` on its line: the pattern finds nothing in `t`. */
  predicate NoTag(t: string) {
    forall i :: 0 <= i < |t| && t[i] == '[' ==> BracketEnd(t, i + 1).None?
  }

  /** Markup removal leaves no bracket tag behind. */
  function StripMarkup(s: string): (r: string)
    ensures NoTag(r)
  {
    NoTagFrom(s, 0);
    StripFrom(s, 0)
  }

  /** Searching behind a prefix is searching the rest, shifted by the prefix's length. */
  lemma {:induction false} BracketEndShift(p: string, t: string, k: nat)
    ensures BracketEnd(p + t, |p| + k)
         == (if BracketEnd(t, k).Some? then Some(|p| + BracketEnd(t, k).value) else None)
    decreases |t| - k
  {
    if k < |t| {
      assert (p + t)[|p| + k] == t[k];
      if t[k] != '\n' && t[k] != ']' {
        BracketEndShift(p, t, k + 1);
      }
    }
  }

  /** A line of the input without `]` reaches the output unchanged, so it still has none. */
  lemma {:induction false} FirstLineKept(s: string, k: nat)
    requires BracketEnd(s, k).None?
    ensures BracketEnd(StripFrom(s, k), 0).None?
    decreases |s| - k
  {
    if k < |s| && s[k] != '\n' {
      var rest := StripFrom(s, k + 1);
      FirstLineKept(s, k + 1);
      assert StripFrom(s, k) == [s[k]] + rest;
      BracketEndShift([s[k]], rest, 0);
    }
  }

  lemma {:induction false} NoTagFrom(s: string, k: nat)
    ensures NoTag(StripFrom(s, k))
    decreases |s| - k
  {
    if k < |s| {
      if s[k] == '[' && BracketEnd(s, k + 1).Some? {
        NoTagFrom(s, BracketEnd(s, k + 1).value + 1);
      } else {
        var rest := StripFrom(s, k + 1);
        var r := [s[k]] + rest;
        NoTagFrom(s, k + 1);
        assert StripFrom(s, k) == r;
        forall i | 0 <= i < |r| && r[i] == '[' ensures BracketEnd(r, i + 1).None? {
          BracketEndShift([s[k]], rest, i);
          if i == 0 {
            FirstLineKept(s, k + 1);
          } else {
            assert rest[i - 1] == '[';
          }
        }
      }
    }
  }

  /** Text without a bracket tag is left as it is. */
  lemma {:induction false} StripFromNoTag(t: string, k: nat)
    requires NoTag(t) && k <= |t|
    ensures StripFrom(t, k) == t[k..]
    decreases |t| - k
  {
    if k < |t| {
      StripFromNoTag(t, k + 1);
      assert t[k..] == [t[k]] + t[k + 1..];
    }
  }

  /** Removing markup twice is removing it once. */
  lemma StripMarkupIdempotent(s: string)
    ensures StripMarkup(StripMarkup(s)) == StripMarkup(s)
  {
    StripFromNoTag(StripMarkup(s), 0);
  }

  /** Scanning behind a prefix is scanning the rest. */
  lemma {:induction false} StripFromShift(p: string, t: string, k: nat)
    requires k <= |t|
    ensures StripFrom(p + t, |p| + k) == StripFrom(t, k)
    decreases |t| - k
  {
    if k < |t| {
      var s := p + t;
      assert s[|p| + k] == t[k];
      BracketEndShift(p, t, k + 1);
      var e := BracketEnd(t, k + 1);
      var next := if t[k] == '[' && e.Some? then e.value + 1 else k + 1;
      StripFromShift(p, t, next);
      assert StripFrom(s, |p| + next) == StripFrom(t, next);
      if t[k] == '[' && e.Some? {
        assert StripFrom(s, |p| + k) == StripFrom(s, |p| + next);
      } else {
        assert StripFrom(s, |p| + k) == [t[k]] + StripFrom(s, |p| + next);
      }
    }
  }

  /** A tag at the front disappears together with everything up to its `]`. */
  lemma StripMarkupTag(x: string, rest: string)
    requires ']' !in x && '\n' !in x
    ensures StripMarkup("[" + x + "]" + rest) == StripMarkup(rest)
  {
    var p := "[" + x + "]";
    var s := p + rest;
    BracketEndReaches(s, 1, |x| + 1);
    StripFromShift(p, rest, 0);
  }

  lemma {:induction false} BracketEndReaches(s: string, k: nat, v: nat)
    requires k <= v < |s| && s[v] == ']'
    requires forall i :: k <= i < v ==> s[i] != '\n' && s[i] != ']'
    ensures BracketEnd(s, k) == Some(v)
    decreases v - k
  {
    if k < v {
      BracketEndReaches(s, k + 1, v);
    }
  }

  /** A character that opens no tag is kept. */
  lemma StripMarkupKeeps(c: char, rest: string)
    requires c != '['
    ensures StripMarkup([c] + rest) == [c] + StripMarkup(rest)
  {
    StripFromShift([c], rest, 0);
  }

  // ---------------------------------------------------------------------------
  // Quotes: the whole body

  const QuoteLimit: nat := 100

  /** The quoted text: markup removed, whitespace stripped, cut to 100 characters plus an
      ellipsis when longer. */
  function QuoteText(original: string): (q: string)
    ensures NoTag(q)
    ensures |q| <= QuoteLimit + 3
    ensures q == "" || (!IsPySpace(q[0]) && !IsPySpace(q[|q| - 1]))
    ensures var t := Strip(StripMarkup(original));
            (|t| <= QuoteLimit ==> q == t) && (|t| > QuoteLimit ==> q == t[..QuoteLimit] + "...")
  {
    var t := Strip(StripMarkup(original));
    StripNoTag(StripMarkup(original));
    AbbreviateNoTag(t);
    var q := Abbreviate(t, QuoteLimit);
    assert |t| > QuoteLimit ==> q == q[..QuoteLimit] + q[QuoteLimit..];
    q
  }

  lemma StripNoTag(m: string)
    requires NoTag(m)
    ensures NoTag(Strip(m))
  {
    NoTagSlice(m, StripStart(m), StripStart(m) + |Strip(m)|);
  }

  lemma AbbreviateNoTag(t: string)
    requires NoTag(t)
    ensures NoTag(Abbreviate(t, QuoteLimit))
  {
    if |t| > QuoteLimit {
      NoTagSlice(t, 0, QuoteLimit);
      NoTagEllipsis(t[..QuoteLimit]);
    }
  }

  /** `quote_message`: the quoted text in `[qt]...[/qt]`, then the comment on its own line when
      one is given. */
  function QuoteBody(original: string, comment: Option<string>): (r: string)
    ensures StartsWith(r, Markup.QuoteOpen)
    ensures Truthy(comment) ==> EndsWith(r, "\n" + comment.value)
    ensures !Truthy(comment) ==> EndsWith(r, Markup.QuoteClose)
  {
    var base := Markup.QuoteOpen + QuoteText(original) + Markup.QuoteClose;
    var r := if Truthy(comment) then base + "\n" + comment.value else base;
    assert r[..|Markup.QuoteOpen|] == Markup.QuoteOpen;
    assert Truthy(comment) ==> r[|r| - |"\n" + comment.value|..] == "\n" + comment.value;
    assert r[|r| - |Markup.QuoteClose|..] == (if Truthy(comment) then r[|r| - 5..] else Markup.QuoteClose);
    r
  }

  /** Reads a quote body back: the text between `[qt]` and the first `[/qt]`, and the comment
      on the line after it, if any. */
  function ParseQuote(r: string): Option<(string, Option<string>)> {
    if !StartsWith(r, Markup.QuoteOpen) then None
    else
      var tail := r[|Markup.QuoteOpen|..];
      match IndexOf(tail, Markup.QuoteClose)
      case None => None
      case Some(j) =>
        var rest := tail[j + |Markup.QuoteClose|..];
        if rest == "" then Some((tail[..j], None))
        else if |rest| > 1 && rest[0] == '\n' then Some((tail[..j], Some(rest[1..])))
        else None
  }

  /** A quote can be read back: the quoted text is `QuoteText` of the original, and the comment
      is recovered exactly when it was truthy. */
  lemma QuoteRoundTrip(original: string, comment: Option<string>)
    ensures ParseQuote(QuoteBody(original, comment))
            == Some((QuoteText(original), if Truthy(comment) then Some(comment.value) else None))
  {
    var q := QuoteText(original);
    var base := Markup.QuoteOpen + q + Markup.QuoteClose;
    if Truthy(comment) {
      var c := comment.value;
      assert QuoteBody(original, comment) == base + "\n" + c == base + ("\n" + c);
      ParseQuoteOf(q, "\n" + c);
      assert ("\n" + c)[1..] == c;
    } else {
      assert QuoteBody(original, comment) == base == base + "";
      ParseQuoteOf(q, "");
    }
  }

  /** How a quote of a tag-free text followed by anything is read back. */
  lemma ParseQuoteOf(q: string, rest: string)
    requires NoTag(q)
    ensures ParseQuote(Markup.QuoteOpen + q + Markup.QuoteClose + rest)
            == if rest == "" then Some((q, None))
               else if |rest| > 1 && rest[0] == '\n' then Some((q, Some(rest[1..])))
               else None
  {
    var r := Markup.QuoteOpen + q + Markup.QuoteClose + rest;
    var tail := q + Markup.QuoteClose + rest;
    assert r == Markup.QuoteOpen + tail;
    assert r[|Markup.QuoteOpen|..] == tail;
    NoCloseInQuote(q, rest);
    assert tail[|q|..][..|Markup.QuoteClose|] == Markup.QuoteClose;
    IndexOfAt(tail, Markup.QuoteClose, |q|);
    assert tail[..|q|] == q;
    assert tail[|q| + |Markup.QuoteClose|..] == rest;
  }

  /** A tag-free text holds no `[/qt]`, nor does one start inside it and end in a following
      `[/qt]`. */
  lemma NoCloseInQuote(q: string, rest: string)
    requires NoTag(q)
    ensures forall k :: 0 <= k < |q| ==> !OccursAt(q + Markup.QuoteClose + rest, Markup.QuoteClose, k)
  {
    var s := q + Markup.QuoteClose + rest;
    forall k | 0 <= k < |q| ensures !OccursAt(s, Markup.QuoteClose, k) {
      if k + 4 < |q| {
        if OccursAt(s, Markup.QuoteClose, k) {
          var w := s[k..][..5];
          assert w == Markup.QuoteClose;
          assert q[k] == w[0] == '[' && q[k + 1] == w[1] == '/' && q[k + 2] == w[2] == 'q';
          assert q[k + 3] == w[3] == 't' && q[k + 4] == w[4] == ']';
          BracketEndReaches(q, k + 1, k + 4);
          assert false;
        }
      } else {
        var i := |q| - k;
        assert s[k..][..5][i] == '[';
        assert Markup.QuoteClose[i] != '[';
      }
    }
  }

  /** The first occurrence found by `IndexOf` is the one with none before it. */
  lemma IndexOfAt(s: string, p: string, k: nat)
    requires OccursAt(s, p, k) && forall i :: 0 <= i < k ==> !OccursAt(s, p, i)
    ensures IndexOf(s, p) == Some(k)
  {
    assert Contains(s, p);
  }

  /** A tag-free slice of the text behaves as the text does. */
  lemma {:induction false} BracketEndSlice(t: string, a: nat, b: nat, j: nat)
    requires a <= b <= |t|
    ensures BracketEnd(t[a..b], j).Some? ==> BracketEnd(t, a + j).Some?
    decreases b - a - j
  {
    if j < b - a && t[a..b][j] != '\n' && t[a..b][j] != ']' {
      assert t[a..b][j] == t[a + j];
      BracketEndSlice(t, a, b, j + 1);
    } else if j < b - a {
      assert t[a..b][j] == t[a + j];
    }
  }

  lemma NoTagSlice(t: string, a: nat, b: nat)
    requires NoTag(t) && a <= b <= |t|
    ensures NoTag(t[a..b])
  {
    var u := t[a..b];
    forall i | 0 <= i < |u| && u[i] == '[' ensures BracketEnd(u, i + 1).None? {
      assert t[a + i] == '[';
      BracketEndSlice(t, a, b, i + 1);
    }
  }

  /** Text without `[` or `]` appended after a tag-free text adds no tag. */
  lemma {:induction false} BracketEndAppend(x: string, y: string, j: nat)
    requires '[' !in y && ']' !in y
    ensures BracketEnd(x + y, j).Some? ==> BracketEnd(x, j).Some?
    decreases |x + y| - j
  {
    if j < |x + y| {
      if j < |x| {
        assert (x + y)[j] == x[j];
      } else {
        assert (x + y)[j] == y[j - |x|];
      }
      if (x + y)[j] != '\n' && (x + y)[j] != ']' {
        BracketEndAppend(x, y, j + 1);
      }
    }
  }

  lemma NoTagEllipsis(x: string)
    requires NoTag(x)
    ensures NoTag(x + "...")
  {
    var u := x + "...";
    forall i | 0 <= i < |u| && u[i] == '[' ensures BracketEnd(u, i + 1).None? {
      assert i < |x| && u[i] == x[i];
      BracketEndAppend(x, "...", i + 1);
    }
  }

  /** Short plain text is quoted verbatim. */
  lemma QuotePlain(text: string)
    requires '[' !in text && |text| <= QuoteLimit
    requires text == "" || (!IsPySpace(text[0]) && !IsPySpace(text[|text| - 1]))
    ensures QuoteBody(text, None) == Markup.QuoteOpen + text + Markup.QuoteClose
  {
    assert NoTag(text);
    StripFromNoTag(text, 0);
    StripKeeps(text);
  }

  /** Quoting a reply drops its `[To:...]` address and keeps only the reply text. */
  lemma QuoteOfReply(body: string, sender: string)
    requires sender != "" && ']' !in sender && '\n' !in sender
    requires '[' !in body && |body| <= QuoteLimit
    requires body == "" || (!IsPySpace(body[0]) && !IsPySpace(body[|body| - 1]))
    ensures QuoteBody(ReplyBody(body, Some(sender)), None) == Markup.QuoteOpen + body + Markup.QuoteClose
  {
    QuoteTextOfReply(body, sender);
  }

  /** The quoted text of a reply is its text alone. */
  lemma QuoteTextOfReply(body: string, sender: string)
    requires sender != "" && ']' !in sender && '\n' !in sender
    requires '[' !in body && |body| <= QuoteLimit
    requires body == "" || (!IsPySpace(body[0]) && !IsPySpace(body[|body| - 1]))
    ensures QuoteText(ReplyBody(body, Some(sender))) == body
  {
    var x := "To:" + sender;
    var r := ReplyBody(body, Some(sender));
    assert r == "[" + x + "]" + (" " + body);
    StripMarkupTag(x, " " + body);
    assert NoTag(body);
    StripMarkupKeeps(' ', body);
    StripFromNoTag(body, 0);
    assert StripMarkup(body) == body;
    assert StripMarkup(r) == [' '] + body;
    StripLeadingSpace(' ', body);
    StripKeeps(body);
    assert Strip(StripMarkup(r)) == body;
  }
}

=== FILE: push_channel.dfy ===
/** The dashboard's WebSocket push channel: the reconnect counter driven by the socket's
    open, close and error events, and the dispatch of pushed messages. Timers and sockets are
    not modelled; a scheduled reconnect is reported as the delay it is scheduled with. */
module PushChannel {
  import opened Base

  const MaxReconnectAttempts: nat := 5
  const ReconnectDelayMs: nat := 1000

  /** `reconnectAttempts` and the connection indicator. */
  datatype Channel = Channel(attempts: nat, connected: bool)

  /** The socket callbacks. A failure to construct the socket behaves as `Error`. */
  datatype Event = Open | Close | Error

  /** The state after an event and the reconnect it schedules, if any (the timer's delay). */
  datatype Step = Step(next: Channel, retryMs: Option<nat>)

  const Initial: Channel := Channel(0, false)

  predicate Valid(c: Channel) {
    c.attempts <= MaxReconnectAttempts
  }

  /** `onopen`, `onclose` (which calls `scheduleReconnect`) and `onerror`. */
  function OnEvent(c: Channel, e: Event): (s: Step)
    ensures e == Open ==> s.next == Channel(0, true) && s.retryMs.None?
    ensures e != Open ==> !s.next.connected
    ensures s.retryMs.Some? <==> e == Close && c.attempts < MaxReconnectAttempts
    ensures s.retryMs.Some? ==> s.next.attempts == c.attempts + 1
    ensures s.retryMs.Some? ==> s.retryMs.value == ReconnectDelayMs * s.next.attempts
    ensures e != Open && s.retryMs.None? ==> s.next.attempts == c.attempts
    ensures Valid(c) ==> Valid(s.next)
  {
    match e
    case Open => Step(Channel(0, true), None)
    case Error => Step(c.(connected := false), None)
    case Close =>
      if c.attempts < MaxReconnectAttempts then
        var n := c.attempts + 1;
        Step(Channel(n, false), Some(ReconnectDelayMs * n))
      else Step(c.(connected := false), None)
  }

  /** Feeding a sequence of events: the final state and the delays of every reconnect
      scheduled on the way, in order. */
  function Run(c: Channel, es: seq<Event>): (r: (Channel, seq<nat>))
    decreases |es|
  {
    if |es| == 0 then (c, [])
    else
      var s := OnEvent(c, es[0]);
      var rest := Run(s.next, es[1..]);
      (rest.0, (if s.retryMs.Some? then [s.retryMs.value] else []) + rest.1)
  }

  /** The counter never exceeds the cap, whatever the events. */
  lemma {:induction false} RunValid(c: Channel, es: seq<Event>)
    requires Valid(c)
    ensures Valid(Run(c, es).0)
    decreases |es|
  {
    if |es| > 0 {
      RunValid(OnEvent(c, es[0]).next, es[1..]);
    }
  }

  /** The delays `1000 * a`, `1000 * (a + 1)`, ..., `1000 * (b - 1)`. */
  function Delays(a: nat, b: nat): seq<nat>
    decreases b - a
  {
    if a >= b then [] else [ReconnectDelayMs * a] + Delays(a + 1, b)
  }

  function Closes(n: nat): (es: seq<Event>)
    ensures |es| == n && forall i :: 0 <= i < n ==> es[i] == Close
  {
    seq(n, _ => Close)
  }

  /** A run of `n` failed reconnects after `a` earlier ones schedules retries with the linearly
      growing delays up to the cap, and then stops retrying. */
  lemma {:induction false} ClosesBackOff(a: nat, n: nat)
    requires a <= MaxReconnectAttempts
    ensures var m := if a + n < MaxReconnectAttempts then a + n else MaxReconnectAttempts;
            Run(Channel(a, false), Closes(n)) == (Channel(m, false), Delays(a + 1, m + 1))
    decreases n
  {
    if n > 0 {
      var es := Closes(n);
      assert es[0] == Close && es[1..] == Closes(n - 1);
      var s := OnEvent(Channel(a, false), Close);
      if a < MaxReconnectAttempts {
        assert s.next == Channel(a + 1, false) && s.retryMs == Some(ReconnectDelayMs * (a + 1));
        ClosesBackOff(a + 1, n - 1);
      } else {
        assert s.next == Channel(a, false) && s.retryMs.None?;
        ClosesBackOff(a, n - 1);
        assert a == MaxReconnectAttempts;
        assert Delays(a + 1, a + 1) == [];
        var rest := Run(Channel(a, false), es[1..]);
        assert rest == (Channel(a, false), []);
        assert Run(Channel(a, false), es) == (rest.0, [] + rest.1);
        assert [] + rest.1 == rest.1;
        assert Run(Channel(a, false), Closes(n)) == (Channel(a, false), Delays(a + 1, a + 1));
      }
    }
  }

  /** After a successful open the full back-off is available again: five closes schedule
      retries after 1, 2, 3, 4 and 5 seconds and a sixth schedules nothing. */
  lemma OpenRestoresBackOff(c: Channel)
    ensures Run(c, [Open] + Closes(6)).1 == [1000, 2000, 3000, 4000, 5000]
  {
    assert ([Open] + Closes(6))[1..] == Closes(6);
    ClosesBackOff(0, 6);
    assert Delays(1, 6) == [1000, 2000, 3000, 4000, 5000];
  }

  // ---------------------------------------------------------------------------
  // Pushed messages

  /** What `handleWebSocketMessage` does with a message of a given `type`. `status_update` calls
      a method the dashboard class does not define, so it fails with a `TypeError`. */
  datatype Handler = ShowNewMessage | MissingStatusHandler | KeepAlive | LogUnknown

  function Dispatch(messageType: string): (h: Handler)
    ensures h == ShowNewMessage <==> messageType == "new_message"
    ensures h == MissingStatusHandler <==> messageType == "status_update"
    ensures h == KeepAlive <==> messageType == "pong"
  {
    if messageType == "new_message" then ShowNewMessage
    else if messageType == "status_update" then MissingStatusHandler
    else if messageType == "pong" then KeepAlive
    else LogUnknown
  }
}

=== FILE: rooms.dfy ===
/** Classification of chat rooms: the server's category guess from a room's type and name,
    its grouping of the room list under ten fixed keys, and the dashboard's own four-way
    grouping of the room selector. Every classifier is total and puts each room in exactly
    one bucket. */
module Rooms {
  import opened Base
  import opened Text

  /** A room as the chat service lists it. `None` marks a key missing from the JSON object; the
      id is the decimal text of the numeric room id. */
  datatype Room = Room(roomId: Option<string>, roomType: Option<string>, name: Option<string>,
                       category: Option<string>)

  /** The one room the system is configured to watch. */
  const MonitoredRoomId: string := "402903381"

  // ---------------------------------------------------------------------------
  // Server side: category guess

  datatype Category = Direct | MyChat | Client | Projects | Teams | Meetings | Development
                    | Announcements | Others

  function Keywords(c: Category): seq<string> {
    match c
    case Client => ["クライアント", "client", "顧客", "お客様", "案件"]
    case Projects => ["プロジェクト", "project", "pj"]
    case Teams => ["チーム", "team", "部", "課", "department"]
    case Meetings => ["会議", "meeting", "ミーティング", "打ち合わせ"]
    case Development => ["テスト", "test", "開発", "dev", "development", "ai manager"]
    case Announcements => ["通知", "notice", "アナウンス", "announce", "連絡"]
    case _ => []
  }

  /** Some keyword of `c` occurs in the lower-cased name (Python's `any(k in name for k in ...)`). */
  predicate Hits(lowered: string, c: Category) {
    exists i :: 0 <= i < |Keywords(c)| && Contains(lowered, Keywords(c)[i])
  }

  /** `room.get('type', 'group')`. */
  function TypeOf(room: Room): string {
    room.roomType.GetOr("group")
  }

  /** `room.get('name', '').lower()`, folding ASCII letters only. */
  function LoweredName(room: Room): string {
    Lower(room.name.GetOr(""))
  }

  /** The order in which `_determine_room_category` tries its keyword groups. */
  const DetailedOrder: seq<Category> := [Client, Projects, Teams, Meetings, Development, Announcements]
  /** The order of `_determine_basic_category`, which has no meeting or announcement group. */
  const BasicOrder: seq<Category> := [Client, Projects, Teams, Development]

  /** Reference definition of a first-match classifier: the first group of `order`, from index
      `i` on, whose keywords occur in the name. */
  function FirstHit(lowered: string, order: seq<Category>, i: nat): (r: Option<Category>)
    requires i <= |order|
    ensures r.Some? ==> Hits(lowered, r.value)
    ensures r.Some? ==> exists j :: i <= j < |order| && order[j] == r.value
    ensures r.None? <==> forall j :: i <= j < |order| ==> !Hits(lowered, order[j])
    decreases |order| - i
  {
    if i == |order| then None
    else if Hits(lowered, order[i]) then Some(order[i])
    else FirstHit(lowered, order, i + 1)
  }

  /** `_determine_room_category`. */
  function DetailedCategory(room: Room): (c: Category)
    ensures c == Direct <==> TypeOf(room) == "direct"
    ensures c == MyChat <==> TypeOf(room) == "my"
  {
    var t := TypeOf(room);
    var n := LoweredName(room);
    if t == "direct" then Direct
    else if t == "my" then MyChat
    else if Hits(n, Client) then Client
    else if Hits(n, Projects) then Projects
    else if Hits(n, Teams) then Teams
    else if Hits(n, Meetings) then Meetings
    else if Hits(n, Development) then Development
    else if Hits(n, Announcements) then Announcements
    else Others
  }

  /** `_determine_basic_category`, the fast variant used when the room list is fetched. */
  function BasicCategory(room: Room): (c: Category)
    ensures c == Direct <==> TypeOf(room) == "direct"
    ensures c == MyChat <==> TypeOf(room) == "my"
    ensures c != Meetings && c != Announcements
  {
    var t := TypeOf(room);
    var n := LoweredName(room);
    if t == "direct" then Direct
    else if t == "my" then MyChat
    else if Hits(n, Client) then Client
    else if Hits(n, Projects) then Projects
    else if Hits(n, Teams) then Teams
    else if Hits(n, Development) then Development
    else Others
  }

  /** A group room gets the first keyword group, in the fixed order, that its name hits, and
      `Others` when none does. */
  lemma DetailedIsFirstHit(room: Room)
    requires TypeOf(room) != "direct" && TypeOf(room) != "my"
    ensures DetailedCategory(room) == FirstHit(LoweredName(room), DetailedOrder, 0).GetOr(Others)
  {
    var n := LoweredName(room);
    var d := DetailedOrder;
    assert d[0] == Client && d[1] == Projects && d[2] == Teams;
    assert d[3] == Meetings && d[4] == Development && d[5] == Announcements;
    assert FirstHit(n, d, 5) == if Hits(n, Announcements) then Some(Announcements) else FirstHit(n, d, 6);
    assert FirstHit(n, d, 4) == if Hits(n, Development) then Some(Development) else FirstHit(n, d, 5);
    assert FirstHit(n, d, 3) == if Hits(n, Meetings) then Some(Meetings) else FirstHit(n, d, 4);
    assert FirstHit(n, d, 2) == if Hits(n, Teams) then Some(Teams) else FirstHit(n, d, 3);
    assert FirstHit(n, d, 1) == if Hits(n, Projects) then Some(Projects) else FirstHit(n, d, 2);
    assert FirstHit(n, d, 0) == if Hits(n, Client) then Some(Client) else FirstHit(n, d, 1);
    assert FirstHit(n, d, 6) == None;
  }

  lemma BasicIsFirstHit(room: Room)
    requires TypeOf(room) != "direct" && TypeOf(room) != "my"
    ensures BasicCategory(room) == FirstHit(LoweredName(room), BasicOrder, 0).GetOr(Others)
  {
    var n := LoweredName(room);
    var b := BasicOrder;
    assert b[0] == Client && b[1] == Projects && b[2] == Teams && b[3] == Development;
    assert FirstHit(n, b, 3) == if Hits(n, Development) then Some(Development) else FirstHit(n, b, 4);
    assert FirstHit(n, b, 2) == if Hits(n, Teams) then Some(Teams) else FirstHit(n, b, 3);
    assert FirstHit(n, b, 1) == if Hits(n, Projects) then Some(Projects) else FirstHit(n, b, 2);
    assert FirstHit(n, b, 0) == if Hits(n, Client) then Some(Client) else FirstHit(n, b, 1);
    assert FirstHit(n, b, 4) == None;
  }

  /** The two variants agree except where the detailed one finds a meeting or announcement
      room: a meeting room is `Development` or `Others` for the basic one, an announcement room
      is `Others`. */
  lemma BasicVersusDetailed(room: Room)
    ensures DetailedCategory(room) != Meetings && DetailedCategory(room) != Announcements
            ==> BasicCategory(room) == DetailedCategory(room)
    ensures DetailedCategory(room) == Meetings ==> BasicCategory(room) in {Development, Others}
    ensures DetailedCategory(room) == Announcements ==> BasicCategory(room) == Others
  {
  }

  // ---------------------------------------------------------------------------
  // Server side: grouping under the ten keys

  datatype Bucket = Monitored | Of(category: Category)

  /** The dictionary key of each bucket. */
  function BucketKey(b: Bucket): string {
    match b
    case Monitored => "monitored"
    case Of(Direct) => "TO"
    case Of(MyChat) => "my_chat"
    case Of(Client) => "クライアント窓口"
    case Of(Projects) => "projects"
    case Of(Teams) => "teams"
    case Of(Meetings) => "meetings"
    case Of(Development) => "development"
    case Of(Announcements) => "announcements"
    case Of(Others) => "others"
  }

  /** `key in categories`: the bucket a category string names, if any. */
  function ParseBucketKey(s: string): (r: Option<Bucket>)
    ensures r.Some? ==> BucketKey(r.value) == s
  {
    if s == "monitored" then Some(Monitored)
    else if s == "TO" then Some(Of(Direct))
    else if s == "my_chat" then Some(Of(MyChat))
    else if s == "クライアント窓口" then Some(Of(Client))
    else if s == "projects" then Some(Of(Projects))
    else if s == "teams" then Some(Of(Teams))
    else if s == "meetings" then Some(Of(Meetings))
    else if s == "development" then Some(Of(Development))
    else if s == "announcements" then Some(Of(Announcements))
    else if s == "others" then Some(Of(Others))
    else None
  }

  /** Every bucket is found again from its key, so the keys are distinct. */
  lemma BucketKeyRoundTrip(b: Bucket)
    ensures ParseBucketKey(BucketKey(b)) == Some(b)
  {
  }

  /** The bucket of one room in `get_room_categories`: the watched room first, then the category
      the room list attached (`others` when it is missing or not a key). */
  function BucketOf(room: Room): (b: Bucket)
    requires room.roomId.Some?
    ensures b == Monitored <==> room.roomId.value == MonitoredRoomId
                                || room.category == Some("monitored")
  {
    if room.roomId.value == MonitoredRoomId then Monitored
    else ParseBucketKey(room.category.GetOr("others")).GetOr(Of(Others))
  }

  /** The rooms of `rooms` that fall in bucket `b`, in list order. */
  function InBucket(rooms: seq<Room>, b: Bucket): (r: seq<Room>)
    requires forall i :: 0 <= i < |rooms| ==> rooms[i].roomId.Some?
    decreases |rooms|
  {
    if |rooms| == 0 then []
    else
      var last := rooms[|rooms| - 1];
      InBucket(rooms[..|rooms| - 1], b) + (if BucketOf(last) == b then [last] else [])
  }

  /** A bucket holds exactly the rooms of the list that belong to it. */
  lemma {:induction false} InBucketMembers(rooms: seq<Room>, b: Bucket, x: Room)
    requires forall i :: 0 <= i < |rooms| ==> rooms[i].roomId.Some?
    ensures x in InBucket(rooms, b) <==> x in rooms && x.roomId.Some? && BucketOf(x) == b
    decreases |rooms|
  {
    if |rooms| > 0 {
      var init := rooms[..|rooms| - 1];
      assert rooms == init + [rooms[|rooms| - 1]];
      InBucketMembers(init, b, x);
    }
  }

  const AllBuckets: set<Bucket> := {
    Monitored, Of(Direct), Of(Client), Of(Projects), Of(Teams), Of(Meetings),
    Of(Development), Of(Announcements), Of(MyChat), Of(Others)
  }

  /** The sum of the ten bucket sizes. */
  function BucketTotal(rooms: seq<Room>): nat
    requires forall i :: 0 <= i < |rooms| ==> rooms[i].roomId.Some?
  {
    |InBucket(rooms, Monitored)| + |InBucket(rooms, Of(Direct))| + |InBucket(rooms, Of(MyChat))|
    + |InBucket(rooms, Of(Client))| + |InBucket(rooms, Of(Projects))| + |InBucket(rooms, Of(Teams))|
    + |InBucket(rooms, Of(Meetings))| + |InBucket(rooms, Of(Development))|
    + |InBucket(rooms, Of(Announcements))| + |InBucket(rooms, Of(Others))|
  }

  /** Adding one room to the list adds it to exactly one bucket. */
  lemma BucketTotalStep(rooms: seq<Room>)
    requires |rooms| > 0 && forall i :: 0 <= i < |rooms| ==> rooms[i].roomId.Some?
    ensures BucketTotal(rooms) == BucketTotal(rooms[..|rooms| - 1]) + 1
  {
  }

  /** The buckets hold every room exactly once: their sizes add up to the number of rooms. */
  lemma {:induction false} BucketSizes(rooms: seq<Room>)
    requires forall i :: 0 <= i < |rooms| ==> rooms[i].roomId.Some?
    ensures BucketTotal(rooms) == |rooms|
    decreases |rooms|
  {
    if |rooms| > 0 {
      BucketSizes(rooms[..|rooms| - 1]);
      BucketTotalStep(rooms);
    }
  }

  /** `get_room_categories`: the ten buckets, or the empty dictionary when a room lacks its id
      (the `KeyError` is caught and `{}` returned). */
  function RoomCategories(rooms: seq<Room>): (r: map<Bucket, seq<Room>>)
    ensures (forall i :: 0 <= i < |rooms| ==> rooms[i].roomId.Some?) ==> r.Keys == AllBuckets
    ensures (exists i :: 0 <= i < |rooms| && rooms[i].roomId.None?) ==> r == map[]
    ensures forall b :: b in r ==> r[b] == InBucket(rooms, b)
  {
    if forall i :: 0 <= i < |rooms| ==> rooms[i].roomId.Some? then
      map b | b in AllBuckets :: InBucket(rooms, b)
    else map[]
  }

  // ---------------------------------------------------------------------------
  // Dashboard side: the four groups of the room selector

  datatype Group = MonitoredGroup | TestGroup | DirectGroup | GroupChats

  /** `/(テスト|test|AI Manager|ai manager)/i`: JavaScript's case-insensitive matching without the
      `u` flag never maps a non-ASCII letter to an ASCII one, so folding ASCII letters is exact
      for these alternatives. */
  predicate IsTestName(name: string) {
    var n := Lower(name);
    Contains(n, "テスト") || Contains(n, "test") || Contains(n, "ai manager")
  }

  /** A character of the class `[一-龯ぁ-ん\s　]`. */
  predicate IsPersonNameChar(c: char) {
    ('一' <= c <= '龯') || ('ぁ' <= c <= 'ん') || IsJsSpace(c) || c == '　'
  }

  /** `/^[一-龯ぁ-ん\s　]+$/`: a name made only of kanji, hiragana and spaces. */
  predicate IsPersonName(name: string) {
    |name| > 0 && forall i :: 0 <= i < |name| ==> IsPersonNameChar(name[i])
  }

  /** A room the dashboard can classify: `room_id.toString()` and `name.match` need both keys. */
  predicate Listable(room: Room) {
    room.roomId.Some? && room.name.Some?
  }

  /** The group `categorizeRooms` puts a room in: the checks run in this order. */
  function GroupOf(room: Room): (g: Group)
    requires Listable(room)
    ensures g == MonitoredGroup <==> room.roomId.value == MonitoredRoomId
    ensures g == TestGroup <==> room.roomId.value != MonitoredRoomId && IsTestName(room.name.value)
    ensures g == DirectGroup <==> room.roomId.value != MonitoredRoomId && !IsTestName(room.name.value)
                                  && (room.roomType == Some("direct") || IsPersonName(room.name.value))
    ensures g == GroupChats <==> room.roomId.value != MonitoredRoomId && !IsTestName(room.name.value)
                                 && room.roomType != Some("direct") && !IsPersonName(room.name.value)
  {
    if room.roomId.value == MonitoredRoomId then MonitoredGroup
    else if IsTestName(room.name.value) then TestGroup
    else if room.roomType == Some("direct") || IsPersonName(room.name.value) then DirectGroup
    else GroupChats
  }

  /** The rooms of group `g`, in list order. */
  function InGroup(rooms: seq<Room>, g: Group): (r: seq<Room>)
    requires forall i :: 0 <= i < |rooms| ==> Listable(rooms[i])
    decreases |rooms|
  {
    if |rooms| == 0 then []
    else
      var last := rooms[|rooms| - 1];
      InGroup(rooms[..|rooms| - 1], g) + (if GroupOf(last) == g then [last] else [])
  }

  /** A group holds exactly the rooms of the list that belong to it. */
  lemma {:induction false} InGroupMembers(rooms: seq<Room>, g: Group, x: Room)
    requires forall i :: 0 <= i < |rooms| ==> Listable(rooms[i])
    ensures x in InGroup(rooms, g) <==> x in rooms && Listable(x) && GroupOf(x) == g
    decreases |rooms|
  {
    if |rooms| > 0 {
      var init := rooms[..|rooms| - 1];
      assert rooms == init + [rooms[|rooms| - 1]];
      InGroupMembers(init, g, x);
    }
  }

  /** The four groups hold every room exactly once. */
  lemma {:induction false} GroupSizes(rooms: seq<Room>)
    requires forall i :: 0 <= i < |rooms| ==> Listable(rooms[i])
    ensures |InGroup(rooms, MonitoredGroup)| + |InGroup(rooms, TestGroup)| + |InGroup(rooms, DirectGroup)|
          + |InGroup(rooms, GroupChats)| == |rooms|
    decreases |rooms|
  {
    if |rooms| > 0 {
      GroupSizes(rooms[..|rooms| - 1]);
    }
  }

  lemma InGroupStep(rooms: seq<Room>, i: nat, g: Group)
    requires i < |rooms| && forall k :: 0 <= k < |rooms| ==> Listable(rooms[k])
    ensures InGroup(rooms[..i + 1], g) == InGroup(rooms[..i], g) + (if GroupOf(rooms[i]) == g then [rooms[i]] else [])
  {
    assert rooms[..i + 1][..i] == rooms[..i];
  }

  datatype Categorized = Categorized(monitored: seq<Room>, groups: seq<Room>, direct: seq<Room>,
                                     test: seq<Room>)

  /** `categorizeRooms`: one pass over the list pushing each room onto its group's array. */
  method CategorizeRooms(rooms: seq<Room>) returns (c: Categorized)
    requires forall i :: 0 <= i < |rooms| ==> Listable(rooms[i])
    ensures c.monitored == InGroup(rooms, MonitoredGroup) && c.test == InGroup(rooms, TestGroup)
    ensures c.direct == InGroup(rooms, DirectGroup) && c.groups == InGroup(rooms, GroupChats)
    ensures |c.monitored| + |c.test| + |c.direct| + |c.groups| == |rooms|
  {
    c := Categorized([], [], [], []);
    var i := 0;
    while i < |rooms|
      invariant i <= |rooms|
      invariant c.monitored == InGroup(rooms[..i], MonitoredGroup) && c.test == InGroup(rooms[..i], TestGroup)
      invariant c.direct == InGroup(rooms[..i], DirectGroup) && c.groups == InGroup(rooms[..i], GroupChats)
    {
      var room := rooms[i];
      InGroupStep(rooms, i, MonitoredGroup);
      InGroupStep(rooms, i, TestGroup);
      InGroupStep(rooms, i, DirectGroup);
      InGroupStep(rooms, i, GroupChats);
      match GroupOf(room) {
        case MonitoredGroup => c := c.(monitored := c.monitored + [room]);
        case TestGroup => c := c.(test := c.test + [room]);
        case DirectGroup => c := c.(direct := c.direct + [room]);
        case GroupChats => c := c.(groups := c.groups + [room]);
      }
      i := i + 1;
    }
    assert rooms[..i] == rooms;
    GroupSizes(rooms);
  }
}

=== FILE: settings.dfy ===
/** Start-up settings: the `.env` file's line rule, the monitored-room list read from
    `MONITORED_ROOMS`, and the checks that a token and at least one room are configured.
    The process environment is a map from variable names to values. */
module Settings {
  import opened Base
  import opened Text

  const TokenVar := "CHATWORK_API_TOKEN"
  const RoomsVar := "MONITORED_ROOMS"
  const TokenRequired := "CHATWORK_API_TOKEN is required"
  const RoomsRequired := "MONITORED_ROOMS is required"
  /** The message of Python's ValueError when `key, value = line.split('=', 1)` finds no `=`. */
  const UnpackError := "not enough values to unpack (expected 2, got 1)"

  // ---------------------------------------------------------------------------
  // The .env file

  /** What one `.env` line does: nothing, or set one variable. */
  datatype EnvLine = Skipped | Assign(key: string, value: string)

  /** The position of the first `=` at or after `i`. */
  function FindEquals(t: string, i: nat): (r: Option<nat>)
    requires i <= |t|
    ensures r.Some? ==> i <= r.value < |t| && t[r.value] == '='
    ensures r.Some? ==> forall j :: i <= j < r.value ==> t[j] != '='
    ensures r.None? ==> forall j :: i <= j < |t| ==> t[j] != '='
    decreases |t| - i
  {
    if i == |t| then None
    else if t[i] == '=' then Some(i)
    else FindEquals(t, i + 1)
  }

  /** A line is stripped; an empty line or a comment is skipped; otherwise it is cut at its
      FIRST `=`, so the key holds no `=` while the value may, and a line without `=` raises. */
  function ParseEnvLine(line: string): (r: Result<EnvLine, string>)
    ensures r.Ok? && r.value.Skipped? <==> Strip(line) == "" || StartsWith(Strip(line), "#")
    ensures r.Err? <==> Strip(line) != "" && !StartsWith(Strip(line), "#") && '=' !in Strip(line)
    ensures r.Err? ==> r.error == UnpackError
    ensures r.Ok? && r.value.Assign? ==>
              Strip(line) == r.value.key + "=" + r.value.value && '=' !in r.value.key
  {
    var t := Strip(line);
    if t == "" || StartsWith(t, "#") then Ok(Skipped)
    else
      match FindEquals(t, 0)
      case None => Err(UnpackError)
      case Some(k) =>
        assert t == t[..k] + [t[k]] + t[k + 1..];
        assert forall j :: 0 <= j < k ==> t[..k][j] != '=';
        Ok(Assign(t[..k], t[k + 1..]))
  }

  /** Writing `key=value` on a line that has no surrounding blanks, whose key has no `=` and
      does not start a comment, reads back as exactly that assignment. */
  lemma EnvLineRoundTrip(key: string, value: string)
    requires '=' !in key
    requires key == "" || (key[0] != '#' && !IsPySpace(key[0]))
    requires value == "" || !IsPySpace(value[|value| - 1])
    ensures ParseEnvLine(key + "=" + value) == Ok(Assign(key, value))
  {
    var line := key + "=" + value;
    assert line[|key|] == '=';
    assert line[0] == (if key == "" then '=' else key[0]);
    assert line[|line| - 1] == (if value == "" then '=' else value[|value| - 1]);
    StripKeeps(line);
    assert !StartsWith(line, "#") by { assert line[..1] == [line[0]]; }
    var r := ParseEnvLine(line);
    assert r.Ok? && r.value.Assign?;
    var k2, v2 := r.value.key, r.value.value;
    SplitAtFirst(key, value, k2, v2);
  }

  /** Two ways of writing a string as `key + "=" + value` with no `=` in the key agree. */
  lemma SplitAtFirst(k1: string, v1: string, k2: string, v2: string)
    requires '=' !in k1 && '=' !in k2
    requires k1 + "=" + v1 == k2 + "=" + v2
    ensures k1 == k2 && v1 == v2
  {
    var s := k1 + "=" + v1;
    FirstEquals(s, k1, v1);
    FirstEquals(s, k2, v2);
    assert |k1| == |k2|;
    assert k1 == s[..|k1|] == k2;
    assert v1 == s[|k1| + 1..] == v2;
  }

  /** In `key + "=" + value` with no `=` in the key, the first `=` sits right after the key. */
  lemma FirstEquals(s: string, k: string, v: string)
    requires '=' !in k && s == k + "=" + v
    ensures s[|k|] == '=' && forall j :: 0 <= j < |k| ==> s[j] != '='
  {
    assert forall j :: 0 <= j < |k| ==> s[j] == k[j];
  }

  /** Every line of the file, parsed; the first line that cannot be unpacked aborts. */
  function ParseLines(lines: seq<string>): (r: Result<seq<EnvLine>, string>)
    ensures r.Err? <==> exists i :: 0 <= i < |lines| && ParseEnvLine(lines[i]).Err?
    ensures r.Ok? ==> |r.value| == |lines| && forall i :: 0 <= i < |lines| ==> ParseEnvLine(lines[i]) == Ok(r.value[i])
    decreases |lines|
  {
    if |lines| == 0 then Ok([])
    else
      var rest := lines[1..];
      assert forall i :: 0 <= i < |rest| ==> rest[i] == lines[i + 1];
      match ParseEnvLine(lines[0])
      case Err(e) => Err(e)
      case Ok(e) =>
        var tail := ParseLines(rest);
        if tail.Err? then tail else Ok([e] + tail.value)
  }

  /** The line sets variable `k`. */
  predicate Sets(e: EnvLine, k: string) {
    e.Assign? && e.key == k
  }

  /** Carrying out the parsed lines in order: a later assignment of the same key overwrites an
      earlier one, and variables no line assigns keep their values. */
  function Apply(env: map<string, string>, es: seq<EnvLine>): (r: map<string, string>)
    ensures forall k :: k in r <==> (k in env || exists i :: 0 <= i < |es| && Sets(es[i], k))
    ensures forall k :: (k in env && forall i :: 0 <= i < |es| ==> !Sets(es[i], k)) ==> r[k] == env[k]
    decreases |es|
  {
    if |es| == 0 then env
    else
      var rest := es[1..];
      assert forall i :: 0 <= i < |rest| ==> rest[i] == es[i + 1];
      match es[0]
      case Skipped => Apply(env, rest)
      case Assign(k, v) => Apply(env[k := v], rest)
  }

  /** The value a variable ends up with is the one its last assigning line gives. */
  lemma {:induction false} LastAssignmentWins(env: map<string, string>, es: seq<EnvLine>, i: nat, k: string)
    requires i < |es| && Sets(es[i], k)
    requires forall j :: i < j < |es| ==> !Sets(es[j], k)
    ensures k in Apply(env, es) && Apply(env, es)[k] == es[i].value
    decreases |es|
  {
    var rest := es[1..];
    var env1 := if es[0].Assign? then env[es[0].key := es[0].value] else env;
    assert Apply(env, es) == Apply(env1, rest);
    if i == 0 {
      assert forall j :: 0 <= j < |rest| ==> !Sets(rest[j], k) by {
        forall j | 0 <= j < |rest| ensures !Sets(rest[j], k) {
          assert rest[j] == es[j + 1];
        }
      }
    } else {
      assert rest[i - 1] == es[i];
      assert forall j :: i - 1 < j < |rest| ==> !Sets(rest[j], k) by {
        forall j | i - 1 < j < |rest| ensures !Sets(rest[j], k) {
          assert rest[j] == es[j + 1];
        }
      }
      LastAssignmentWins(env1, rest, i - 1, k);
    }
  }

  /** Loading the `.env` file into the environment: parse every line, then assign in order. */
  function LoadEnv(env: map<string, string>, lines: seq<string>): (r: Result<map<string, string>, string>)
    ensures r.Err? <==> exists i :: 0 <= i < |lines| && ParseEnvLine(lines[i]).Err?
    ensures r.Ok? ==> r.value == Apply(env, ParseLines(lines).value)
  {
    match ParseLines(lines)
    case Err(e) => Err(e)
    case Ok(es) => Ok(Apply(env, es))
  }

  // ---------------------------------------------------------------------------
  // The room list

  /** `[room.strip() for room in rooms_str.split(",")]` for a non-empty value, `[]` for an
      empty or missing one. Empty pieces are kept. */
  function RoomsFromEnv(s: string): (r: seq<string>)
    ensures s == "" <==> r == []
    ensures s != "" ==> |r| == CountIn(s, {','}) + 1
    ensures forall i :: 0 <= i < |r| ==> ',' !in r[i]
    ensures forall i :: 0 <= i < |r| ==> r[i] == "" || (!IsPySpace(r[i][0]) && !IsPySpace(r[i][|r[i]| - 1]))
    ensures s != "" ==> forall i :: 0 <= i < |r| ==> r[i] == Strip(SplitAny(s, {','})[i])
  {
    if s == "" then []
    else
      var ps := SplitAny(s, {','});
      var r := seq(|ps|, i requires 0 <= i < |ps| => Strip(ps[i]));
      assert forall i :: 0 <= i < |r| ==> ',' !in r[i] by {
        forall i | 0 <= i < |r| ensures ',' !in r[i] {
          var a := StripStart(ps[i]);
          forall k | 0 <= k < |r[i]| ensures r[i][k] != ',' {
            assert r[i][k] == ps[i][a + k];
          }
        }
      }
      r
  }

  /** A comma ends the first room: it is the stripped text before the comma, and the rooms of
      the rest follow. */
  lemma RoomsAcrossComma(a: string, b: string)
    requires ',' !in a && b != ""
    ensures RoomsFromEnv(a + "," + b) == [Strip(a)] + RoomsFromEnv(b)
  {
    SplitAnyWhole(a, {','});
    SplitAnyAt(a, ',', b, {','});
    assert a + [','] + b == a + "," + b;
    var l := RoomsFromEnv(a + "," + b);
    var r := [Strip(a)] + RoomsFromEnv(b);
    assert |l| == |r|;
    forall i | 0 <= i < |l| ensures l[i] == r[i] {
      if i > 0 {
        assert SplitAny(a + "," + b, {','})[i] == SplitAny(b, {','})[i - 1];
      }
    }
  }

  /** The last room is the stripped text after the last comma. */
  lemma RoomsOfOne(a: string)
    requires ',' !in a && a != ""
    ensures RoomsFromEnv(a) == [Strip(a)]
  {
    SplitAnyWhole(a, {','});
  }

  /** When no piece carries blanks around it, joining the rooms with `,` gives the variable back. */
  lemma RoomsRoundTrip(s: string)
    requires s != ""
    requires forall p :: p in SplitAny(s, {','}) ==> p == "" || (!IsPySpace(p[0]) && !IsPySpace(p[|p| - 1]))
    ensures Join(RoomsFromEnv(s), ",") == s
  {
    var ps := SplitAny(s, {','});
    forall i | 0 <= i < |ps| ensures RoomsFromEnv(s)[i] == ps[i] {
      StripKeeps(ps[i]);
    }
    assert RoomsFromEnv(s) == ps;
    JoinSplit(s, ',');
  }

  /** A value of only blanks and commas still yields rooms, each the empty string. */
  lemma BlankRoomsAreKept(s: string)
    requires s != "" && forall k :: 0 <= k < |s| ==> s[k] == ',' || IsPySpace(s[k])
    ensures RoomsFromEnv(s) != []
    ensures forall i :: 0 <= i < |RoomsFromEnv(s)| ==> RoomsFromEnv(s)[i] == ""
  {
    var ps := SplitAny(s, {','});
    forall i | 0 <= i < |ps| ensures Strip(ps[i]) == "" {
      BlankPiece(s, i);
      StripBlank(ps[i]);
    }
  }

  /** Every piece of a value made of blanks and commas is blank. */
  lemma BlankPiece(s: string, i: nat)
    requires forall k :: 0 <= k < |s| ==> s[k] == ',' || IsPySpace(s[k])
    requires i < |SplitAny(s, {','})|
    ensures AllPySpace(SplitAny(s, {','})[i])
  {
    var ps := SplitAny(s, {','});
    var p := ps[i];
    forall k | 0 <= k < |p| ensures IsPySpace(p[k]) {
      PieceCharFromSource(s, i, k);
    }
  }

  /** Every character of a piece comes from the string that was split. */
  lemma {:induction false} PieceCharFromSource(s: string, i: nat, k: nat)
    requires i < |SplitAny(s, {','})| && k < |SplitAny(s, {','})[i]|
    ensures SplitAny(s, {','})[i][k] in s
    decreases |s|
  {
    if |s| > 0 {
      var rest := SplitAny(s[1..], {','});
      if s[0] == ',' {
        assert SplitAny(s, {','}) == [""] + rest;
        PieceCharFromSource(s[1..], i - 1, k);
      } else {
        assert SplitAny(s, {','}) == [[s[0]] + rest[0]] + rest[1..];
        if i == 0 && k == 0 {
        } else if i == 0 {
          PieceCharFromSource(s[1..], 0, k - 1);
        } else {
          PieceCharFromSource(s[1..], i, k);
        }
        assert s[1..] <= s[1..] && forall c :: c in s[1..] ==> c in s;
      }
    }
  }

  /** Stripping a string of blanks leaves nothing. */
  lemma StripBlank(p: string)
    requires AllPySpace(p)
    ensures Strip(p) == ""
  {
    var a := StripStart(p);
    assert a == |p|;
  }

  // ---------------------------------------------------------------------------
  // Validation

  /** `Config` with the two fields its start-up checks look at. */
  datatype Config = Config(token: string, rooms: seq<string>)

  /** The room list `__post_init__` settles on: an explicitly given list is kept, otherwise
      the environment's `MONITORED_ROOMS` is read. */
  function RoomList(given: Option<seq<string>>, env: map<string, string>): (r: seq<string>)
    ensures given.Some? ==> r == given.value
    ensures given.None? && RoomsVar !in env ==> r == []
  {
    match given
    case Some(rooms) => rooms
    case None => RoomsFromEnv(if RoomsVar in env then env[RoomsVar] else "")
  }

  /** `Config.__post_init__`: the token is checked first, then the room list. */
  function PostInit(token: string, given: Option<seq<string>>, env: map<string, string>): (r: Result<Config, string>)
    ensures r.Ok? <==> token != "" && RoomList(given, env) != []
    ensures token == "" ==> r == Err(TokenRequired)
    ensures token != "" && RoomList(given, env) == [] ==> r == Err(RoomsRequired)
    ensures r.Ok? ==> r.value.token == token && r.value.rooms == RoomList(given, env)
  {
    var rooms := RoomList(given, env);
    if token == "" then Err(TokenRequired)
    else if rooms == [] then Err(RoomsRequired)
    else Ok(Config(token, rooms))
  }

  /** `Config()` with every field from the environment (the token default is read from it).
      It is accepted exactly when both variables are set to non-empty values; a missing token
      is reported even when the rooms are missing too. */
  function FromEnvironment(env: map<string, string>): (r: Result<Config, string>)
    ensures r.Ok? <==> TokenVar in env && env[TokenVar] != "" && RoomsVar in env && env[RoomsVar] != ""
    ensures (TokenVar !in env || env[TokenVar] == "") ==> r == Err(TokenRequired)
    ensures (TokenVar in env && env[TokenVar] != "" && (RoomsVar !in env || env[RoomsVar] == ""))
              ==> r == Err(RoomsRequired)
    ensures r.Ok? ==> r.value.token == env[TokenVar] && r.value.rooms == RoomsFromEnv(env[RoomsVar])
  {
    PostInit(if TokenVar in env then env[TokenVar] else "", None, env)
  }

  /** A `MONITORED_ROOMS` of only blanks and commas passes validation with empty room ids. */
  lemma BlankRoomsPassValidation(env: map<string, string>)
    requires TokenVar in env && env[TokenVar] != ""
    requires RoomsVar in env && env[RoomsVar] != ""
    requires forall k :: 0 <= k < |env[RoomsVar]| ==> env[RoomsVar][k] == ',' || IsPySpace(env[RoomsVar][k])
    ensures FromEnvironment(env).Ok?
    ensures forall i :: 0 <= i < |FromEnvironment(env).value.rooms| ==> FromEnvironment(env).value.rooms[i] == ""
  {
    BlankRoomsAreKept(env[RoomsVar]);
  }
}

=== FILE: text.dfy ===
/** String helpers with the semantics of the Python and JavaScript built-ins the system uses:
    substring search (`in`, `includes`), `str.replace`, `str.lower`, `str.strip`, `str.split`,
    decimal conversion, Python string ordering and Python slicing. */
module Text {
  import opened Base

  // ---------------------------------------------------------------------------
  // Prefixes, suffixes and occurrences

  predicate StartsWith(s: string, p: string) {
    |p| <= |s| && s[..|p|] == p
  }

  predicate EndsWith(s: string, p: string) {
    |p| <= |s| && s[|s| - |p|..] == p
  }

  /** `p` occurs in `s` starting at index `k`. */
  predicate OccursAt(s: string, p: string, k: int) {
    0 <= k <= |s| && StartsWith(s[k..], p)
  }

  /** Python's `p in s`, JavaScript's `s.includes(p)`. */
  predicate Contains(s: string, p: string) {
    exists k :: 0 <= k <= |s| && OccursAt(s, p, k)
  }

  lemma OccursShift(s: string, p: string, k: int)
    requires |s| > 0 && 0 <= k
    ensures OccursAt(s[1..], p, k) <==> OccursAt(s, p, k + 1)
  {
    if k <= |s| - 1 {
      assert s[1..][k..] == s[k + 1..];
    }
  }

  lemma OccursDrop(s: string, p: string, n: nat, k: int)
    requires n <= |s| && 0 <= k
    ensures OccursAt(s[n..], p, k) <==> OccursAt(s, p, k + n)
  {
    if k <= |s| - n {
      assert s[n..][k..] == s[k + n..];
    }
  }

  /** A substring found in a suffix is found in the whole string. */
  lemma ContainsSuffix(s: string, p: string, n: nat)
    requires n <= |s| && Contains(s[n..], p)
    ensures Contains(s, p)
  {
    var k :| 0 <= k <= |s[n..]| && OccursAt(s[n..], p, k);
    OccursDrop(s, p, n, k);
  }

  /** Containment unfolds one character at a time. */
  lemma ContainsUnfold(s: string, p: string)
    requires |s| > 0
    ensures Contains(s, p) <==> StartsWith(s, p) || Contains(s[1..], p)
  {
    if Contains(s, p) && !StartsWith(s, p) {
      var k :| 0 <= k <= |s| && OccursAt(s, p, k);
      assert k != 0;
      OccursShift(s, p, k - 1);
    }
    if StartsWith(s, p) {
      assert OccursAt(s, p, 0);
    }
    if Contains(s[1..], p) {
      ContainsSuffix(s, p, 1);
    }
  }

  /** An occurrence in `a + b` of a pattern whose first character `a` lacks lies within `b`. */
  lemma ContainsAppendHead(a: string, b: string, p: string)
    requires |p| > 0 && p[0] !in a && !Contains(b, p)
    ensures !Contains(a + b, p)
  {
    forall k | 0 <= k <= |a + b| ensures !OccursAt(a + b, p, k) {
      if k < |a| {
        assert (a + b)[k..][0] == a[k];
      } else {
        OccursDrop(a + b, p, |a|, k - |a|);
        assert (a + b)[|a|..] == b;
      }
    }
  }

  /** A pattern whose first character does not occur in `s` does not occur in `s`. */
  lemma AbsentHead(s: string, p: string)
    requires |p| > 0 && p[0] !in s
    ensures !Contains(s, p)
  {
    ContainsAppendHead(s, "", p);
    assert s + "" == s;
  }

  /** Containment in `[c] + rest` is a match at the front or one in `rest`. */
  lemma ContainsCons(c: char, rest: string, p: string)
    requires !StartsWith([c] + rest, p) && !Contains(rest, p)
    ensures !Contains([c] + rest, p)
  {
    ContainsUnfold([c] + rest, p);
    assert ([c] + rest)[1..] == rest;
  }

  lemma AppendAssoc(a: string, b: string, c: string)
    ensures a + (b + c) == a + b + c
  {
  }

  lemma DropAppend(a: string, b: string, k: nat)
    requires |a| <= k <= |a| + |b|
    ensures (a + b)[k..] == b[k - |a|..]
  {
  }

  /** Inside a prefix free of `[`, no suffix of `a + b` starts with `[`. */
  lemma NoBracketAt(a: string, b: string, k: nat)
    requires k < |a| && '[' !in a
    ensures |(a + b)[k..]| > 0 && (a + b)[k..][0] != '['
  {
    assert (a + b)[k..][0] == a[k];
  }

  /** Index of the first occurrence of `p` in `s` (JavaScript `indexOf`, Python `find`). */
  function IndexOf(s: string, p: string): (r: Option<nat>)
    ensures r.Some? ==> OccursAt(s, p, r.value)
    ensures r.Some? ==> forall k :: 0 <= k < r.value ==> !OccursAt(s, p, k)
    ensures r.None? <==> !Contains(s, p)
    decreases |s|
  {
    if StartsWith(s, p) then
      assert OccursAt(s, p, 0);
      Some(0)
    else if |s| == 0 then
      assert forall k :: 0 <= k <= |s| && OccursAt(s, p, k) ==> k == 0;
      None
    else
      var rest := IndexOf(s[1..], p);
      ContainsUnfold(s, p);
      match rest
      case Some(j) =>
        OccursShift(s, p, j);
        forall k | 0 < k < j + 1 ensures !OccursAt(s, p, k) {
          OccursShift(s, p, k - 1);
        }
        Some(j + 1)
      case None => None
  }

  /** The first occurrence of a character is where it follows a prefix without it. */
  lemma IndexOfChar(a: string, c: char, b: string)
    requires c !in a
    ensures IndexOf(a + [c] + b, [c]) == Some(|a|)
  {
    var s := a + [c] + b;
    assert OccursAt(s, [c], |a|) by { assert s[|a|..][..1] == [c]; }
    forall k | 0 <= k < |a| ensures !OccursAt(s, [c], k) {
      assert s[k] == a[k];
    }
  }

  // ---------------------------------------------------------------------------
  // Replacement of every non-overlapping occurrence, scanning left to right

  /** Python `s.replace(pat, rep)` and JavaScript `s.replace(/pat/g, rep)` for a literal pattern. */
  function ReplaceAll(s: string, pat: string, rep: string): string
    requires |pat| > 0
    decreases |s|
  {
    if |s| == 0 then ""
    else if StartsWith(s, pat) then rep + ReplaceAll(s[|pat|..], pat, rep)
    else [s[0]] + ReplaceAll(s[1..], pat, rep)
  }

  /** An occurrence at the front is replaced and the scan resumes after it. */
  lemma ReplaceHit(pat: string, s: string, rep: string)
    requires |pat| > 0
    ensures ReplaceAll(pat + s, pat, rep) == rep + ReplaceAll(s, pat, rep)
  {
    assert StartsWith(pat + s, pat) && (pat + s)[|pat|..] == s;
  }

  /** A string that differs from the pattern at some position does not start with it. */
  lemma MismatchAt(t: string, pat: string, k: nat)
    requires k < |pat| <= |t| && t[k] != pat[k]
    ensures !StartsWith(t, pat)
  {
    assert t[..|pat|][k] == t[k];
  }

  /** Without an occurrence of the pattern nothing is replaced. */
  lemma {:induction false} ReplaceAllAbsent(s: string, pat: string, rep: string)
    requires |pat| > 0 && !Contains(s, pat)
    ensures ReplaceAll(s, pat, rep) == s
    decreases |s|
  {
    if |s| > 0 {
      ContainsUnfold(s, pat);
      ReplaceAllAbsent(s[1..], pat, rep);
    }
  }

  /** Replacing a single character by text that does not contain it removes it everywhere. */
  lemma {:induction false} ReplaceCharRemoves(s: string, c: char, rep: string)
    requires c !in rep
    ensures c !in ReplaceAll(s, [c], rep)
    decreases |s|
  {
    if |s| > 0 {
      if StartsWith(s, [c]) {
        ReplaceCharRemoves(s[1..], c, rep);
      } else {
        assert s[0] != c by { assert s[..1] == [s[0]]; }
        ReplaceCharRemoves(s[1..], c, rep);
      }
    }
  }

  /** A prefix free of the replaced character is kept as it is. */
  lemma {:induction false} ReplaceCharAppend(a: string, b: string, c: char, rep: string)
    requires c !in a
    ensures ReplaceAll(a + b, [c], rep) == a + ReplaceAll(b, [c], rep)
    decreases |a|
  {
    if |a| > 0 {
      assert !StartsWith(a + b, [c]) by { assert (a + b)[0] == a[0]; }
      assert (a + b)[1..] == a[1..] + b;
      ReplaceCharAppend(a[1..], b, c, rep);
      assert a == [a[0]] + a[1..];
    } else {
      assert a + b == b;
    }
  }

  // ---------------------------------------------------------------------------
  // Case and whitespace

  function LowerChar(c: char): char {
    if 'A' <= c <= 'Z' then (c as int + 32) as char else c
  }

  /** Python `str.lower()` / JavaScript case folding restricted to ASCII letters (the only
      letters with case in the keyword lists the system searches for). */
  function Lower(s: string): (r: string)
    ensures |r| == |s|
    ensures forall i :: 0 <= i < |s| ==> r[i] == LowerChar(s[i])
  {
    seq(|s|, i requires 0 <= i < |s| => LowerChar(s[i]))
  }

  /** Whitespace according to Python's `str.isspace` (used by `str.strip`). */
  predicate IsPySpace(c: char) {
    || c == ' ' || ('\t' <= c <= '\r') || ('\U{1C}' <= c <= '\U{1F}')
    || c == '\U{85}' || c == '\U{A0}' || c == '\U{1680}' || ('\U{2000}' <= c <= '\U{200A}')
    || c == '\U{2028}' || c == '\U{2029}' || c == '\U{202F}' || c == '\U{205F}' || c == '\U{3000}'
  }

  /** Whitespace according to JavaScript's regular-expression class `\s`. */
  predicate IsJsSpace(c: char) {
    || c == ' ' || ('\t' <= c <= '\r') || c == '\U{A0}' || c == '\U{1680}'
    || ('\U{2000}' <= c <= '\U{200A}') || c == '\U{2028}' || c == '\U{2029}'
    || c == '\U{202F}' || c == '\U{205F}' || c == '\U{3000}' || c == '\U{FEFF}'
  }

  /** The characters JavaScript's `.` refuses to match without the `s` flag. */
  predicate IsJsLineTerminator(c: char) {
    c == '\n' || c == '\r' || c == '\U{2028}' || c == '\U{2029}'
  }

  predicate AllPySpace(s: string) {
    forall k :: 0 <= k < |s| ==> IsPySpace(s[k])
  }

  function SkipSpaces(s: string, i: nat): (r: nat)
    requires i <= |s|
    ensures i <= r <= |s|
    ensures forall k :: i <= k < r ==> IsPySpace(s[k])
    ensures r < |s| ==> !IsPySpace(s[r])
    decreases |s| - i
  {
    if i < |s| && IsPySpace(s[i]) then SkipSpaces(s, i + 1) else i
  }

  function SkipSpacesBack(s: string, lo: nat, j: nat): (r: nat)
    requires lo <= j <= |s|
    ensures lo <= r <= j
    ensures forall k :: r <= k < j ==> IsPySpace(s[k])
    ensures r > lo ==> !IsPySpace(s[r - 1])
    decreases j - lo
  {
    if lo < j && IsPySpace(s[j - 1]) then SkipSpacesBack(s, lo, j - 1) else j
  }

  /** Where `str.strip()` cuts the leading whitespace. */
  function StripStart(s: string): (a: nat)
    ensures a <= |s| && AllPySpace(s[..a])
    ensures a < |s| ==> !IsPySpace(s[a])
  {
    var a := SkipSpaces(s, 0);
    assert AllPySpace(s[..a]);
    a
  }

  /** Python `str.strip()`: the result is the part of `s` after the leading whitespace, followed
      by whitespace only, and it neither starts nor ends with whitespace. */
  function Strip(s: string): (r: string)
    ensures StripStart(s) + |r| <= |s| && s[StripStart(s)..StripStart(s) + |r|] == r
    ensures AllPySpace(s[StripStart(s) + |r|..])
    ensures r == "" || (!IsPySpace(r[0]) && !IsPySpace(r[|r| - 1]))
  {
    var a := StripStart(s);
    var b := SkipSpacesBack(s, a, |s|);
    assert AllPySpace(s[b..]);
    s[a..b]
  }

  /** Stripping text that neither starts nor ends with whitespace changes nothing. */
  lemma StripKeeps(s: string)
    requires s == "" || (!IsPySpace(s[0]) && !IsPySpace(s[|s| - 1]))
    ensures Strip(s) == s
  {
    var r := Strip(s);
    if s != "" {
      assert StripStart(s) == 0;
      SpacesToEnd(s, |r|);
    }
  }

  /** Stripping leaves nothing exactly when the text is whitespace only. */
  lemma StripEmpty(s: string)
    ensures Strip(s) == "" <==> AllPySpace(s)
  {
    var a := StripStart(s);
    if Strip(s) == "" {
      assert AllPySpace(s[a..]);
      if a < |s| {
        assert false;
      }
      forall k | 0 <= k < |s| ensures IsPySpace(s[k]) {
        assert s[..a][k] == s[k];
      }
    }
  }

  lemma SpacesToEnd(s: string, i: nat)
    requires 0 < |s| && i <= |s| && AllPySpace(s[i..])
    ensures i == |s| || IsPySpace(s[|s| - 1])
  {
    if i < |s| {
      assert s[i..][|s| - 1 - i] == s[|s| - 1];
    }
  }

  lemma {:induction false} SkipSpacesCons(c: char, s: string, i: nat)
    requires i <= |s|
    ensures SkipSpaces([c] + s, i + 1) == SkipSpaces(s, i) + 1
    decreases |s| - i
  {
    if i < |s| && IsPySpace(s[i]) {
      assert ([c] + s)[i + 1] == s[i];
      SkipSpacesCons(c, s, i + 1);
    } else if i < |s| {
      assert ([c] + s)[i + 1] == s[i];
    }
  }

  lemma {:induction false} SkipSpacesBackCons(c: char, s: string, lo: nat, j: nat)
    requires lo <= j <= |s|
    ensures SkipSpacesBack([c] + s, lo + 1, j + 1) == SkipSpacesBack(s, lo, j) + 1
    decreases j - lo
  {
    if lo < j {
      assert ([c] + s)[j] == s[j - 1];
      if IsPySpace(s[j - 1]) {
        SkipSpacesBackCons(c, s, lo, j - 1);
      }
    }
  }

  lemma StripStartCons(c: char, s: string)
    requires IsPySpace(c)
    ensures StripStart([c] + s) == StripStart(s) + 1
  {
    SkipSpacesCons(c, s, 0);
  }

  lemma SliceCons(c: char, s: string, a: nat, b: nat)
    requires a <= b <= |s|
    ensures ([c] + s)[a + 1..b + 1] == s[a..b]
  {
  }

  /** A leading whitespace character makes no difference to `str.strip()`. */
  lemma StripLeadingSpace(c: char, s: string)
    requires IsPySpace(c)
    ensures Strip([c] + s) == Strip(s)
  {
    StripStartCons(c, s);
    var a := StripStart(s);
    SkipSpacesBackCons(c, s, a, |s|);
    SliceCons(c, s, a, SkipSpacesBack(s, a, |s|));
  }

  /** Stripping twice is stripping once. */
  lemma StripIdempotent(s: string)
    ensures Strip(Strip(s)) == Strip(s)
  {
    StripKeeps(Strip(s));
  }

  // ---------------------------------------------------------------------------
  // Splitting and joining

  function CountIn(s: string, seps: set<char>): nat
    decreases |s|
  {
    if |s| == 0 then 0 else (if s[0] in seps then 1 else 0) + CountIn(s[1..], seps)
  }

  /** Python `s.split(c)` for one separator and `re.split('[..]', s)` for a character class:
      one piece more than there are separators, and no piece holds a separator. */
  function SplitAny(s: string, seps: set<char>): (r: seq<string>)
    ensures |r| == CountIn(s, seps) + 1
    ensures forall i, k :: 0 <= i < |r| && 0 <= k < |r[i]| ==> r[i][k] !in seps
    decreases |s|
  {
    if |s| == 0 then [""]
    else
      var rest := SplitAny(s[1..], seps);
      if s[0] in seps then [""] + rest
      else
        var head := [s[0]] + rest[0];
        assert forall k :: 0 < k < |head| ==> head[k] == rest[0][k - 1];
        [head] + rest[1..]
  }

  /** A separator cuts the split in two: the pieces before it, then the pieces after it. */
  lemma {:induction false} SplitAnyAt(a: string, c: char, b: string, seps: set<char>)
    requires c in seps
    ensures SplitAny(a + [c] + b, seps) == SplitAny(a, seps) + SplitAny(b, seps)
    decreases |a|
  {
    var s := a + [c] + b;
    if |a| == 0 {
      assert s == [c] + b && s[1..] == b;
    } else {
      assert s[0] == a[0] && s[1..] == a[1..] + [c] + b;
      SplitAnyAt(a[1..], c, b, seps);
    }
  }

  /** A text without separators is one piece. */
  lemma {:induction false} SplitAnyWhole(s: string, seps: set<char>)
    requires forall i :: 0 <= i < |s| ==> s[i] !in seps
    ensures SplitAny(s, seps) == [s]
    decreases |s|
  {
    if |s| > 0 {
      SplitAnyWhole(s[1..], seps);
      assert s == [s[0]] + s[1..];
    }
  }

  /** Python `sep.join(parts)`. */
  function Join(parts: seq<string>, sep: string): string
    decreases |parts|
  {
    if |parts| == 0 then ""
    else if |parts| == 1 then parts[0]
    else parts[0] + sep + Join(parts[1..], sep)
  }

  lemma JoinPrepend(x: string, parts: seq<string>, sep: string)
    requires |parts| > 0
    ensures Join([x + parts[0]] + parts[1..], sep) == x + Join(parts, sep)
  {
    var ps := [x + parts[0]] + parts[1..];
    assert ps[1..] == parts[1..];
  }

  /** Splitting on one separator and joining back with it gives the original string. */
  lemma {:induction false} JoinSplit(s: string, c: char)
    ensures Join(SplitAny(s, {c}), [c]) == s
    decreases |s|
  {
    if |s| > 0 {
      var rest := SplitAny(s[1..], {c});
      JoinSplit(s[1..], c);
      if s[0] == c {
        assert SplitAny(s, {c}) == [""] + rest;
        assert ([""] + rest)[1..] == rest;
        assert s == [c] + s[1..];
      } else {
        assert SplitAny(s, {c}) == [[s[0]] + rest[0]] + rest[1..];
        JoinPrepend([s[0]], rest, [c]);
        assert s == [s[0]] + s[1..];
      }
    }
  }

  // ---------------------------------------------------------------------------
  // Decimal numbers

  predicate IsAsciiDigit(c: char) {
    '0' <= c <= '9'
  }

  /** Characters Python's `\d` and `int()` accept that the model covers: ASCII and full-width digits. */
  predicate IsPyDigit(c: char) {
    IsAsciiDigit(c) || ('\U{FF10}' <= c <= '\U{FF19}')
  }

  function PyDigitValue(c: char): (d: nat)
    requires IsPyDigit(c)
    ensures d < 10
  {
    if IsAsciiDigit(c) then c as int - '0' as int else c as int - '\U{FF10}' as int
  }

  predicate AllPyDigits(s: string) {
    forall i :: 0 <= i < |s| ==> IsPyDigit(s[i])
  }

  /** Python `int(s)` for a string of decimal digits. */
  function DecimalValue(s: string): nat
    requires AllPyDigits(s)
    decreases |s|
  {
    if |s| == 0 then 0 else DecimalValue(s[..|s| - 1]) * 10 + PyDigitValue(s[|s| - 1])
  }

  function DigitChar(d: nat): (c: char)
    requires d < 10
    ensures IsAsciiDigit(c)
  {
    (48 + d) as char
  }

  /** Decimal text of a natural number, without leading zeros (Python `str`, JavaScript `toString`). */
  function NatToString(n: nat): (r: string)
    ensures |r| > 0
    ensures forall i :: 0 <= i < |r| ==> IsAsciiDigit(r[i])
    ensures r[0] == '0' ==> n == 0
    decreases n
  {
    if n < 10 then [DigitChar(n)] else NatToString(n / 10) + [DigitChar(n % 10)]
  }

  /** Reading back the decimal text of `n` gives `n`. */
  lemma {:induction false} DecimalRoundTrip(n: nat)
    ensures AllPyDigits(NatToString(n)) && DecimalValue(NatToString(n)) == n
    decreases n
  {
    var s := NatToString(n);
    if n >= 10 {
      DecimalRoundTrip(n / 10);
      assert s[..|s| - 1] == NatToString(n / 10);
    }
  }

  function IntToString(i: int): (r: string)
    ensures |r| > 0
    ensures (r[0] == '-') <==> i < 0
  {
    if i < 0 then "-" + NatToString(-i) else NatToString(i)
  }

  // ---------------------------------------------------------------------------
  // Python string ordering (code point by code point)

  /** Python's `a < b` on strings. */
  predicate LexLess(a: string, b: string)
    decreases |a|
  {
    if |a| == 0 then |b| > 0
    else if |b| == 0 then false
    else if a[0] != b[0] then a[0] < b[0]
    else LexLess(a[1..], b[1..])
  }

  lemma {:induction false} LexIrreflexive(a: string)
    ensures !LexLess(a, a)
    decreases |a|
  {
    if |a| > 0 {
      LexIrreflexive(a[1..]);
    }
  }

  lemma {:induction false} LexTransitive(a: string, b: string, c: string)
    requires LexLess(a, b) && LexLess(b, c)
    ensures LexLess(a, c)
    decreases |a|
  {
    if |a| > 0 && |b| > 0 && |c| > 0 && a[0] == b[0] && b[0] == c[0] {
      LexTransitive(a[1..], b[1..], c[1..]);
    }
  }

  lemma {:induction false} LexTotal(a: string, b: string)
    ensures a == b || LexLess(a, b) || LexLess(b, a)
    decreases |a|
  {
    if |a| > 0 && |b| > 0 && a[0] == b[0] {
      LexTotal(a[1..], b[1..]);
      if a[1..] == b[1..] {
        assert a == [a[0]] + a[1..] && b == [b[0]] + b[1..];
      }
    }
  }

  lemma {:induction false} LexAsymmetric(a: string, b: string)
    requires LexLess(a, b)
    ensures !LexLess(b, a)
    decreases |a|
  {
    if |a| > 0 && |b| > 0 && a[0] == b[0] {
      LexAsymmetric(a[1..], b[1..]);
    }
  }

  /** Python `max(xs)` for strings: an element no other element exceeds. */
  function MaxString(xs: seq<string>): (r: string)
    requires |xs| > 0
    ensures r in xs
    ensures forall x :: x in xs ==> !LexLess(r, x)
    decreases |xs|
  {
    if |xs| == 1 then
      LexIrreflexive(xs[0]);
      xs[0]
    else
      var m := MaxString(xs[1..]);
      if LexLess(xs[0], m) then
        LexAsymmetric(xs[0], m);
        m
      else
        assert forall x :: x in xs[1..] ==> !LexLess(xs[0], x) by {
          forall x | x in xs[1..] ensures !LexLess(xs[0], x) {
            if LexLess(xs[0], x) {
              LexTotal(x, m);
              if LexLess(x, m) { LexTransitive(xs[0], x, m); }
              else if LexLess(m, x) { }
            }
          }
        }
        LexIrreflexive(xs[0]);
        xs[0]
  }

  // ---------------------------------------------------------------------------
  // Truncation and Python slicing

  /** `s[:n] + ("..." if len(s) > n else "")`: short text unchanged, long text cut to `n`
      characters followed by an ellipsis. */
  function Abbreviate(s: string, n: nat): (r: string)
    ensures |s| <= n ==> r == s
    ensures |s| > n ==> |r| == n + 3 && r[..n] == s[..n] && EndsWith(r, "...")
  {
    if |s| > n then s[..n] + "..." else s
  }

  /** Abbreviating twice changes nothing. */
  lemma AbbreviateIdempotent(s: string, n: nat)
    ensures Abbreviate(Abbreviate(s, n), n) == Abbreviate(s, n)
  {
    if |s| > n {
      var a := Abbreviate(s, n);
      assert a[..n] == s[..n];
    }
  }

  /** Python `s[k:]`, including negative `k` counted from the end. */
  function PySliceFrom<T>(s: seq<T>, k: int): (r: seq<T>)
    ensures |r| <= |s| && r == s[|s| - |r|..]
    ensures k == 0 ==> r == s
    ensures k < 0 ==> |r| == (if -k < |s| then -k else |s|)
    ensures k > 0 ==> |r| == (if k < |s| then |s| - k else 0)
  {
    var start := if k < 0 then (if |s| + k < 0 then 0 else |s| + k) else (if k > |s| then |s| else k);
    s[start..]
  }

  /** Python `s[::-1]`. */
  function Reverse<T>(s: seq<T>): (r: seq<T>)
    ensures |r| == |s|
    ensures forall i :: 0 <= i < |s| ==> r[i] == s[|s| - 1 - i]
    decreases |s|
  {
    if |s| == 0 then [] else Reverse(s[1..]) + [s[0]]
  }
}
